=== FILE: README.md ===
# Photo-sharing app: a Dafny model of its client and server rules

Snapgram is a photo-sharing application. It has a React client (`frontend/`, plus the
older prototype under `src/`) and a Django REST backend (`backend/api/`). This
project models the parts of both that hold decisions and proves properties about
them.

**Client side**
- the field validators and the hand-written `validateForm` functions of the sign-up,
  sign-in, reset-password, forgot-password, post and profile forms;
- the form hook, the request-state hooks and the infinite query;
- the token store, the auth bootstrap and its redirect rule, and the saved-posts
  context;
- the like/save buttons, the comment handlers and menu, and the two delete guards;
- the request shapes the service layer sends.

**Server side**
- the models' invariants: unique accounts and saves, newest-first ordering, likes
  as a set;
- the registration and profile serializers;
- the list, search, login and like views, and the querysets scoped to the user;
- the Cloudinary public-id extraction.

**How the model is built**
- Every module is pure. A handler is one atomic transition from a state to a new
  state plus a list of effects: requests sent, alerts shown, navigation.
- A server or storage reply is an explicit input, `Resolved(value)` or
  `Rejected(thrown)`.
- Tables are sequences of immutable rows. A write returns either the new table
  and row, or an integrity error.
- JavaScript values that may be numbers or strings are `JsVal`. Truthiness,
  `String(x)` and `===` are written out in `Js`.
- Python's `str.strip`, `int()` and `split`/`join` are written out in `Python`
  and `Text`.

The modules follow the source files. The foundation modules are `Outcomes`,
`Text`, `Seqs`, `Js`, `Ui`, `Python`, `FormFields` and `HttpClient`. There is one
module per component, hook or backend file on top of them.

## Model

| member | source | states |
|---|---|---|
| Validation.ValidateEmail | src/lib/validation/simple.js:3-8 | "Email is required" for "", no error exactly when the address is strict (one `@`, no blanks, a dotted domain with non-empty pieces), otherwise "Invalid email format" |
| Validation.StrictEmailTestMeaning | src/lib/validation/simple.js:5-6 | the executable test of the anchored regular expression agrees with its declarative reading, both directions |
| Validation.StrictEmailHasOneAt | src/lib/validation/simple.js:5-6 | an address the anchored pattern accepts has exactly one `@` |
| Validation.LooseEmailTestMeaning | frontend/src/_auth/forms/SignupForm.jsx:56-60 | the executable test of the unanchored `\S+@\S+\.\S+` search agrees with "some substring matches", both directions |
| Validation.StrictImpliesLoose | src/lib/validation/simple.js:3-8 | every address the prototype's anchored pattern accepts is also accepted by the unanchored pattern of the frontend forms |
| Validation.ValidatePassword | src/lib/validation/simple.js:10-14 | no error iff at least 6 characters; the required message for "", the length message otherwise |
| Validation.ValidateName | src/lib/validation/simple.js:16-20 | no error iff at least 2 characters, with the required and length messages |
| Validation.ValidateUsername | src/lib/validation/simple.js:22-27 | no error iff at least 3 characters all in `[A-Za-z0-9_]`; required, then length, then charset message |
| Validation.ConfirmError | src/lib/validation/simple.js:44-48 | no error iff the confirmation is non-empty and equal to the password, with the two distinct messages |
| Validation.ValidateSignup | src/lib/validation/simple.js:29-51 | each key is present exactly when its single-field validator fails and carries that message; no other keys |
| Validation.SignupAcceptsExactly | src/lib/validation/simple.js:29-51 | the sign-up data is accepted iff every field passes its validator |
| Validation.ValidateSignin | src/lib/validation/simple.js:53-63 | only the email and password keys, each the single-field verdict |
| Validation.ValidateProfile | src/lib/validation/simple.js:65-82 | name/username/email verdicts plus "Bio is required" iff the bio is empty |
| Validation.ValidatePost | src/lib/validation/simple.js:84-100 | a caption error iff the caption is shorter than 5 or longer than 2200 (distinct messages), a location error iff longer than 1000, no other keys |
| FormFields.Change | frontend/src/_auth/forms/SignupForm.jsx:27-40 | only the named field takes the new value; only that field's error is cleared, and only when it was shown |
| FormFields.ChangeClearingApiError | frontend/src/_auth/forms/ResetPasswordForm.jsx:28-45 | typing is `Change` and also clears the API error, leaving the submit flags alone |
| FormFields.ApiErrorMessage | frontend/src/_auth/forms/ResetPasswordForm.jsx:84-96 | the message shown for a rejection: `data.error`, else `data.detail`, else the status message, else the error's message, else the default; never empty |
| SignupForm.ValidateForm | frontend/src/_auth/forms/SignupForm.jsx:43-76 | "Name is required" iff blank after trimming; "Username is required" when blank, else "Username must be at least 3 characters" when shorter than 3; "Email is required" when empty, else "Email is invalid" unless the unanchored pattern matches; "Password is required" when empty, else "Password must be at least 6 characters" when shorter than 6; "Please confirm your password" when empty, else "Passwords do not match"; no other keys |
| SignupForm.Flow | frontend/src/_auth/forms/SignupForm.jsx:86-119 | the account is created first; sign-in only after a created account; a missing session sends the user to /sign-in; the auth check only after a session; the fields are blanked and /home reached only when all three confirm |
| SignupForm.Submit | frontend/src/_auth/forms/SignupForm.jsx:79-120 | an invalid form sends no request and keeps the values; a valid one runs the flow above |
| SigninForm.ValidateForm | frontend/src/_auth/forms/SigninForm.jsx:39-56 | email required or "Email is invalid" by the unanchored pattern; password required or too short |
| SigninForm.Flow | frontend/src/_auth/forms/SigninForm.jsx:66-97 | sign-in first; a missing session gives a failure toast with no auth check and no navigation; a confirmed login blanks the fields and goes to /home; an unconfirmed one only toasts |
| SigninForm.Submit | frontend/src/_auth/forms/SigninForm.jsx:59-98 | an invalid form never calls sign-in; a valid one does, with the form's email and password |
| ResetPasswordForm.MountRedirect | frontend/src/_auth/forms/ResetPasswordForm.jsx:21-25 | a redirect to /forgot-password iff the route token is missing or empty |
| ResetPasswordForm.ValidateForm | frontend/src/_auth/forms/ResetPasswordForm.jsx:48-65 | password required or shorter than 6; confirmation "Please confirm your password" or "Passwords do not match" |
| ResetPasswordForm.Submit | frontend/src/_auth/forms/ResetPasswordForm.jsx:68-100 | an invalid form sends nothing; success is set only once the reset resolves; a rejection shows the prioritised message with "Invalid or expired reset token." for 400 |
| ForgotPasswordForm.ValidateForm | frontend/src/_auth/forms/ForgotPasswordForm.jsx:36-47 | email required, or "Email is invalid" unless a substring matches the unanchored pattern |
| ForgotPasswordForm.Submit | frontend/src/_auth/forms/ForgotPasswordForm.jsx:50-82 | an invalid form sends nothing; success only after the request resolves; a rejection shows the prioritised message with the 404 text |
| ForgotPasswordForm.TryAnother | frontend/src/_auth/forms/ForgotPasswordForm.jsx:105-108 | clears success and resets the email to ""; errors, API error and the submitting flag are kept |
| SimpleForm.Init | frontend/src/hooks/useSimpleForm.js:9-11 | the initial values, no errors, not submitting |
| SimpleForm.SetValue | frontend/src/hooks/useSimpleForm.js:14-20 | `Change` on the form's values and errors; the submit flag is unchanged |
| SimpleForm.SetError | frontend/src/hooks/useSimpleForm.js:23-25 | only the named error is set |
| SimpleForm.SetFormErrors | frontend/src/hooks/useSimpleForm.js:28-30 | the errors are replaced wholesale; values and flag kept |
| SimpleForm.HandleSubmit | frontend/src/hooks/useSimpleForm.js:33-53 | a non-empty validation result replaces the errors and calls nothing; otherwise the submit callback gets the current values exactly once, and the flag ends false |
| SimpleForm.Reset | frontend/src/hooks/useSimpleForm.js:56-60 | the state equals a freshly initialised form |
| RequestState.Initial | frontend/src/hooks/useQueries.js:36-38 | no data, not loading, no error |
| RequestState.Begin | frontend/src/hooks/useQueries.js:41-42 | loading with the error cleared and the data kept |
| RequestState.CallApi | frontend/src/hooks/useQueries.js:40-54 | success stores and returns the result; failure records the error (a non-Error is wrapped as "An error occurred"), rethrows it and keeps the data; never left loading |
| RequestState.RethrowIsStable | frontend/src/hooks/useQueries.js:47-50 | a rethrown error passed through a second request hook is the same error, recorded the same way |
| RequestState.FirstArg | frontend/src/hooks/useApi.js:59-63 | only the first argument reaches the mutation function, `undefined` when there is none |
| RequestState.Mount | frontend/src/hooks/useQueries.js:57-61 | a hook fetches on mount iff it is the recent-posts or users hook, or an id-keyed hook with a truthy id; fetching starts loading |
| RequestState.Positional | frontend/src/hooks/useQueries.js:108-119 | the object argument becomes positional arguments in the listed order, missing keys as `undefined` |
| RequestState.PositionalIgnoresOtherKeys | frontend/src/hooks/useQueries.js:147-154 | extra properties of the argument object never reach the service function |
| InfiniteQuery.Initial | frontend/src/hooks/useApi.js:83-87 | no data, a next page expected at cursor 0 |
| InfiniteQuery.FetchNextPage | frontend/src/hooks/useApi.js:89-111 | a no-op when exhausted or loading; a page is appended after the earlier data; the cursor and `hasNextPage` follow `getNextPageParam`, or a non-empty page without it; a failure changes only the error; never left loading |
| InfiniteQuery.DataOnlyGrows | frontend/src/hooks/useApi.js:96 | over any series of replies, earlier pages stay a prefix of the data |
| InfiniteQuery.ExhaustedStaysPut | frontend/src/hooks/useApi.js:90 | once no next page is expected, further calls change nothing |
| InfiniteQuery.EmptyPageEnds | frontend/src/hooks/useApi.js:102-104 | without `getNextPageParam` an empty page ends the pages and adds nothing |
| HttpClient.BaseUrl | frontend/src/lib/api.js:3 | the configured base URL when non-empty, else the development server |
| HttpClient.GetImageUrl | frontend/src/lib/api.js:5-10 | null for a falsy path; `http…` and `/assets/images/…` pass through; anything else is prefixed with the base URL |
| HttpClient.GetImageUrlIdempotent | frontend/src/lib/api.js:5-10 | with an `http` base URL, resolving an already resolved URL changes nothing |
| HttpClient.SetAuthToken | frontend/src/lib/api.js:17-25 | a truthy token is stored and sent as `Bearer <token>`; anything else removes both; the two agree afterwards |
| HttpClient.Load | frontend/src/lib/api.js:28-29 | a stored truthy token is re-applied to the header at load |
| HttpClient.TokenPlacesAgree | frontend/src/lib/api.js:17-29 | from load on, while only `setAuthToken` touches them, the header is present iff the key is stored, and the last call decides both |
| HttpClient.ApplyKeepsConsistent | frontend/src/lib/api.js:17-25 | any series of `setAuthToken` calls preserves the agreement of header and storage |
| Services.PostForm | src/lib/services/api.js:101-116 | the caption always comes first; the first file is sent as image only when there is one; location and tags only when truthy; nothing else |
| Services.CreatePost | src/lib/services/api.js:101-128 | a POST of that form to the posts endpoint |
| Services.UpdatePost | src/lib/services/api.js:175-202 | a PATCH of the same form as create, to the post's own URL |
| Services.UpdateUser | src/lib/services/api.js:75-95 | only name and bio, plus the first file as image when there is one |
| Services.SavePost | src/lib/services/api.js:242-252 | a POST of `{post}` alone |
| Services.SavePostIgnoresUser | src/lib/services/api.js:242-246 | the user id argument has no effect on the request |
| Services.GetUsers | src/lib/services/api.js:54-63 | the limit parameter is sent iff the limit is truthy |
| Services.GetInfinitePosts | src/lib/services/api.js:140-150 | the page cursor is sent as `offset`, 0 by default |
| Services.SearchPosts | src/lib/services/api.js:152-162 | the term is sent as `q` |
| Services.Guarded | src/lib/services/api.js:164-173 | a falsy id throws the given message before any request; a truthy one sends to the id's URL |
| Services.GetPostById | src/lib/services/api.js:164-173 | a falsy id throws "Post ID is required" and sends nothing |
| Services.DeletePost | src/lib/services/api.js:204-213 | a falsy id throws "Post ID is required"; otherwise a DELETE without body |
| Services.GetUserPosts | src/lib/services/api.js:227-236 | a falsy id throws "User ID is required" and sends nothing |
| Services.WrapDocuments | src/lib/services/api.js:130-138 | a resolved list is wrapped as `{documents}`; a rejection passes through unchanged |
| Services.SignInRequest | src/lib/services/api.js:17-22 | the email is sent under `username` with the password |
| Services.SignInAccount | src/lib/services/api.js:17-32 | on success the returned access token is installed by `setAuthToken`; a failure rethrows and keeps the session |
| Services.SignOutAccount | src/lib/services/api.js:34-42 | no request; the token is gone from header and storage; the result is "success" |
| AuthContext.FromServer | frontend/src/context/AuthContext.jsx:43-50 | the context user takes `String(id)` and the five listed fields, and nothing merged in earlier |
| AuthContext.CheckAuthUserAsWritten | frontend/src/context/AuthContext.jsx:32-64 | as written: a failed fetch removes the stored token but not the header |
| AuthContext.AsWrittenLeavesStaleHeader | frontend/src/context/AuthContext.jsx:55-60 | after a token is installed, a rejected check leaves `Bearer abc` in the header with nothing stored |
| AuthContext.CheckAuthUser | frontend/src/context/AuthContext.jsx:32-64 | no token: unauthenticated, false, no fetch; a user: set from the server, authenticated, true; a falsy user: false with nothing changed; a failure: token removed everywhere, unauthenticated, false; never left loading |
| AuthContext.CheckResultAgreesWithState | frontend/src/context/AuthContext.jsx:32-64 | a true result leaves the context authenticated; a missing token or a failure leaves it unauthenticated |
| AuthContext.MountRule | frontend/src/context/AuthContext.jsx:66-81 | a stored token runs the check; otherwise a redirect iff the path contains none of the open paths (and, when exempt, is not the root) |
| AuthContext.Mount | frontend/src/context/AuthContext.jsx:66-81 | the frontend's rule: five open paths, the root exempt, redirect to "/" |
| AuthContext.PrototypeMount | src/context/AuthContext.jsx:66-77 | the prototype's rule: sign-in and sign-up open, redirect to /sign-in |
| AuthContext.NoRedirectLoop | frontend/src/context/AuthContext.jsx:72-79 | the redirect target itself never redirects again, for either rule |
| AuthContext.SharedLinksStay | frontend/src/context/AuthContext.jsx:77 | a shared-post link never redirects a signed-out visitor |
| AuthLayout.Decide | frontend/src/_auth/AuthLayout.jsx:5-31 | a redirect to /saved iff authenticated and not on a `/reset-password/` page; the outlet otherwise |
| SavedPosts.Commit | frontend/src/context/SavedPostsContext.jsx:11-24 | only the first commit of the provider starts a load |
| SavedPosts.LoadsOnce | frontend/src/context/SavedPostsContext.jsx:11-24 | however often the provider commits, the saved list is loaded exactly once |
| SavedPosts.StaysLoadedOnce | frontend/src/context/SavedPostsContext.jsx:11-24 | a mounted provider is unchanged by further commits |
| SavedPosts.FinishLoad | frontend/src/context/SavedPostsContext.jsx:13-20 | loading ends whether or not the load failed; a failure keeps the old data |
| SavedPosts.Refresh | frontend/src/context/SavedPostsContext.jsx:26-32 | the refresh always resolves; a failed fetch keeps the data |
| SavedPosts.UseSavedPosts | frontend/src/context/SavedPostsContext.jsx:47-53 | throws outside a provider, returns the provider inside one |
| PostStats.FirstTruthyCount | frontend/src/components/PostStats.jsx:60 | `a \|\| b \|\| c` on the counts: the first present non-zero count, or none |
| PostStats.FirstPresentCount | frontend/src/components/PostStats.jsx:60 | the first count the reply carries at all |
| PostStats.LocalCount | frontend/src/components/PostStats.jsx:64-67 | one more after a like, one fewer (not below 0) after an unlike |
| PostStats.NextCountAsWritten | frontend/src/components/PostStats.jsx:59-68 | as written: a truthy server count wins, otherwise the local count |
| PostStats.AsWrittenIgnoresZeroCount | frontend/src/components/PostStats.jsx:64-67 | a server count of 0 after an unlike is discarded and a stale local 2 becomes 1 |
| PostStats.NextCount | frontend/src/components/PostStats.jsx:59-68 | the server's count whenever the reply carries one, else the local count; never negative from non-negative inputs |
| PostStats.CountRulesAgreeOnTruthy | frontend/src/components/PostStats.jsx:59-68 | the corrected and the written rule agree whenever the server's count is non-zero |
| PostStats.WithoutUser | frontend/src/components/PostStats.jsx:66 | every occurrence of the user is removed and no other id |
| PostStats.LikesAfter | frontend/src/components/PostStats.jsx:62-68 | a like appends the user, an unlike removes every copy of them; no other id changes |
| PostStats.HandleLike | frontend/src/components/PostStats.jsx:51-72 | as written: one like request; a failure changes nothing; a like appends the user, an unlike removes them; a truthy server count is shown, a zero or missing one gives the local guess; others' likes and the saved flag are kept |
| PostStats.HandleLikeCorrected | frontend/src/components/PostStats.jsx:51-72 | the same handler with the counter taken from the server whenever the reply carries a count, zero included |
| PostStats.HandleLikeShowsStaleCount | frontend/src/components/PostStats.jsx:64-67 | local count 2 and an unlike answered with `likes_count: 0`: the handler as written shows 1, the corrected one 0 |
| PostStats.HandlersAgreeOnTruthyOrMissingCount | frontend/src/components/PostStats.jsx:59-68 | when no zero count hides behind the first truthy one, both handlers give the same state and requests |
| PostStats.LikeThenUnlikeRestores | frontend/src/components/PostStats.jsx:51-72 | a like then an unlike, with replies carrying no count, restore the likes and the count, in both handlers |
| PostStats.SyncLikes | frontend/src/components/PostStats.jsx:35-42 | `is_liked` true gives the user alone, false gives none, undefined keeps the likes |
| PostStats.SyncCount | frontend/src/components/PostStats.jsx:45-49 | a defined `likes_count` replaces the counter; otherwise it is kept |
| PostStats.Mount | frontend/src/components/shared/PostStats.jsx:15-17 | the counter starts at `likes_count`, or 0; not saved; the user is in the likes iff the post is liked |
| PostStats.SavedRecordFor | frontend/src/components/PostStats.jsx:26-28 | the first saved record whose post id is this post's, none when there is no list or no such record |
| PostStats.HandleSave | frontend/src/components/PostStats.jsx:74-90 | an existing record is deleted by its own id, otherwise a save is created; the list is refreshed on success; a failure changes nothing |
| PostStats.SyncSaved | frontend/src/components/PostStats.jsx:26-32 | the saved flag is re-derived as "a record for this post is in the list"; likes and counter untouched |
| PostStats.SaveThenRefreshAgrees | frontend/src/components/PostStats.jsx:26-32 | after a successful save or unsave, a refreshed list reflecting it re-derives exactly the flag the handler set |
| PostStats.FailedSaveKeepsSyncedFlag | frontend/src/components/PostStats.jsx:76-89 | a failed save leaves a flag that agreed with the list still agreeing with it |
| Comments.OwnershipAcrossTypes | frontend/src/components/shared/Comment.jsx:24-25 | comparing through `String` makes a numeric server id and its string form owned alike, though `===` tells them apart |
| Comments.Notify | frontend/src/components/shared/Comment.jsx:33 | the parent is notified only when it passed a callback |
| Comments.HandleUpdate | frontend/src/components/shared/Comment.jsx:27-43 | the trimmed text is sent iff it is non-blank and differs from the original; success exits editing and notifies; failure alerts and keeps editing |
| Comments.HandleDelete | frontend/src/components/shared/Comment.jsx:45-56 | one delete request; the parent hears of it only on success; a failure alerts |
| Comments.HandlePin | frontend/src/components/shared/Comment.jsx:63-71 | one pin request; the parent hears of it only on success; a failure alerts |
| Comments.HandleCancel | frontend/src/components/shared/Comment.jsx:58-61 | the text reverts to the original and editing ends |
| Comments.StartEdit | frontend/src/components/ui/CommentOptionsMenu.jsx:52-55 | editing begins with the text as it was |
| Comments.CancelDiscardsTyping | frontend/src/components/shared/Comment.jsx:58-61 | whatever was typed after starting an edit, cancelling restores the original |
| Comments.MenuItems | frontend/src/components/ui/CommentOptionsMenu.jsx:63-116 | nothing iff neither owner; the pin item iff post owner, labelled by the pin state; edit and delete iff owner not editing; cancel-edit iff owner editing |
| Comments.ClickItem | frontend/src/components/ui/CommentOptionsMenu.jsx:30-60 | pinning asks first and unpinning does not; delete only after confirmation; every click closes the menu |
| Comments.SubmitComment | frontend/src/components/CommentSection.jsx:18-34 | blank text or a submission in flight does nothing; the trimmed text is sent; success clears the input and refetches; failure keeps it; the flag is reset |
| Comments.Refetch | frontend/src/components/CommentSection.jsx:25-27 | the refetch request is made, and an alert shows iff it fails |
| Comments.DisplayedCount | frontend/src/components/CommentSection.jsx:55 | the number of comments, or 0 when none are loaded |
| PostForm.TagsText | frontend/src/components/PostForm.jsx:21 | a tag list is joined with ",", a string is kept, an absent value gives "" |
| PostForm.TagsRoundTrip | frontend/src/components/PostForm.jsx:21 | splitting the joined field on "," gives back a non-empty, comma-free tag list |
| PostForm.FieldsOf | frontend/src/components/PostForm.jsx:29-39 | the post's fields with "" and `false` for what it lacks |
| PostForm.Init | frontend/src/components/PostForm.jsx:18-23 | the post's fields when one is given, blank ones otherwise; no errors |
| PostForm.Resync | frontend/src/components/PostForm.jsx:29-39 | in update mode the fields are re-read from the post; otherwise nothing changes |
| PostForm.SetField | frontend/src/components/PostForm.jsx:42-55 | the named text field takes the value; other names change nothing; privacy kept |
| PostForm.HandleChange | frontend/src/components/PostForm.jsx:42-55 | only the named field changes and its shown error is cleared |
| PostForm.TogglePrivacy | frontend/src/components/PostForm.jsx:58-63 | only `is_private` changes |
| PostForm.Validate | frontend/src/components/PostForm.jsx:66-75 | a caption error iff the trimmed caption is empty |
| PostForm.Submit | frontend/src/components/PostForm.jsx:78-123 | an invalid form calls nothing; the update branch iff a post is given and the action is Update, else create; the outcome decides navigation or the alert |
| UpdateProfile.TargetId | frontend/src/_root/pages/UpdateProfile.jsx:16 | the route id when truthy, else the signed-in user's id |
| UpdateProfile.Init | frontend/src/_root/pages/UpdateProfile.jsx:24-31 | the form seeded from the context user, "" and `false` for what it lacks |
| UpdateProfile.Validate | frontend/src/_root/pages/UpdateProfile.jsx:72-81 | a name error iff the trimmed name is empty |
| UpdateProfile.TogglePrivacy | frontend/src/_root/pages/UpdateProfile.jsx:53-69 | success sets the flag in both the form and the context user, a failure in neither |
| UpdateProfile.Merge | frontend/src/_root/pages/UpdateProfile.jsx:104-112 | only name, bio, location, privacy and image URL of the context user are overwritten |
| UpdateProfile.UpdateCall | frontend/src/_root/pages/UpdateProfile.jsx:93-102 | the update call carries the form's fields and the shown profile's id |
| UpdateProfile.Submit | frontend/src/_root/pages/UpdateProfile.jsx:84-123 | an invalid form calls nothing; a truthy result merges and navigates; a falsy one alerts without navigating |
| PostDelete.CardDelete | frontend/src/components/shared/PostCard.jsx:20-34 | a non-owner gets the "own posts" alert and nothing else; the owner only opens the modal; no request either way |
| PostDelete.CardConfirm | frontend/src/components/shared/PostCard.jsx:36-50 | the delete request, then the callback or a reload on success, an alert on failure |
| PostDelete.DetailsDelete | frontend/src/_root/pages/PostDetails.jsx:33-50 | a non-owner is alerted; the owner's request only after confirmation; navigation back iff it succeeds |
| PostDelete.RelatedPostsAsWritten | frontend/src/_root/pages/PostDetails.jsx:29-31 | as written: posts whose id is `!==` the route's string |
| PostDelete.AsWrittenKeepsEveryNumericPost | frontend/src/_root/pages/PostDetails.jsx:29-31 | with numeric ids from the server the filter removes nothing |
| PostDelete.AsWrittenListsCurrentPost | frontend/src/_root/pages/PostDetails.jsx:29-31 | post 7 is listed as related to itself on route "7" |
| PostDelete.RelatedPosts | frontend/src/_root/pages/PostDetails.jsx:29-31 | the author's posts whose id, as a string, differs from the route's |
| PostDelete.RelatedPostsExcludeCurrent | frontend/src/_root/pages/PostDetails.jsx:29-31 | the current post is never listed, whether its id arrives as a number or a string |
| Js.StrictEqImpliesSameId | frontend/src/_root/pages/PostDetails.jsx:128 | strict equality implies equality of the string forms; a number is never `===` a string |
| AuthContext.ContainsSelf | frontend/src/context/AuthContext.jsx:73-78 | every path contains itself, so an open path is never redirected |
| Models.ImageUrl | backend/api/models.py:22-26 | no URL iff there is no image; otherwise the storage URL of the image |
| Models.InsertNewest | backend/api/models.py:40-41 | a new row keeps the table newest-first and adds exactly that row |
| Models.FilterKeepsNewestFirst | backend/api/models.py:40-41 | filtering a table kept newest first (`ordering = ['-created_at']`) gives rows kept newest first |
| Seqs.FilterSubMultiset | backend/api/views.py:191-193 | a filtered queryset holds each row at most as often as the table |
| Models.NewRowGoesFirst | backend/api/models.py:40-41 | a row at least as new as every other is listed first |
| Models.NextId | backend/api/models.py:29-31 | a fresh primary key above every existing one |
| Models.CreateUser | backend/api/models.py:9-10 | an integrity error iff the username or email is taken; otherwise the new account is appended with a fresh id |
| Models.CreateUserKeepsAccountsUnique | backend/api/models.py:9-10 | ids, usernames and emails stay unique after a successful create |
| Models.Authenticate | backend/api/models.py:16 | the account is found by email with a matching password, or none when no account has both |
| Models.AuthenticateFindsAccount | backend/api/models.py:16 | with unique emails, an account's own credentials find exactly that account |
| Models.CreateSave | backend/api/models.py:78-81 | an integrity error iff the user already saved the post; otherwise the save is inserted newest first |
| Models.InsertSave | backend/api/models.py:72-81 | the database refuses a row without a post or a repeated (user, post) pair; otherwise the row is inserted newest first with a fresh id |
| Models.CreateSaveKeepsUnique | backend/api/models.py:78-79 | the saves stay unique per (user, post) and per id |
| Models.AddedRowKeepsUnique | backend/api/models.py:78-79 | a row with a fresh id and a fresh (user, post) pair keeps the saves unique |
| Serializers.Clean | backend/api/serializers.py:9-10 | a submitted string is stripped of surrounding blanks; an absent one stays absent |
| Serializers.UniqueFieldProblems | backend/api/models.py:9-10 | a unique field is accepted iff present, non-blank, within its bound and not already taken |
| Serializers.FieldProblems | backend/api/serializers.py:7-14 | the registration has no field problems iff username, email, name and password are each acceptable |
| Serializers.NormalizeEmail | backend/api/serializers.py:20-23 | an address with an `@` is stripped, split at its last `@`, and its domain lower-cased; one without `@` is unchanged; a non-empty address stays non-empty |
| Serializers.Register | backend/api/serializers.py:7-24 | invalid iff a field problem or a password mismatch ("Passwords don't match"); otherwise the account is created from the stripped values without the confirmation, the username in its NFKC form and the email normalised |
| Serializers.DatabaseErrorOnlyFromNormalising | backend/api/serializers.py:21-24 | a database error after validation comes only from a username whose NFKC form is taken or an email normalised onto a taken one |
| Serializers.NormalisedUsernameCollides | backend/api/serializers.py:21-24 | a valid registration whose username's NFKC form is already stored ("ｆｏｏ" against "foo") fails in the database |
| Serializers.ProfileProblems | backend/api/serializers.py:37-43 | a partial profile update is accepted iff the fields it carries are within their bounds |
| Serializers.UpdateProfile | backend/api/serializers.py:45-51 | name and bio kept when absent; image replaced only when provided; no other field changes |
| Serializers.UpdateProfileIdempotent | backend/api/serializers.py:45-51 | an empty update is the identity, and applying an update twice equals applying it once |
| Serializers.IsLiked | backend/api/serializers.py:68-72 | false without a requesting user, otherwise membership in the likes |
| Serializers.CommentsOf | backend/api/serializers.py:74-75 | exactly the comments of the post |
| Serializers.CommentsCountPrepend | backend/api/serializers.py:74-75 | a new comment on the post adds one to its count, and one on another post adds nothing |
| Serializers.Serialize | backend/api/serializers.py:54-75 | likes_count is the number of likers, is_liked the requester's membership, imageUrl absent iff no image, comments_count the post's comments |
| Views.Toggle | backend/api/views.py:173-178 | the user is removed when present and added otherwise; liked reports which; others unchanged; the size moves by one |
| Views.ToggleTwiceRestores | backend/api/views.py:173-178 | two toggles restore the original likes |
| Views.LikePost | backend/api/views.py:166-183 | 404 iff no such post; otherwise only that post's likes toggle, and the reply's count is the new number of likers |
| Views.LikeTwiceRestores | backend/api/views.py:166-183 | liking twice restores the table |
| Views.LikeReplyMatchesSerializer | backend/api/views.py:180-183 | the like reply agrees with how the post serializes afterwards |
| Views.Window | backend/api/views.py:115-117 | the slice `[offset:offset+size]`: its length and its elements |
| Views.ListPosts | backend/api/views.py:114-117 | a server error iff the offset is present and `int()` rejects it or it is negative; otherwise exactly the twenty-post window of the table starting at the parsed offset, or at 0 when absent |
| Views.ClientOffsetServed | backend/api/views.py:114-117 | any non-negative cursor the client sends is served as that window |
| Views.PagesCoverPrefix | backend/api/views.py:114-117 | the first n pages together are exactly the first 20·n posts |
| Views.RecentPosts | backend/api/views.py:128-129 | the first 10 posts, or all when fewer |
| Views.ListUsers | backend/api/views.py:84-92 | always a prefix of the users; shorter only for an integer limit; a non-negative limit gives that many; a non-integer or negative one gives all |
| Views.ClientLimitServed | backend/api/views.py:84-92 | a numeric limit from the client gives the first that many users |
| Views.SearchPosts | backend/api/views.py:155-163 | empty for an empty query; otherwise exactly the posts whose caption, tags or location contain it, ignoring case, each at most as often as in the table and in newest-first order |
| Views.SearchIgnoresCase | backend/api/views.py:158-161 | a query and its lower-case form find the same posts |
| Views.SearchFindsCaption | backend/api/views.py:158-159 | a post is found by its own non-empty caption |
| Views.Login | backend/api/views.py:40-62 | 400 iff a credential is missing or empty; 401 iff no account matches; logged in iff both are given and an account matches, and then as exactly the account `authenticate` finds |
| Views.RegisteredAccount | backend/api/serializers.py:21-24 | a registration adds one account at the end and keeps the accounts unique |
| Views.RegisterThenLogin | backend/api/views.py:40-62 | a newly registered account can log in with its email and its password |
| Views.UserPosts | backend/api/views.py:191-193 | exactly the posts of the given user, each at most as often as in the table, in newest-first order |
| Views.SavedList | backend/api/views.py:226-227 | exactly the requester's saves, each at most as often as in the table, in newest-first order |
| Views.CreateComment | backend/api/views.py:196-208 | invalid iff the content is blank, whether or not the post exists (validation runs before `perform_create`); otherwise 404 iff no such post; otherwise a comment by the requester on that post, newest first; nothing stored unless created |
| Views.CreateCommentCounts | backend/api/views.py:196-208 | a created comment adds one to the post's comment count |
| Views.OwnComment | backend/api/views.py:217-218 | the requester's comment with that id, if any |
| Views.UpdateComment | backend/api/views.py:211-218 | 404 unless the comment is the requester's; 400 iff the content sent is blank; otherwise 200, and only that comment's content changes |
| Views.DeleteComment | backend/api/views.py:211-218 | 404 unless the comment is the requester's; otherwise exactly that comment is removed |
| Views.OthersCommentsUntouched | backend/api/views.py:217-218 | no update or delete by one user touches another user's comment |
| Views.OwnSave | backend/api/views.py:239-240 | the position of a save with this id owned by the requester, none iff there is no such row |
| Views.DeleteSaved | backend/api/views.py:233-240 | 404 unless the save is the requester's; a 204 removes exactly one row with that id and owner; nobody else's save is removed |
| Views.CreateSaveAsWritten | backend/api/views.py:221-230 | as written: every save request is a server error and stores nothing, since the read-only `post` never reaches the insert and the column is NOT NULL |
| Views.CreateSave | backend/api/serializers.py:116-125 | with the create serializer: 400 iff the post is missing or unknown; 500 iff the requester already saved it; otherwise one new row by the requester for that post, with a fresh id, newest first |
| Views.AsWrittenCannotSave | backend/api/serializers.py:103-106 | saving an existing, unsaved post fails as written and is created with the create serializer |
| Views.RemoveFreshRow | backend/api/views.py:233-240 | deleting the row that carries a fresh id gives back the old table's rows |
| Views.SaveThenDeleteRestores | backend/api/views.py:221-240 | a created save, deleted by its new id, is a 204 and leaves the rows the table had before |
| Views.PostProblems | backend/api/serializers.py:78-82 | a post is accepted iff its caption is non-blank and location and tags are within bounds; a partial update checks only what it carries |
| Views.CreatePost | backend/api/views.py:119-120 | invalid iff the input has problems; otherwise a post owned by the requester with no likes, newest first |
| Views.Patch | backend/api/serializers.py:78-82 | the fields carried are replaced; id, likes and creation time kept |
| Views.UpdatePostAsWritten | backend/api/views.py:132-147 | as written, any requester may update any existing post: 404 iff no post has the id, 400 iff the fields fail validation, and otherwise only that post changes, patched with the sent fields and with the requester stored as its owner |
| Views.AsWrittenTransfersOwnership | backend/api/views.py:132-147 | user 2 editing user 1's post 7 becomes its owner |
| Views.OwnPost | backend/api/views.py:138-139 | the requester's post with that id, if any |
| Views.UpdatePost | backend/api/views.py:132-147 | 404 unless the post is the requester's; invalid on problems; otherwise only that post's content changes |
| Views.UpdatePostKeepsOwners | backend/api/views.py:132-147 | every post keeps its owner and id, and other users' posts are untouched |
| Views.Cascade | backend/api/models.py:57-75 | deleting a post removes exactly its comments and saves with it, keeping the other rows in order |
| Views.DeletePostAsWritten | backend/api/views.py:132-139 | as written: 404 iff no post has the id, otherwise 204, and any authenticated user's delete removes the post with its comments and saves |
| Views.AsWrittenDeletesOthersPost | backend/api/views.py:132-139 | user 2 deletes user 1's post 7, and the comment on it goes too |
| Views.DeletePost | backend/api/views.py:132-139 | 404 unless the post is the requester's, with nothing changed; otherwise 204, and that post is removed with its comments and saves |
| Views.DeleteLeavesNoDanglingRows | backend/api/models.py:57-75 | after a delete the post's comment count is zero and no saved list holds it |
| Views.OthersPostsSurviveDelete | backend/api/views.py:132-139 | no delete removes another user's post |
| Python.ParseInt | backend/api/views.py:89 | `int(s)` succeeds iff the stripped text is an optionally signed run of ASCII digits; the sign decides the sign of the value |
| Python.ParseIntRoundTrip | backend/api/views.py:115 | `int()` of the decimal text of any integer gives that integer |
| Python.ParseDigits | backend/api/views.py:115 | `int()` of a non-negative decimal gives it back |
| Python.ParseNegatedDigits | backend/api/views.py:115 | `int()` of a minus sign and a decimal gives the negated number |
| Cloudinary.UploadPublicId | backend/api/cloudinary_utils.py:21-24 | the folder, a slash, then the original filename |
| Cloudinary.UploadIdSegments | backend/api/cloudinary_utils.py:21-24 | the public id's segments are the folder's segments followed by the filename |
| Cloudinary.StripExtension | backend/api/cloudinary_utils.py:79 | `rsplit('.', 1)[0]`: unchanged without a dot, else everything before the last dot |
| Cloudinary.StripsLastExtension | backend/api/cloudinary_utils.py:79 | only the final extension is stripped |
| Cloudinary.IdAfterUpload | backend/api/cloudinary_utils.py:75-79 | a result iff `upload` occurs before the last segment |
| Cloudinary.PublicIdFromUrl | backend/api/cloudinary_utils.py:68-82 | none for a falsy or non-Cloudinary URL, none without an `upload` segment, and a result only when `upload` is not last |
| Cloudinary.PublicIdOfSegments | backend/api/cloudinary_utils.py:73-79 | for a Cloudinary URL built from slash-free segments, extraction works on exactly those segments |
| Cloudinary.DeliveryUrlIsCloudinary | backend/api/cloudinary_utils.py:73 | a `res.cloudinary.com` delivery URL passes the domain test |
| Cloudinary.DeliveryUrlRoundTrip | backend/api/cloudinary_utils.py:68-82 | for any delivery URL `…/upload/<version>/<dirs>/<stem>.<ext>` the extracted id is `<dirs>/<stem>` |
| Cloudinary.DocumentedExample | backend/api/cloudinary_utils.py:48 | the documented URL gives `folder/filename` |
| Cloudinary.UploadAsLastSegment | backend/api/cloudinary_utils.py:76 | `upload` as the last segment gives none |
| Cloudinary.VersionAsLastSegment | backend/api/cloudinary_utils.py:76-79 | a URL ending in `upload/<version>` passes the guard and gives the empty id |
| Cloudinary.DeleteFromCloudinary | backend/api/cloudinary_utils.py:41-65 | destroy is attempted iff the URL is a Cloudinary URL with at least 8 segments and an id; the id is the extracted one; true iff destroy answers "ok" |

## Left out

- Rendering, markup, CSS, modals, toasts and their timers, and the page shells are left out. They hold no decisions beyond the branches modelled above.
- Logging is left out: the `console.log` and `console.error` calls in the frontend handlers and catch blocks, and the `print` calls in `cloudinary_utils.py`. They write to a console and change no state.
- Concurrency is left out: interleaved promises, unmounting during a request, stale closures. Every handler is one atomic transition.
- Browser and network calls become inputs: axios, `FormData` (files are their names), `localStorage`, `window.confirm`, `alert`, `navigate` and `window.location.reload`.
- Server-side foreign code becomes inputs: Django's ORM, `authenticate`, `RefreshToken`, `validate_password`, the email validator, `cloudinary.uploader` and the Unicode NFKC normalisation `create_user` applies to usernames (the parameter `nfkc` of `Serializers.Register`). Password validation and the email validator are the booleans `passwordOk` and `emailOk`, and destroy's answer is `destroyed`.
- Login tokens are left out: the access and refresh tokens a successful login returns are not modelled. `Views.Login` returns the account.
- Passwords are stored as given, with no hashing, and `is_active` is not modelled.
- Time comes from a `now` parameter. `Views.CreateComment` and `Views.CreatePost` require that no existing row is newer than `now`, as a monotone clock gives.
- `Models.ImageUrl` and `Serializers.Serialize`: the storage URL of an image is the parameter `urlOf`.
- The Cloudinary upload call and the URL it returns are left out; only the public id it is given is modelled.
- Text handling, character by character:
  - `Text.IsWs` is JavaScript's full `\s` class, Unicode spaces included, so `trim` and the blank tests match the browser's.
  - Python's `str.strip` is modelled with the ASCII whitespace characters only; Python also strips Unicode spaces.
  - Lower-casing (`Text.Lower`, used for the email domain) folds ASCII letters only.
  - Search's `icontains` folds ASCII case only.
  - `int()` also accepts underscores between digits and non-ASCII digits; neither is modelled.
- JavaScript's `.length` counts UTF-16 code units, while `|s|` counts characters (code points). The two differ for characters outside the Basic Multilingual Plane: "😀😀😀" has length 6 in the browser and 3 here. Every client-side length bound is therefore modelled on characters, not code units:
- Validation.ValidatePassword: the 6-character minimum counts characters, not UTF-16 code units.
- Validation.ValidateName: the 2-character minimum counts characters, not UTF-16 code units.
- Validation.ValidateUsername: the 3-character minimum counts characters, not UTF-16 code units.
- Validation.ValidatePost: the 5-character caption minimum, the 2200-character caption maximum and the 1000-character location maximum count characters, not UTF-16 code units.
- SignupForm.ValidateForm: the username's `< 3` and the password's `< 6` count characters, not UTF-16 code units; the same holds for the password minimums of `SigninForm.ValidateForm` and `ResetPasswordForm.ValidateForm`.
- The server's bounds (`max_length`, Python's `len`) count characters, as `|s|` does.
- `Views.ListPosts`: Django (version 4 and later) rejects a negative slice of a queryset with an error. It is modelled as the server error it causes here. In `Views.ListUsers` the same error is the `ValueError` the view catches, so all users are returned.
- The prototype copies under `src/` are covered by the frontend models:
  - their hooks repeat the request protocol;
  - their `PostStats` and `Comment` repeat the frontend ones;
  - their forms delegate to the validators;
  - their auth redirect is `AuthContext.PrototypeMount`.
- The duplicate `frontend/src/components/shared/CommentSection.jsx` has the same submit logic as the modelled one.
- `PostForm.Init`: an absent caption or location is modelled as "", which is what the inputs display for `undefined`.
- `AuthContext.CheckAuthUser` imports `getCurrentUser` from `frontend/src/lib/api.js`, which does not export it. The fetch is modelled as the reply it would give.
- Every endpoint is modelled as if the routes file loaded. As written it names three views that `views.py` does not define (`PublicPostDetailView`, `PublicUserPostsView`, `CommentPinView`), which would stop every route alike.
- The pin endpoint and the public post and user-post views are left out: the routes file names them, but `views.py` does not define them.
- `UpdateProfile.UpdateCall` also passes location and privacy. `Services.UpdateUser` shows that neither is sent, and the server's update serializer ignores them.
- `Serializers.Register`: the password is stripped like every `CharField`, but `Views.Login` compares the password as sent. `Views.RegisterThenLogin` therefore logs in with the stripped password.
- `SavedPosts.Refresh`: which component triggers a refresh, and when, is not modelled; only the refresh itself is.

## Findings

| source | as written | input that shows it | evidently intended | confidence | as-written member | corrected member |
|---|---|---|---|---|---|---|
| frontend/src/context/AuthContext.jsx:55-60 | a failed auth check removes the stored token but leaves the `Authorization` header set | token "abc" installed, then `getCurrentUser` rejects: the header still sends `Bearer abc` with nothing stored | clear the token from both places, as `setAuthToken()` does | not executed | AuthContext.CheckAuthUserAsWritten | AuthContext.CheckAuthUser |
| frontend/src/components/PostStats.jsx:60-67 | `newLikeCount \|\| local` discards a server count of 0 | local count 2, unlike reply `{liked: false, likes_count: 0}`: the counter shows 1 | take the server's count whenever the reply carries one | not executed | PostStats.HandleLike | PostStats.HandleLikeCorrected |
| frontend/src/_root/pages/PostDetails.jsx:29-31 | `userPost.id !== id` compares a numeric id with the route's string | post 7 on route "7": the post is listed among its own related posts | compare the ids as strings | not executed | PostDelete.RelatedPostsAsWritten | PostDelete.RelatedPosts |
| backend/api/views.py:146-147 | `perform_update` saves the post with `user=request.user` on an unscoped queryset | user 2 updates user 1's post 7: the update succeeds and user 2 becomes the owner | only the owner may update, and the owner never changes | not executed | Views.UpdatePostAsWritten | Views.UpdatePost |
| backend/api/views.py:138-139 | the detail queryset is not scoped to the requester, so any user deletes any post | user 2 deletes user 1's post 7: 204 and the post is gone | scope to the requester, as the comment and saved-post views do and the client's "only your own posts" guard expects | not executed | Views.DeletePostAsWritten | Views.DeletePost |
| backend/api/serializers.py:103-106 | the saved-post list view creates through a serializer whose `post` is read-only, so the post the client sends is dropped and the insert violates the NOT NULL `post` column | user 2 posts `{post: 7}` for an existing post 7 nobody saved: 500 and nothing stored | create through `SavedPostCreateSerializer`, which accepts `post` | not executed | Views.CreateSaveAsWritten | Views.CreateSave |

=== FILE: auth_context.dfy ===
/** The auth context: the signed-in user, `checkAuthUser` and the redirect rule
    applied when the provider mounts. */
module AuthContext {
  import opened Outcomes
  import opened Js
  import opened Text
  import HttpClient

  /** The context's user object. `location` and `isPrivate` are absent until the
      profile page merges them in. */
  datatype AuthUser = AuthUser(id: string, name: string, username: string, email: string,
                               imageUrl: string, bio: string,
                               location: Option<string>, isPrivate: Option<bool>)

  const InitialUser := AuthUser("", "", "", "", "", "", None, None)

  /** The fields of `/api/auth/me/` the context reads. */
  datatype ServerUser = ServerUser(id: JsVal, name: string, username: string, email: string,
                                   imageUrl: string, bio: string)

  /** The object `setUser` receives: the id as a string, five copied fields, and
      nothing else (so merged-in fields are dropped). */
  function FromServer(u: ServerUser): (r: AuthUser)
    ensures r.id == ToStr(u.id)
    ensures r.name == u.name && r.username == u.username && r.email == u.email
    ensures r.imageUrl == u.imageUrl && r.bio == u.bio
    ensures r.location.None? && r.isPrivate.None?
  {
    AuthUser(ToStr(u.id), u.name, u.username, u.email, u.imageUrl, u.bio, None, None)
  }

  datatype State = State(user: AuthUser, isAuthenticated: bool, isLoading: bool, session: HttpClient.Session)

  /** The result of `checkAuthUser`: the new state, the boolean it resolves to, and
      whether `getCurrentUser` was called. */
  datatype Check = Check(state: State, result: bool, fetched: bool)

  /** `checkAuthUser` as written: a failed fetch removes the stored token but leaves
      the `Authorization` header of the axios instance in place. */
  function CheckAuthUserAsWritten(s: State, current: Reply<Option<ServerUser>>): (r: Check)
    ensures !r.state.isLoading
    ensures r.fetched <==> TruthyStr(s.session.stored)
    ensures TruthyStr(s.session.stored) && current.Rejected? ==>
              r.state.session == s.session.(stored := None) && !r.state.isAuthenticated && !r.result
  {
    if !TruthyStr(s.session.stored) then Check(s.(isAuthenticated := false, isLoading := false), false, false)
    else match current
      case Resolved(Some(u)) => Check(s.(user := FromServer(u), isAuthenticated := true, isLoading := false), true, true)
      case Resolved(None) => Check(s.(isLoading := false), false, true)
      case Rejected(_) =>
        Check(s.(session := s.session.(stored := None), isAuthenticated := false, isLoading := false), false, true)
  }

  /** After a token has been installed, a rejected auth check leaves the header
      and the storage disagreeing: requests keep sending the token that was just
      discarded. */
  lemma AsWrittenLeavesStaleHeader()
    ensures
      var s := State(InitialUser, true, false, HttpClient.SetAuthToken(HttpClient.Session(None, None), Some("abc")));
      var r := CheckAuthUserAsWritten(s, Rejected(OtherValue));
      HttpClient.Consistent(s.session) && !HttpClient.Consistent(r.state.session)
      && r.state.session.header == Some("Bearer abc") && r.state.session.stored.None?
  {
    var s := State(InitialUser, true, false, HttpClient.SetAuthToken(HttpClient.Session(None, None), Some("abc")));
    assert TruthyStr(Some("abc"));
    assert "Bearer " + "abc" == "Bearer abc";
  }

  /** `checkAuthUser`, with the discarded token removed from both places, as
      `setAuthToken()` does. */
  function CheckAuthUser(s: State, current: Reply<Option<ServerUser>>): (r: Check)
    ensures !r.state.isLoading
    ensures r.fetched <==> TruthyStr(s.session.stored)
    ensures !TruthyStr(s.session.stored) ==>
              r.state == s.(isAuthenticated := false, isLoading := false) && !r.result
    ensures r.result <==> TruthyStr(s.session.stored) && current.Resolved? && current.value.Some?
    ensures r.result ==>
              r.state == s.(user := FromServer(current.value.value), isAuthenticated := true, isLoading := false)
    ensures TruthyStr(s.session.stored) && current == Resolved(None) ==> r.state == s.(isLoading := false)
    ensures TruthyStr(s.session.stored) && current.Rejected? ==>
              r.state == s.(session := HttpClient.Session(None, None), isAuthenticated := false, isLoading := false)
    ensures HttpClient.Consistent(s.session) ==> HttpClient.Consistent(r.state.session)
  {
    if !TruthyStr(s.session.stored) then Check(s.(isAuthenticated := false, isLoading := false), false, false)
    else match current
      case Resolved(Some(u)) => Check(s.(user := FromServer(u), isAuthenticated := true, isLoading := false), true, true)
      case Resolved(None) => Check(s.(isLoading := false), false, true)
      case Rejected(_) =>
        Check(s.(session := HttpClient.SetAuthToken(s.session, None), isAuthenticated := false, isLoading := false), false, true)
  }

  /** The value `checkAuthUser` resolves to never contradicts the context: `true`
      leaves the user authenticated, and a missing or rejected token leaves it
      unauthenticated. The one case that can disagree is a falsy current user,
      which keeps whatever state there was. */
  lemma CheckResultAgreesWithState(s: State, current: Reply<Option<ServerUser>>)
    ensures CheckAuthUser(s, current).result ==> CheckAuthUser(s, current).state.isAuthenticated
    ensures !TruthyStr(s.session.stored) || current.Rejected? ==> !CheckAuthUser(s, current).state.isAuthenticated
    ensures TruthyStr(s.session.stored) && current == Resolved(None) ==>
              CheckAuthUser(s, current).state.isAuthenticated == s.isAuthenticated
  {
  }

  /** What the provider's mount effect does. */
  datatype MountAction = RunCheck | Redirect(to: string) | Stay

  /** The mount rule, parametrised by the paths on which an anonymous visitor may
      stay, whether the landing page "/" is also exempt, and the redirect target. */
  function MountRule(stored: Option<string>, path: string, open: seq<string>, rootExempt: bool, target: string)
    : (r: MountAction)
    ensures r == RunCheck <==> TruthyStr(stored)
    ensures r.Redirect? <==>
              !TruthyStr(stored) && (forall i :: 0 <= i < |open| ==> !Contains(path, open[i]))
              && !(rootExempt && path == "/")
    ensures r.Redirect? ==> r.to == target
  {
    if TruthyStr(stored) then RunCheck
    else if (forall i :: 0 <= i < |open| ==> !Contains(path, open[i])) && !(rootExempt && path == "/") then
      Redirect(target)
    else Stay
  }

  const OpenPaths: seq<string> := ["/sign-in", "/sign-up", "/forgot-password", "/reset-password/", "/shared/"]

  /** The client's rule: anonymous visitors outside the auth pages, shared posts and
      the landing page are sent to "/". */
  function Mount(stored: Option<string>, path: string): (r: MountAction)
    ensures r == MountRule(stored, path, OpenPaths, true, "/")
  {
    MountRule(stored, path, OpenPaths, true, "/")
  }

  /** The prototype's rule: only the sign-in and sign-up pages are exempt, and the
      redirect goes to "/sign-in". */
  function PrototypeMount(stored: Option<string>, path: string): (r: MountAction)
    ensures r == MountRule(stored, path, ["/sign-in", "/sign-up"], false, "/sign-in")
  {
    MountRule(stored, path, ["/sign-in", "/sign-up"], false, "/sign-in")
  }

  /** `s` contains itself. */
  lemma ContainsSelf(s: string)
    ensures Contains(s, s)
  {
    assert s[..|s|] == s;
  }

  /** Neither rule redirects from the page it redirects to, so mounting again
      after the redirect stays put. */
  lemma NoRedirectLoop(stored: Option<string>)
    requires !TruthyStr(stored)
    ensures Mount(stored, "/") == Stay
    ensures PrototypeMount(stored, "/sign-in") == Stay
  {
    ContainsSelf("/sign-in");
    var open: seq<string> := ["/sign-in", "/sign-up"];
    assert Contains("/sign-in", open[0]);
  }

  /** A shared-post link opened without a token is never redirected by the client. */
  lemma SharedLinksStay(stored: Option<string>, path: string)
    requires !TruthyStr(stored) && Contains(path, "/shared/")
    ensures Mount(stored, path) == Stay
  {
    assert OpenPaths[4] == "/shared/";
  }
}

=== FILE: auth_layout.dfy ===
/** The layout around the sign-in, sign-up and password pages. */
module AuthLayout {
  import opened Text

  datatype View = Outlet | RedirectTo(path: string)

  /** Signed-in users are sent to "/saved", except on a reset-password page; the
      decision reads nothing but the auth flag and the path. */
  function Decide(isAuthenticated: bool, path: string): (r: View)
    ensures r.RedirectTo? <==> isAuthenticated && !StartsWith(path, "/reset-password/")
    ensures r.RedirectTo? ==> r.path == "/saved"
  {
    if isAuthenticated && !StartsWith(path, "/reset-password/") then RedirectTo("/saved") else Outlet
  }
}

=== FILE: cloudinary.dfy ===
/** Public ids of images in Cloudinary: composing one for an upload and
    recovering it from a delivery URL. */
module Cloudinary {
  import opened Outcomes
  import opened Text
  import Seqs

  const DefaultFolder := "snapgram"

  /** The public id an upload is stored under: the folder and the original file
      name. */
  function UploadPublicId(folder: string, filename: string): (r: string)
    ensures r == folder + "/" + filename
    ensures |r| == |folder| + 1 + |filename| && r[|folder|] == '/'
  {
    folder + "/" + filename
  }

  /** Joining a list with one more piece appends a separator and the piece. */
  lemma {:induction false} JoinSnoc(parts: seq<string>, last: string, d: char)
    requires |parts| >= 1
    ensures Join(parts + [last], d) == Join(parts, d) + [d] + last
    decreases |parts|
  {
    if |parts| == 1 {
      assert parts + [last] == [parts[0], last];
      assert [parts[0], last][1..] == [last];
    } else {
      assert (parts + [last])[1..] == parts[1..] + [last];
      JoinSnoc(parts[1..], last, d);
    }
  }

  /** A file name without `/` is the last segment of its public id, whatever the
      folder's own segments are. */
  lemma UploadIdSegments(folder: string, filename: string)
    ensures UploadPublicId(folder, filename) == Join(Split(folder, '/') + [filename], '/')
  {
    JoinSnoc(Split(folder, '/'), filename, '/');
    JoinSplit(folder, '/');
  }

  /** Python's `s.rsplit('.', 1)[0]`: everything before the last dot, or all of `s`
      when it has none. */
  function StripExtension(s: string): (r: string)
    ensures '.' !in s ==> r == s
    ensures '.' in s ==> |r| < |s| && r == s[..|r|] && s[|r|] == '.' && '.' !in s[|r| + 1..]
  {
    match LastIndexOf(s, '.')
    case None => s
    case Some(k) => s[..k]
  }

  /** Only the final extension goes: a name with an extension loses exactly that. */
  lemma StripsLastExtension(stem: string, ext: string)
    requires '.' !in ext
    ensures StripExtension(stem + "." + ext) == stem
  {
    var s := stem + "." + ext;
    assert s[|stem|] == '.';
  }

  /** The public id a URL's segments carry: whatever follows the segment after
      the first `upload` (the version), joined back and stripped of its extension. */
  function IdAfterUpload(parts: seq<string>): (r: Option<string>)
    ensures r.Some? <==> |parts| > 0 && "upload" in parts[..|parts| - 1]
  {
    match Seqs.IndexOf(parts, "upload")
    case None => None
    case Some(k) =>
      if k + 1 < |parts| then Some(StripExtension(Join(parts[k + 2..], '/'))) else None
  }

  lemma IdAfterUploadAt(parts: seq<string>, k: nat)
    requires Seqs.IndexOf(parts, "upload") == Some(k) && k + 1 < |parts|
    ensures IdAfterUpload(parts) == Some(StripExtension(Join(parts[k + 2..], '/')))
  {
  }

  /** Whether `url` is a present, non-empty Cloudinary URL. */
  predicate IsCloudinaryUrl(url: Option<string>) {
    TruthyStr(url) && Contains(url.value, "cloudinary.com")
  }

  /** `get_cloudinary_public_id_from_url(url)`. A missing `upload` segment raises
      `ValueError` in `list.index`, which the function catches and answers `None`. */
  function PublicIdFromUrl(url: Option<string>): (r: Option<string>)
    ensures !IsCloudinaryUrl(url) ==> r.None?
    ensures IsCloudinaryUrl(url) && "upload" !in Split(url.value, '/') ==> r.None?
    ensures r.Some? ==> "upload" in Split(url.value, '/')[..|Split(url.value, '/')| - 1]
  {
    if !IsCloudinaryUrl(url) then None else IdAfterUpload(Split(url.value, '/'))
  }

  /** The segments of a delivery URL:
      `https://res.cloudinary.com/<cloud>/<kind>/upload/<version>/<dirs…>/<stem>.<ext>`. */
  function DeliveryParts(cloud: string, kind: string, version: string, dirs: seq<string>,
                         stem: string, ext: string): (r: seq<string>)
    ensures |r| == 8 + |dirs| && r[0] == "https:" && r[2] == "res.cloudinary.com"
    ensures r[3] == cloud && r[4] == kind && r[5] == "upload" && r[6] == version
    ensures r[7..] == dirs + [stem + "." + ext]
  {
    ["https:", "", "res.cloudinary.com", cloud, kind, "upload", version] + dirs + [stem + "." + ext]
  }

  predicate NoSlash(s: string) { '/' !in s }

  lemma DeliveryUrlIsCloudinary(parts: seq<string>)
    requires |parts| >= 3 && parts[2] == "res.cloudinary.com"
    ensures Contains(Join(parts, '/'), "cloudinary.com")
  {
    assert parts[2][4..18] == "cloudinary.com";
    ContainsAt(parts[2], "cloudinary.com", 4);
    JoinContains(parts, 2, '/', "cloudinary.com");
  }

  /** For a URL built from slash-free segments on Cloudinary's host, the public id
      is read straight off the segments. */
  lemma {:induction false} PublicIdOfSegments(parts: seq<string>)
    requires |parts| >= 3 && parts[0] == "https:" && parts[2] == "res.cloudinary.com"
    requires forall i :: 0 <= i < |parts| ==> NoSlash(parts[i])
    ensures PublicIdFromUrl(Some(Join(parts, '/'))) == IdAfterUpload(parts)
  {
    SplitJoin(parts, '/');
    DeliveryUrlIsCloudinary(parts);
    assert Join(parts, '/') == parts[0] + ['/'] + Join(parts[1..], '/');
    assert Join(parts, '/')[0] == 'h';
  }

  /** The segments after the version lose only the leaf's extension. */
  lemma LeafStripped(dirs: seq<string>, stem: string, ext: string)
    requires '.' !in ext
    ensures StripExtension(Join(dirs + [stem + "." + ext], '/')) == Join(dirs + [stem], '/')
  {
    var leaf := stem + "." + ext;
    if |dirs| > 0 {
      JoinSnoc(dirs, leaf, '/');
      JoinSnoc(dirs, stem, '/');
      assert Join(dirs, '/') + ['/'] + leaf == (Join(dirs, '/') + "/" + stem) + "." + ext;
      StripsLastExtension(Join(dirs, '/') + "/" + stem, ext);
    } else {
      assert dirs + [leaf] == [leaf] && dirs + [stem] == [stem];
      StripsLastExtension(stem, ext);
    }
  }

  lemma DeliveryPartsSlashFree(cloud: string, kind: string, version: string, dirs: seq<string>,
                                stem: string, ext: string)
    requires NoSlash(cloud) && NoSlash(kind) && NoSlash(version) && NoSlash(stem) && NoSlash(ext)
    requires forall i :: 0 <= i < |dirs| ==> NoSlash(dirs[i])
    ensures var parts := DeliveryParts(cloud, kind, version, dirs, stem, ext);
            forall i :: 0 <= i < |parts| ==> NoSlash(parts[i])
  {
    var head := ["https:", "", "res.cloudinary.com", cloud, kind, "upload", version];
    assert forall i :: 0 <= i < |head| ==> NoSlash(head[i]);
    assert NoSlash(stem + "." + ext);
  }

  lemma DeliveryPartsUploadAt(cloud: string, kind: string, version: string, dirs: seq<string>,
                              stem: string, ext: string)
    requires cloud != "upload" && kind != "upload"
    ensures Seqs.IndexOf(DeliveryParts(cloud, kind, version, dirs, stem, ext), "upload") == Some(5)
  {
    var parts := DeliveryParts(cloud, kind, version, dirs, stem, ext);
    var k := Seqs.IndexOf(parts, "upload");
    assert parts[5] == "upload";
  }

  /** The round trip the module exists for: the public id recovered from a
      delivery URL is the path after the version, without the extension. */
  lemma DeliveryUrlRoundTrip(cloud: string, kind: string, version: string, dirs: seq<string>,
                             stem: string, ext: string)
    requires NoSlash(cloud) && NoSlash(kind) && NoSlash(version) && NoSlash(stem) && NoSlash(ext)
    requires forall i :: 0 <= i < |dirs| ==> NoSlash(dirs[i])
    requires cloud != "upload" && kind != "upload" && '.' !in ext
    ensures PublicIdFromUrl(Some(Join(DeliveryParts(cloud, kind, version, dirs, stem, ext), '/')))
            == Some(Join(dirs + [stem], '/'))
  {
    var parts := DeliveryParts(cloud, kind, version, dirs, stem, ext);
    DeliveryPartsSlashFree(cloud, kind, version, dirs, stem, ext);
    PublicIdOfSegments(parts);
    DeliveryPartsUploadAt(cloud, kind, version, dirs, stem, ext);
    var id := Join(parts[7..], '/');
    assert IdAfterUpload(parts) == Some(StripExtension(id));
    assert parts[7..] == dirs + [stem + "." + ext];
    LeafStripped(dirs, stem, ext);
  }

  /** A URL whose last segment is its only `upload` names no public id. */
  lemma UploadAsLastSegment(parts: seq<string>)
    requires |parts| >= 3 && parts[0] == "https:" && parts[2] == "res.cloudinary.com"
    requires forall i :: 0 <= i < |parts| ==> NoSlash(parts[i])
    requires parts[|parts| - 1] == "upload" && "upload" !in parts[..|parts| - 1]
    ensures PublicIdFromUrl(Some(Join(parts, '/'))) == None
  {
    PublicIdOfSegments(parts);
  }

  lemma JoinPair(a: string, b: string, d: char)
    ensures Join([a, b], d) == a + [d] + b
  {
    assert [a, b][1..] == [b];
  }

  /** The URL format the comment in `delete_from_cloudinary` gives,
      `https://res.cloudinary.com/cloud_name/image/upload/v1234567890/folder/filename.jpg`,
      yields the public id `folder/filename`. */
  lemma DocumentedExample()
    ensures PublicIdFromUrl(Some(Join(DeliveryParts("cloud_name", "image", "v1234567890", ["folder"],
                                                    "filename", "jpg"), '/')))
            == Some("folder" + "/" + "filename")
  {
    assert NoSlash("cloud_name") && NoSlash("image") && NoSlash("v1234567890");
    assert NoSlash("filename") && NoSlash("jpg") && NoSlash("folder");
    assert '.' !in "jpg";
    DeliveryUrlRoundTrip("cloud_name", "image", "v1234567890", ["folder"], "filename", "jpg");
    JoinPair("folder", "filename", '/');
    assert ["folder"] + ["filename"] == ["folder", "filename"];
    assert "folder" + ['/'] + "filename" == "folder" + "/" + "filename";
  }

  /** The guard allows `upload` to be the next-to-last segment: a URL ending in
      `/upload/<version>` names the empty public id rather than none. */
  lemma VersionAsLastSegment(parts: seq<string>)
    requires |parts| >= 4 && parts[0] == "https:" && parts[2] == "res.cloudinary.com"
    requires forall i :: 0 <= i < |parts| ==> NoSlash(parts[i])
    requires parts[|parts| - 2] == "upload" && "upload" !in parts[..|parts| - 2]
    ensures PublicIdFromUrl(Some(Join(parts, '/'))) == Some("")
  {
    var k := |parts| - 2;
    assert Seqs.IndexOf(parts, "upload") == Some(k);
    var rest := parts[k + 2..];
    assert rest == [];
    calc {
      PublicIdFromUrl(Some(Join(parts, '/')));
      { PublicIdOfSegments(parts); }
      IdAfterUpload(parts);
      { IdAfterUploadAt(parts, k); }
      Some(StripExtension(Join(rest, '/')));
    }
  }

  /** `delete_from_cloudinary(public_url)`: `destroyed` is the `result` field the
      destroy call answers, or `Rejected` when it raises. Returns the public id
      handed to destroy, if any, and the function's boolean answer. */
  function DeleteFromCloudinary(url: Option<string>, destroyed: Reply<Option<string>>)
    : (r: (Option<string>, bool))
    ensures r.0.Some? <==> PublicIdFromUrl(url).Some? && |Split(url.value, '/')| >= 8
    ensures r.0.Some? ==> r.0 == PublicIdFromUrl(url)
    ensures r.1 <==> r.0.Some? && destroyed == Resolved(Some("ok"))
  {
    if !IsCloudinaryUrl(url) then (None, false)
    else
      var parts := Split(url.value, '/');
      if |parts| < 8 then (None, false)
      else match IdAfterUpload(parts)
        case None => (None, false)
        case Some(id) => (Some(id), destroyed == Resolved(Some("ok")))
  }
}

=== FILE: comments.dfy ===
/** Comments under a post: who owns what, the edit/delete/pin handlers of one
    comment, its options menu, and the new-comment form. */
module Comments {
  import opened Outcomes
  import opened Js
  import opened Text
  import opened Ui

  /** A comment renders only for a context user with a non-empty id. */
  predicate Renders(userId: string) {
    userId != ""
  }

  /** `String(user.id) === String(comment.user.id)`. */
  predicate IsOwner(userId: string, commentUserId: JsVal) {
    Owns(userId, Some(commentUserId))
  }

  /** `String(user.id) === String(post?.user?.id)`; a missing post owner prints as
      "undefined". */
  predicate IsPostOwner(userId: string, postUserId: Option<JsVal>) {
    Owns(userId, postUserId)
  }

  /** Comparing through strings makes a numeric id from the server and the
      stringified id of the context user agree. */
  lemma OwnershipAcrossTypes(n: nat)
    ensures IsOwner(ToStr(Num(n)), Num(n)) && IsOwner(Digits(n), Num(n)) && IsOwner(Digits(n), Str(Digits(n)))
    ensures !StrictEq(Num(n), Str(Digits(n)))
  {
  }

  datatype Editor = Editor(isEditing: bool, editContent: string, isUpdating: bool, isDeleting: bool)

  const UpdateFailed := "Failed to update comment. Please try again."
  const DeleteFailed := "Failed to delete comment. Please try again."
  const PinFailed := "Failed to pin/unpin comment. Please try again."

  /** The parent is notified only when it passed a callback. */
  function Notify(hasParent: bool): (r: seq<Effect>)
    ensures hasParent ==> r == [NotifyParent]
    ensures !hasParent ==> r == []
  {
    if hasParent then [NotifyParent] else []
  }

  /** `handleUpdateComment`: the trimmed text is sent iff it is non-empty and the
      raw text differs from the original; otherwise editing just ends. */
  function HandleUpdate(e: Editor, original: string, commentId: JsVal, hasParent: bool, reply: Reply<()>)
    : (r: (Editor, seq<Effect>))
    ensures r.0.editContent == e.editContent && r.0.isDeleting == e.isDeleting
    ensures AllWs(e.editContent) || e.editContent == original ==> r == (e.(isEditing := false), [])
    ensures !AllWs(e.editContent) && e.editContent != original ==>
              !r.0.isUpdating && |r.1| >= 1 && r.1[0] == Request(UpdateComment(commentId, Trim(e.editContent)))
              && Trim(e.editContent) != ""
    ensures !AllWs(e.editContent) && e.editContent != original && reply.Resolved? ==>
              !r.0.isEditing && r.1[1..] == Notify(hasParent)
    ensures !AllWs(e.editContent) && e.editContent != original && reply.Rejected? ==>
              r.0.isEditing == e.isEditing && r.1[1..] == [Alert(UpdateFailed)]
  {
    TrimEmptyIffAllWs(e.editContent);
    if Trim(e.editContent) != "" && e.editContent != original then
      var req := Request(UpdateComment(commentId, Trim(e.editContent)));
      match reply
      case Resolved(_) => (e.(isEditing := false, isUpdating := false), [req] + Notify(hasParent))
      case Rejected(_) => (e.(isUpdating := false), [req, Alert(UpdateFailed)])
    else (e.(isEditing := false), [])
  }

  /** `handleDeleteComment`: the parent hears of it only when the delete succeeded. */
  function HandleDelete(e: Editor, commentId: JsVal, hasParent: bool, reply: Reply<()>): (r: (Editor, seq<Effect>))
    ensures !r.0.isDeleting && r.0.isEditing == e.isEditing && r.0.editContent == e.editContent
    ensures |r.1| >= 1 && r.1[0] == Request(DeleteComment(commentId))
    ensures NotifyParent in r.1 <==> reply.Resolved? && hasParent
    ensures reply.Rejected? ==> r.1 == [Request(DeleteComment(commentId)), Alert(DeleteFailed)]
  {
    var req := Request(DeleteComment(commentId));
    match reply
    case Resolved(_) => (e.(isDeleting := false), [req] + Notify(hasParent))
    case Rejected(_) => (e.(isDeleting := false), [req, Alert(DeleteFailed)])
  }

  /** `handlePinComment`: likewise, on the pin endpoint. */
  function HandlePin(commentId: JsVal, hasParent: bool, reply: Reply<()>): (r: seq<Effect>)
    ensures |r| >= 1 && r[0] == Request(PinComment(commentId))
    ensures NotifyParent in r <==> reply.Resolved? && hasParent
    ensures reply.Rejected? ==> r == [Request(PinComment(commentId)), Alert(PinFailed)]
  {
    var req := Request(PinComment(commentId));
    match reply
    case Resolved(_) => [req] + Notify(hasParent)
    case Rejected(_) => [req, Alert(PinFailed)]
  }

  /** `handleCancelEdit`: the text reverts and editing ends. */
  function HandleCancel(e: Editor, original: string): (r: Editor)
    ensures r.editContent == original && !r.isEditing
    ensures r.isUpdating == e.isUpdating && r.isDeleting == e.isDeleting
  {
    e.(editContent := original, isEditing := false)
  }

  /** The menu's `onEdit`. */
  function StartEdit(e: Editor): (r: Editor)
    ensures r.isEditing && r.editContent == e.editContent
  {
    e.(isEditing := true)
  }

  /** Cancelling an edit discards whatever was typed: after any edit, the text is
      back to the original. */
  lemma CancelDiscardsTyping(e: Editor, original: string, typed: string)
    ensures HandleCancel(StartEdit(e).(editContent := typed), original).editContent == original
    ensures !HandleCancel(StartEdit(e).(editContent := typed), original).isEditing
  {
  }

  datatype MenuItem = PinItem(text: string) | EditItem | DeleteItem | CancelEditItem

  /** The options menu's entries, or `None` when it renders nothing. */
  function MenuItems(isOwner: bool, isPostOwner: bool, isPinned: bool, isEditing: bool): (r: Option<seq<MenuItem>>)
    ensures r.None? <==> !isOwner && !isPostOwner
    ensures r.Some? ==> (PinItem("Pin comment") in r.value <==> isPostOwner && !isPinned)
    ensures r.Some? ==> (PinItem("Unpin comment") in r.value <==> isPostOwner && isPinned)
    ensures r.Some? ==> (EditItem in r.value <==> isOwner && !isEditing)
    ensures r.Some? ==> (DeleteItem in r.value <==> isOwner && !isEditing)
    ensures r.Some? ==> (CancelEditItem in r.value <==> isOwner && isEditing)
  {
    if !isOwner && !isPostOwner then None
    else
      var pin := if isPostOwner then [PinItem(if isPinned then "Unpin comment" else "Pin comment")] else [];
      var edit := if isOwner && !isEditing then [EditItem, DeleteItem] else [];
      var cancel := if isOwner && isEditing then [CancelEditItem] else [];
      Some(pin + edit + cancel)
  }

  datatype Callback = OnPin | OnDelete | OnEdit | OnCancelEdit

  /** The outcome of clicking a menu entry: whether `window.confirm` was shown,
      which callback ran, and whether the menu is still open. */
  datatype Click = Click(asked: bool, called: Option<Callback>, isOpen: bool)

  /** The click handlers: pinning an unpinned comment and deleting ask first (and
      `confirmed` is the answer); unpinning, editing and cancelling do not. Every
      handler closes the menu. */
  function ClickItem(item: MenuItem, isPinned: bool, confirmed: bool): (r: Click)
    ensures !r.isOpen
    ensures item.PinItem? ==> r.asked == !isPinned && (r.called == Some(OnPin) <==> isPinned || confirmed)
    ensures item.PinItem? && !isPinned && !confirmed ==> r.called.None?
    ensures item == DeleteItem ==> r.asked && (r.called == Some(OnDelete) <==> confirmed) && (!confirmed ==> r.called.None?)
    ensures item == EditItem ==> !r.asked && r.called == Some(OnEdit)
    ensures item == CancelEditItem ==> !r.asked && r.called == Some(OnCancelEdit)
  {
    match item
    case PinItem(_) =>
      if !isPinned then Click(true, if confirmed then Some(OnPin) else None, false)
      else Click(false, Some(OnPin), false)
    case DeleteItem => Click(true, if confirmed then Some(OnDelete) else None, false)
    case EditItem => Click(false, Some(OnEdit), false)
    case CancelEditItem => Click(false, Some(OnCancelEdit), false)
  }

  datatype Section = Section(newComment: string, isSubmitting: bool)

  const CreateFailed := "Failed to create comment. Please try again."

  /** `handleSubmitComment`: blank text or a submission in flight does nothing;
      otherwise the trimmed text is posted. A failed create keeps the text; a
      successful one clears it and refetches the comments, and a failure of that
      refetch is reported while the input stays cleared. */
  function SubmitComment(s: Section, postId: JsVal, created: Reply<()>, refetched: Reply<()>)
    : (r: (Section, seq<Effect>))
    ensures AllWs(s.newComment) || s.isSubmitting ==> r == (s, [])
    ensures !AllWs(s.newComment) && !s.isSubmitting ==>
              !r.0.isSubmitting && |r.1| >= 1
              && r.1[0] == Request(CreateComment(postId, Trim(s.newComment))) && Trim(s.newComment) != ""
    ensures !AllWs(s.newComment) && !s.isSubmitting && created.Rejected? ==>
              r.0.newComment == s.newComment && r.1[1..] == [Alert(CreateFailed)]
    ensures !AllWs(s.newComment) && !s.isSubmitting && created.Resolved? ==>
              r.0.newComment == "" && |r.1| >= 2 && r.1[1] == Request(FetchComments)
              && (Alert(CreateFailed) in r.1 <==> refetched.Rejected?)
  {
    TrimEmptyIffAllWs(s.newComment);
    if Trim(s.newComment) == "" || s.isSubmitting then (s, [])
    else
      var req := Request(CreateComment(postId, Trim(s.newComment)));
      match created
      case Rejected(_) => (Section(s.newComment, false), [req, Alert(CreateFailed)])
      case Resolved(_) => (Section("", false), [req] + Refetch(refetched))
  }

  /** The refetch after a created comment, and the alert when it fails. */
  function Refetch(refetched: Reply<()>): (r: seq<Effect>)
    ensures |r| >= 1 && r[0] == Request(FetchComments)
    ensures Alert(CreateFailed) in r <==> refetched.Rejected?
  {
    if refetched.Rejected? then [Request(FetchComments), Alert(CreateFailed)] else [Request(FetchComments)]
  }

  /** `comments?.length || 0`. */
  function DisplayedCount<T>(comments: Option<seq<T>>): (n: nat)
    ensures comments.None? ==> n == 0
    ensures comments.Some? ==> n == |comments.value|
  {
    if comments.Some? then |comments.value| else 0
  }
}

=== FILE: forgot_password_form.dfy ===
/** The forgot-password form: one email field, an API error picked by priority,
    and a success view with a "try another email" reset. */
module ForgotPasswordForm {
  import opened Outcomes
  import opened Ui
  import opened FormFields
  import Validation

  predicate WellFormed(v: map<string, string>) {
    "email" in v
  }

  /** `validateForm`'s error map. */
  function ValidateForm(v: map<string, string>): (e: Errors)
    requires WellFormed(v)
    ensures e.Keys <= {"email"}
    ensures ("email" in e) <==> v["email"] == "" || !Validation.LooseEmail(v["email"])
    ensures v["email"] == "" ==> e["email"] == "Email is required"
    ensures v["email"] != "" && !Validation.LooseEmail(v["email"]) ==> e["email"] == "Email is invalid"
  {
    Validation.LooseEmailTestMeaning(v["email"]);
    if v["email"] == "" then map["email" := "Email is required"]
    else if !Validation.LooseEmailTest(v["email"]) then map["email" := "Email is invalid"]
    else map[]
  }

  const NoAccount := "No account found with this email address."

  /** `handleSubmit`. `reply` is how `forgotPassword(email)` settled. */
  function Submit(f: ApiForm, reply: Reply<()>): (r: (ApiForm, seq<Effect>))
    requires WellFormed(f.values)
    ensures r.0.errors == ValidateForm(f.values) && r.0.values == f.values
    ensures ValidateForm(f.values) != map[] ==>
              r.1 == [] && r.0.isSuccess == f.isSuccess && r.0.apiError == f.apiError
    ensures ValidateForm(f.values) == map[] ==>
              r.1 == [Request(ForgotPassword(f.values["email"]))] && !r.0.isSubmitting
    ensures ValidateForm(f.values) == map[] && reply.Resolved? ==> r.0.isSuccess && r.0.apiError == ""
    ensures ValidateForm(f.values) == map[] && reply.Rejected? ==>
              r.0.isSuccess == f.isSuccess && r.0.apiError != ""
              && r.0.apiError == ApiErrorMessage(AsError(reply.thrown), 404, NoAccount)
  {
    var errors := ValidateForm(f.values);
    if errors != map[] then (f.(errors := errors), [])
    else
      var sent := [Request(ForgotPassword(f.values["email"]))];
      match reply
      case Resolved(_) => (f.(errors := errors, isSubmitting := false, apiError := "", isSuccess := true), sent)
      case Rejected(t) =>
        (f.(errors := errors, isSubmitting := false, apiError := ApiErrorMessage(AsError(t), 404, NoAccount)), sent)
  }

  /** The "Try another email" button: back to an empty form. */
  function TryAnother(f: ApiForm): (r: ApiForm)
    ensures !r.isSuccess && r.values == map["email" := ""]
    ensures r.errors == f.errors && r.apiError == f.apiError && r.isSubmitting == f.isSubmitting
  {
    f.(isSuccess := false, values := map["email" := ""])
  }
}

=== FILE: form_fields.dfy ===
/** The field handling every hand-written form repeats: `handleChange` writes one
    field of the form object and blanks that field's displayed error; the password
    forms also blank the API error; their API-error message is picked from the
    rejected request by a fixed priority. */
module FormFields {
  import opened Outcomes

  type Errors = map<string, string>

  /** An error is displayed for `name`: its entry is present and truthy. */
  predicate Shown(errors: Errors, name: string) {
    name in errors && errors[name] != ""
  }

  /** `handleChange` / `setValue`: the named field takes the value, no other field
      changes, and the field's error is blanked (set to "") only if one was shown. */
  function Change<V>(values: map<string, V>, errors: Errors, name: string, value: V): (r: (map<string, V>, Errors))
    ensures name in r.0 && r.0[name] == value
    ensures r.0.Keys == values.Keys + {name}
    ensures forall k :: k in values && k != name ==> r.0[k] == values[k]
    ensures r.1.Keys == errors.Keys
    ensures forall k :: k in errors && k != name ==> r.1[k] == errors[k]
    ensures !Shown(r.1, name)
    ensures Shown(errors, name) ==> r.1[name] == ""
    ensures !Shown(errors, name) ==> r.1 == errors
  {
    (values[name := value], if Shown(errors, name) then errors[name := ""] else errors)
  }

  /** The state of a form that also displays an API error. */
  datatype ApiForm = ApiForm(values: map<string, string>, errors: Errors, apiError: string,
                             isSubmitting: bool, isSuccess: bool)

  /** `handleChange` of the password forms: `Change`, and the API error is cleared. */
  function ChangeClearingApiError(f: ApiForm, name: string, value: string): (r: ApiForm)
    ensures r.values == f.values[name := value]
    ensures r.errors == Change(f.values, f.errors, name, value).1
    ensures r.apiError == ""
    ensures r.isSubmitting == f.isSubmitting && r.isSuccess == f.isSuccess
  {
    var c := Change(f.values, f.errors, name, value);
    f.(values := c.0, errors := c.1, apiError := if f.apiError != "" then "" else f.apiError)
  }

  const DefaultApiError := "An error occurred. Please try again."

  predicate HasDataError(t: Thrown) {
    t.ErrorObject? && t.response.Some? && TruthyStr(t.response.value.error)
  }

  predicate HasDataDetail(t: Thrown) {
    t.ErrorObject? && t.response.Some? && TruthyStr(t.response.value.detail)
  }

  predicate HasStatus(t: Thrown, status: int) {
    t.ErrorObject? && t.response.Some? && t.response.value.status == status
  }

  /** The message a password form shows for a rejected request: the response's
      `error`, else its `detail`, else the form's own message for `status`, else the
      error's `message`, else the default. A message is always shown. */
  function ApiErrorMessage(t: Thrown, status: int, statusMessage: string): (m: string)
    requires statusMessage != ""
    ensures m != ""
    ensures HasDataError(t) ==> m == t.response.value.error.value
    ensures !HasDataError(t) && HasDataDetail(t) ==> m == t.response.value.detail.value
    ensures !HasDataError(t) && !HasDataDetail(t) && HasStatus(t, status) ==> m == statusMessage
    ensures !HasDataError(t) && !HasDataDetail(t) && !HasStatus(t, status) ==>
              m == (if t.ErrorObject? && t.message != "" then t.message else DefaultApiError)
  {
    match t
    case OtherValue => DefaultApiError
    case ErrorObject(message, response) =>
      if response.Some? && TruthyStr(response.value.error) then response.value.error.value
      else if response.Some? && TruthyStr(response.value.detail) then response.value.detail.value
      else if response.Some? && response.value.status == status then statusMessage
      else if message != "" then message
      else DefaultApiError
  }
}

=== FILE: http_client.dfy ===
/** The client's HTTP setup: where image paths point and how the bearer token is
    kept in the axios defaults and in local storage. */
module HttpClient {
  import opened Outcomes
  import opened Text

  const DefaultBaseUrl := "http://127.0.0.1:8000"

  /** `API_BASE_URL`: the configured base URL when set (and non-empty), else the
      local development server. */
  function BaseUrl(configured: Option<string>): (r: string)
    ensures TruthyStr(configured) ==> r == configured.value
    ensures !TruthyStr(configured) ==> r == DefaultBaseUrl
    ensures r != ""
  {
    if TruthyStr(configured) then configured.value else DefaultBaseUrl
  }

  /** `getImageUrl(imageUrl)`: absolute URLs and bundled assets pass through,
      other paths are served by the API host, and a missing path gives `null`. */
  function GetImageUrl(base: string, imageUrl: Option<string>): (r: Option<string>)
    ensures !TruthyStr(imageUrl) ==> r.None?
    ensures TruthyStr(imageUrl) && (StartsWith(imageUrl.value, "http") || StartsWith(imageUrl.value, "/assets/images/")) ==>
              r == imageUrl
    ensures TruthyStr(imageUrl) && !StartsWith(imageUrl.value, "http") && !StartsWith(imageUrl.value, "/assets/images/") ==>
              r == Some(base + imageUrl.value)
  {
    if !TruthyStr(imageUrl) then None
    else if StartsWith(imageUrl.value, "http") then imageUrl
    else if StartsWith(imageUrl.value, "/assets/images/") then imageUrl
    else Some(base + imageUrl.value)
  }

  /** A prefix of `s` is also a prefix of anything `s` starts. */
  lemma StartsWithAppend(s: string, t: string, p: string)
    requires StartsWith(s, p)
    ensures StartsWith(s + t, p)
  {
    assert (s + t)[..|p|] == s[..|p|];
  }

  /** With an `http…` base URL, resolving an already resolved URL changes nothing. */
  lemma GetImageUrlIdempotent(base: string, imageUrl: Option<string>)
    requires StartsWith(base, "http")
    ensures GetImageUrl(base, GetImageUrl(base, imageUrl)) == GetImageUrl(base, imageUrl)
  {
    var r := GetImageUrl(base, imageUrl);
    if TruthyStr(imageUrl) && r == Some(base + imageUrl.value) {
      StartsWithAppend(base, imageUrl.value, "http");
    }
  }

  /** The two places the token lives: the `Authorization` header of the axios
      defaults, and `localStorage["jwt_access_token"]`. */
  datatype Session = Session(header: Option<string>, stored: Option<string>)

  /** The header carries exactly the stored token, and only a non-empty one. */
  predicate Consistent(s: Session) {
    (s.header.Some? <==> s.stored.Some?)
    && (s.stored.Some? ==> s.stored.value != "" && s.header == Some("Bearer " + s.stored.value))
  }

  /** `setAuthToken(token)`: a truthy token is installed in both places, anything
      else removes both. Either way the two agree afterwards. */
  function SetAuthToken(s: Session, token: Option<string>): (r: Session)
    ensures Consistent(r)
    ensures TruthyStr(token) ==> r.stored == token && r.header == Some("Bearer " + token.value)
    ensures !TruthyStr(token) ==> r.stored.None? && r.header.None?
  {
    if TruthyStr(token) then Session(Some("Bearer " + token.value), token) else Session(None, None)
  }

  /** Module load: a fresh axios instance, and a stored token (if truthy) is
      re-applied. */
  function Load(stored: Option<string>): (r: Session)
    ensures TruthyStr(stored) ==> r.header == Some("Bearer " + stored.value) && r.stored == stored
    ensures !TruthyStr(stored) ==> r.header.None? && r.stored == stored
    ensures stored.None? || TruthyStr(stored) ==> Consistent(r)
  {
    var unset := Session(None, stored);
    if TruthyStr(stored) then SetAuthToken(unset, stored) else unset
  }

  /** The session after a series of `setAuthToken` calls. */
  function ApplyTokens(s: Session, tokens: seq<Option<string>>): Session
    decreases |tokens|
  {
    if tokens == [] then s else ApplyTokens(SetAuthToken(s, tokens[0]), tokens[1..])
  }

  /** When only `setAuthToken` touches them after load, the header is present iff
      the key is stored, and the last call decides both. */
  lemma {:induction false} TokenPlacesAgree(stored: Option<string>, tokens: seq<Option<string>>)
    requires stored.None? || TruthyStr(stored)
    ensures Consistent(ApplyTokens(Load(stored), tokens))
    ensures tokens != [] ==> ApplyTokens(Load(stored), tokens).stored ==
                             (if TruthyStr(tokens[|tokens| - 1]) then tokens[|tokens| - 1] else None)
  {
    ApplyKeepsConsistent(Load(stored), tokens);
  }

  lemma {:induction false} ApplyKeepsConsistent(s: Session, tokens: seq<Option<string>>)
    requires Consistent(s)
    ensures Consistent(ApplyTokens(s, tokens))
    ensures tokens != [] ==> ApplyTokens(s, tokens).stored ==
                             (if TruthyStr(tokens[|tokens| - 1]) then tokens[|tokens| - 1] else None)
    decreases |tokens|
  {
    if tokens != [] {
      ApplyKeepsConsistent(SetAuthToken(s, tokens[0]), tokens[1..]);
    }
  }
}

=== FILE: infinite_query.dfy ===
/** `useInfiniteQuery`: pages fetched one after another, each appended to the
    documents already shown, with a cursor and a `hasNextPage` flag. */
module InfiniteQuery {
  import opened Outcomes
  import opened Js

  /** What `getNextPageParam` may return; only `null` ends the pages. */
  datatype Param = Null | Undefined | Value(v: JsVal)

  datatype State<T> = State(data: seq<T>, isLoading: bool, error: Option<Thrown>,
                            hasNextPage: bool, nextPageParam: Param)

  /** The state on mount: nothing loaded, a next page expected at cursor 0. */
  function Initial<T>(): (s: State<T>)
    ensures s.data == [] && s.hasNextPage && !s.isLoading && s.nextPageParam == Value(Num(0))
  {
    State([], false, None, true, Value(Num(0)))
  }

  /** `fetchNextPage()` once `queryFn(nextPageParam)` has settled with `reply`
      (the page's `documents`). The second component is the cursor the query was
      called with, or `None` when the call was skipped. */
  function FetchNextPage<T>(s: State<T>, getNextPageParam: Option<seq<T> -> Param>, reply: Reply<seq<T>>)
    : (r: (State<T>, Option<Param>))
    ensures !s.hasNextPage || s.isLoading ==> r == (s, None)
    ensures s.hasNextPage && !s.isLoading ==> r.1 == Some(s.nextPageParam) && !r.0.isLoading
    ensures s.hasNextPage && !s.isLoading && reply.Resolved? ==>
              r.0.data == s.data + reply.value && r.0.error.None?
    ensures s.hasNextPage && !s.isLoading && reply.Resolved? && getNextPageParam.Some? ==>
              r.0.nextPageParam == getNextPageParam.value(reply.value)
              && (r.0.hasNextPage <==> r.0.nextPageParam != Null)
    ensures s.hasNextPage && !s.isLoading && reply.Resolved? && getNextPageParam.None? ==>
              r.0.nextPageParam == s.nextPageParam && (r.0.hasNextPage <==> |reply.value| > 0)
    ensures s.hasNextPage && !s.isLoading && reply.Rejected? ==>
              r.0 == s.(error := Some(AsError(reply.thrown)))
  {
    if !s.hasNextPage || s.isLoading then (s, None)
    else
      var called := Some(s.nextPageParam);
      match reply
      case Rejected(t) => (s.(error := Some(AsError(t))), called)
      case Resolved(docs) =>
        var appended := s.(data := s.data + docs, error := None, isLoading := false);
        match getNextPageParam
        case Some(f) => (appended.(nextPageParam := f(docs), hasNextPage := f(docs) != Null), called)
        case None => (appended.(hasNextPage := |docs| > 0), called)
  }

  /** The state after a series of `fetchNextPage` calls, each settling with the
      next reply in turn. */
  function Run<T>(s: State<T>, getNextPageParam: Option<seq<T> -> Param>, replies: seq<Reply<seq<T>>>): State<T>
    decreases |replies|
  {
    if replies == [] then s
    else Run(FetchNextPage(s, getNextPageParam, replies[0]).0, getNextPageParam, replies[1..])
  }

  /** Earlier pages are never lost or reordered: whatever the replies, the data
      only grows at its end. */
  lemma {:induction false} DataOnlyGrows<T>(s: State<T>, getNextPageParam: Option<seq<T> -> Param>,
                                            replies: seq<Reply<seq<T>>>)
    ensures s.data <= Run(s, getNextPageParam, replies).data
    decreases |replies|
  {
    if replies != [] {
      var next := FetchNextPage(s, getNextPageParam, replies[0]).0;
      DataOnlyGrows(next, getNextPageParam, replies[1..]);
    }
  }

  /** Once the last page has been seen, no further call fetches anything. */
  lemma {:induction false} ExhaustedStaysPut<T>(s: State<T>, getNextPageParam: Option<seq<T> -> Param>,
                                                replies: seq<Reply<seq<T>>>)
    requires !s.hasNextPage
    ensures Run(s, getNextPageParam, replies) == s
    decreases |replies|
  {
    if replies != [] {
      ExhaustedStaysPut(s, getNextPageParam, replies[1..]);
    }
  }

  /** Without `getNextPageParam` the query keeps asking for the same cursor and
      stops at the first empty page. */
  lemma EmptyPageEnds<T>(s: State<T>)
    requires s.hasNextPage && !s.isLoading
    ensures !FetchNextPage(s, None, Resolved([])).0.hasNextPage
    ensures FetchNextPage(s, None, Resolved([])).0.data == s.data
  {
    assert s.data + [] == s.data;
  }
}

=== FILE: js.dfy ===
/** The two shapes an id takes on the client: a number from the server's JSON,
    or a string from a route parameter or from `String(...)`. */
module Js {
  import opened Outcomes

  datatype JsVal = Num(n: int) | Str(s: string)

  /** Decimal digits of a natural number, most significant first. */
  function Digits(n: nat): (r: string)
    ensures |r| >= 1
    ensures forall i :: 0 <= i < |r| ==> '0' <= r[i] <= '9'
    decreases n
  {
    if n < 10 then [(('0' as int) + n) as char]
    else Digits(n / 10) + [(('0' as int) + n % 10) as char]
  }

  /** `String(v)`. */
  function ToStr(v: JsVal): string {
    match v
    case Str(s) => s
    case Num(n) => if n < 0 then "-" + Digits(-n) else Digits(n)
  }

  /** `a === b` (and `!==` negated): different types are never equal. */
  predicate StrictEq(a: JsVal, b: JsVal) {
    match (a, b)
    case (Num(x), Num(y)) => x == y
    case (Str(x), Str(y)) => x == y
    case _ => false
  }

  /** `String(a) === String(b)`: the comparison the components use for ownership. */
  predicate SameId(a: JsVal, b: JsVal) {
    ToStr(a) == ToStr(b)
  }

  /** `String(x)` of an id that may be `undefined` (say `post?.user?.id`). */
  function StringOf(v: Option<JsVal>): (r: string)
    ensures v.Some? ==> r == ToStr(v.value)
    ensures v.None? ==> r == "undefined"
  {
    if v.Some? then ToStr(v.value) else "undefined"
  }

  /** `String(user.id) === String(ownerId)`: the ownership test of the comment and
      post components. The context user's id is already a string. */
  predicate Owns(userId: string, ownerId: Option<JsVal>) {
    userId == StringOf(ownerId)
  }

  /** JavaScript truthiness: `0` and `""` are falsy. */
  predicate Truthy(v: JsVal) {
    match v
    case Num(n) => n != 0
    case Str(s) => s != ""
  }

  /** Strict equality implies equality of the string forms, but not conversely:
      a number and its decimal string are never strictly equal. */
  lemma StrictEqImpliesSameId(a: JsVal, b: JsVal)
    ensures StrictEq(a, b) ==> SameId(a, b)
    ensures a.Num? && b.Str? ==> !StrictEq(a, b)
  {
  }
}

=== FILE: models.dfy ===
/** The Django models: users, posts, comments and saved posts as rows of
    immutable tables, with the field bounds, the unique columns and the
    newest-first ordering the model classes declare. */
module Models {
  import opened Outcomes
  import Seqs

  const NameMax := 255
  const UsernameMax := 150
  /** The default `max_length` of Django's `EmailField`. */
  const EmailMax := 254
  const BioMax := 500
  const LocationMax := 255
  const TagsMax := 500

  /** A user row. `password` stands for the stored credential; hashing is not
      modelled. */
  datatype User = User(id: nat, name: string, username: string, email: string,
                       password: string, bio: string, image: Option<string>, createdAt: int)

  datatype Post = Post(id: nat, user: nat, caption: string, image: Option<string>,
                       location: string, tags: string, likes: set<nat>, createdAt: int)

  datatype Comment = Comment(id: nat, post: nat, user: nat, content: string, createdAt: int)

  datatype SavedPost = SavedPost(id: nat, user: nat, post: nat, createdAt: int)

  /** The outcome of an insert: the new table and the new row, or the database
      refusing it. */
  datatype Write<T> = Written(table: seq<T>, row: T) | IntegrityError

  /** The `imageUrl` property of users and posts: the storage URL of the file when
      one is set. A file field with an empty name is falsy. */
  function ImageUrl(image: Option<string>, urlOf: string -> string): (r: Option<string>)
    ensures r.None? <==> !TruthyStr(image)
    ensures r.Some? ==> r.value == urlOf(image.value)
  {
    if TruthyStr(image) then Some(urlOf(image.value)) else None
  }

  /** `likes_count`: `likes` is a many-to-many relation, so each liker counts once. */
  function LikesCount(p: Post): nat {
    |p.likes|
  }

  predicate UserFits(u: User) {
    |u.name| <= NameMax && |u.username| <= UsernameMax && |u.email| <= EmailMax && |u.bio| <= BioMax
  }

  predicate PostFits(p: Post) {
    |p.location| <= LocationMax && |p.tags| <= TagsMax
  }

  /** The primary key and the two `unique=True` columns. */
  predicate UniqueAccounts(users: seq<User>) {
    forall i, j :: 0 <= i < j < |users| ==>
      users[i].id != users[j].id && users[i].username != users[j].username && users[i].email != users[j].email
  }

  /** `unique_together = ['user', 'post']` and the primary key: no row occurs
      twice, and two different rows differ in id and in their pair. */
  predicate UniqueSaves(saves: seq<SavedPost>) {
    && (forall x :: x in saves ==> multiset(saves)[x] <= 1)
    && (forall a, b :: a in saves && b in saves && a != b ==>
          a.id != b.id && (a.user != b.user || a.post != b.post))
  }

  /** `ordering = ['-created_at']`. */
  predicate NewestFirst<T>(rows: seq<T>, at: T -> int) {
    forall i, j :: 0 <= i < j < |rows| ==> at(rows[i]) >= at(rows[j])
  }

  /** A filtered queryset keeps the table's order: filtering rows kept newest
      first gives rows kept newest first. */
  lemma {:induction false} FilterKeepsNewestFirst<T(!new)>(rows: seq<T>, p: T -> bool, at: T -> int)
    ensures NewestFirst(rows, at) ==> NewestFirst(Seqs.Filter(rows, p), at)
    decreases |rows|
  {
    if |rows| > 0 && NewestFirst(rows, at) {
      var tail := rows[1..];
      TailNewestFirst(rows, at);
      FilterKeepsNewestFirst(tail, p, at);
      var rest := Seqs.Filter(tail, p);
      if p(rows[0]) {
        HeadNotOlder(rows, rest, at);
        ConsNewestFirst(rows[0], rest, at);
      }
    }
  }

  /** Dropping the newest row keeps the rest newest first. */
  lemma TailNewestFirst<T>(rows: seq<T>, at: T -> int)
    requires |rows| > 0 && NewestFirst(rows, at)
    ensures NewestFirst(rows[1..], at)
  {
    var tail := rows[1..];
    forall i, j | 0 <= i < j < |tail| ensures at(tail[i]) >= at(tail[j]) {
      assert tail[i] == rows[i + 1] && tail[j] == rows[j + 1];
    }
  }

  /** The first row is no older than any row drawn from the rest. */
  lemma HeadNotOlder<T>(rows: seq<T>, rest: seq<T>, at: T -> int)
    requires |rows| > 0 && NewestFirst(rows, at)
    requires forall x :: x in rest ==> x in rows[1..]
    ensures forall j :: 0 <= j < |rest| ==> at(rows[0]) >= at(rest[j])
  {
    forall j | 0 <= j < |rest| ensures at(rows[0]) >= at(rest[j]) {
      assert rest[j] in rows[1..];
      var m :| 0 <= m < |rows[1..]| && rows[1..][m] == rest[j];
      assert rows[m + 1] == rest[j];
    }
  }

  /** A row no older than any of a newest-first list may go in front of it. */
  lemma ConsNewestFirst<T>(h: T, rest: seq<T>, at: T -> int)
    requires NewestFirst(rest, at)
    requires forall j :: 0 <= j < |rest| ==> at(h) >= at(rest[j])
    ensures NewestFirst([h] + rest, at)
  {
    var r := [h] + rest;
    forall i, j | 0 <= i < j < |r| ensures at(r[i]) >= at(r[j]) {
      assert r[j] == rest[j - 1];
      if i > 0 { assert r[i] == rest[i - 1]; }
    }
  }

  /** Places a row among rows kept newest first; ties go before older equals. */
  function InsertNewest<T>(rows: seq<T>, x: T, at: T -> int): (r: seq<T>)
    requires NewestFirst(rows, at)
    ensures NewestFirst(r, at)
    ensures multiset(r) == multiset(rows) + multiset{x}
    ensures |rows| == 0 || at(x) >= at(rows[0]) ==> r == [x] + rows
    decreases |rows|
  {
    if |rows| == 0 || at(x) >= at(rows[0]) then [x] + rows
    else
      var rest := InsertNewest(rows[1..], x, at);
      assert rows == [rows[0]] + rows[1..];
      assert forall k :: 0 <= k < |rest| ==> at(rows[0]) >= at(rest[k]) by {
        forall k | 0 <= k < |rest| ensures at(rows[0]) >= at(rest[k]) {
          assert rest[k] in multiset(rest);
          if rest[k] != x {
            assert rest[k] in multiset(rows[1..]);
            var m :| 0 <= m < |rows[1..]| && rows[1..][m] == rest[k];
            assert rows[m + 1] == rest[k];
          }
        }
      }
      [rows[0]] + rest
  }

  /** A row created after every other one (`auto_now_add` on a clock that does
      not run backwards) goes first. */
  lemma NewRowGoesFirst<T>(rows: seq<T>, x: T, at: T -> int)
    requires NewestFirst(rows, at)
    requires forall k :: 0 <= k < |rows| ==> at(x) >= at(rows[k])
    ensures InsertNewest(rows, x, at) == [x] + rows
  {
  }

  /** An id above every id in use: what the auto-increment key hands out. */
  function NextId<T>(rows: seq<T>, id: T -> nat): (r: nat)
    ensures forall k :: 0 <= k < |rows| ==> id(rows[k]) < r
    decreases |rows|
  {
    if |rows| == 0 then 1
    else
      var rest := NextId(rows[1..], id);
      assert forall k :: 1 <= k < |rows| ==> rows[k] == rows[1..][k - 1];
      if id(rows[0]) < rest then rest else id(rows[0]) + 1
  }

  function UserAt(u: User): int { u.createdAt }
  function SaveAt(s: SavedPost): int { s.createdAt }
  function CommentAt(c: Comment): int { c.createdAt }

  predicate Taken(users: seq<User>, username: string, email: string) {
    exists k :: 0 <= k < |users| && (users[k].username == username || users[k].email == email)
  }

  /** `User.objects.create_user(...)` at the database level: the unique columns
      refuse a second account with the same username or email. */
  function CreateUser(users: seq<User>, username: string, email: string, name: string,
                      password: string, now: int): (r: Write<User>)
    ensures r.IntegrityError? <==> Taken(users, username, email)
    ensures r.Written? ==>
              r.row.username == username && r.row.email == email && r.row.name == name
              && r.row.password == password && r.row.bio == "" && r.row.image.None?
              && r.table == users + [r.row]
              && forall k :: 0 <= k < |users| ==> users[k].id != r.row.id
  {
    if Taken(users, username, email) then IntegrityError
    else
      var u := User(NextId(users, (u: User) => u.id), name, username, email, password, "", None, now);
      Written(users + [u], u)
  }

  lemma CreateUserKeepsAccountsUnique(users: seq<User>, username: string, email: string,
                                      name: string, password: string, now: int)
    requires UniqueAccounts(users)
    ensures var r := CreateUser(users, username, email, name, password, now);
            r.Written? ==> UniqueAccounts(r.table)
  {
    var r := CreateUser(users, username, email, name, password, now);
    if r.Written? {
      forall i, j | 0 <= i < j < |r.table|
        ensures r.table[i].id != r.table[j].id && r.table[i].username != r.table[j].username
                && r.table[i].email != r.table[j].email
      {
        if j == |users| {
          assert r.table[i] == users[i];
          assert !(users[i].username == username || users[i].email == email);
        }
      }
    }
  }

  /** `authenticate(username=..., password=...)` with `USERNAME_FIELD = 'email'`:
      the account whose email is the given login, if its password matches. */
  function Authenticate(users: seq<User>, login: string, password: string): (r: Option<User>)
    ensures r.Some? ==> r.value in users && r.value.email == login && r.value.password == password
    ensures r.None? <==> forall k :: 0 <= k < |users| ==> !(users[k].email == login && users[k].password == password)
  {
    Seqs.Find(users, (u: User) => u.email == login && u.password == password)
  }

  /** With unique emails the login names one account: its own credentials find it. */
  lemma AuthenticateFindsAccount(users: seq<User>, k: nat)
    requires UniqueAccounts(users) && k < |users|
    ensures Authenticate(users, users[k].email, users[k].password) == Some(users[k])
  {
    var r := Authenticate(users, users[k].email, users[k].password);
    var m :| 0 <= m < |users| && users[m] == r.value && users[m].email == users[k].email;
  }

  predicate Saved(saves: seq<SavedPost>, user: nat, post: nat) {
    exists k :: 0 <= k < |saves| && saves[k].user == user && saves[k].post == post
  }

  /** Inserting a saved-post row: the `(user, post)` pair is unique. */
  function CreateSave(saves: seq<SavedPost>, user: nat, post: nat, now: int): (r: Write<SavedPost>)
    requires NewestFirst(saves, SaveAt)
    ensures r.IntegrityError? <==> Saved(saves, user, post)
    ensures r.Written? ==>
              r.row.user == user && r.row.post == post
              && (forall k :: 0 <= k < |saves| ==> saves[k].id != r.row.id)
              && NewestFirst(r.table, SaveAt)
              && multiset(r.table) == multiset(saves) + multiset{r.row}
  {
    if Saved(saves, user, post) then IntegrityError
    else
      var s := SavedPost(NextId(saves, (s: SavedPost) => s.id), user, post, now);
      Written(InsertNewest(saves, s, SaveAt), s)
  }

  /** Inserting a saved-post row whose `post` may be unset: the NOT NULL column
      refuses a row without a post, and `unique_together` a repeated pair. */
  function InsertSave(saves: seq<SavedPost>, user: nat, post: Option<nat>, now: int): (r: Write<SavedPost>)
    requires NewestFirst(saves, SaveAt)
    ensures r.IntegrityError? <==> post.None? || Saved(saves, user, post.value)
    ensures r.Written? ==>
              r.row.user == user && post == Some(r.row.post)
              && (forall k :: 0 <= k < |saves| ==> saves[k].id != r.row.id)
              && NewestFirst(r.table, SaveAt)
              && multiset(r.table) == multiset(saves) + multiset{r.row}
  {
    match post
    case None => IntegrityError
    case Some(p) => CreateSave(saves, user, p, now)
  }

  /** Saving twice is refused, and a save keeps the table unique. */
  lemma CreateSaveKeepsUnique(saves: seq<SavedPost>, user: nat, post: nat, now: int)
    requires NewestFirst(saves, SaveAt) && UniqueSaves(saves)
    ensures var r := CreateSave(saves, user, post, now);
            r.Written? ==> UniqueSaves(r.table) && Saved(r.table, user, post)
                           && CreateSave(r.table, user, post, now).IntegrityError?
  {
    var r := CreateSave(saves, user, post, now);
    if r.Written? {
      var t, x := r.table, r.row;
      assert forall b :: b in saves ==> b.id != x.id && (b.user != x.user || b.post != x.post) by {
        forall b | b in saves ensures b.id != x.id && (b.user != x.user || b.post != x.post) {
          var k :| 0 <= k < |saves| && saves[k] == b;
        }
      }
      AddedRowKeepsUnique(saves, t, x);
      assert x in multiset(t);
      var p :| 0 <= p < |t| && t[p] == x;
      assert Saved(t, user, post);
    }
  }

  /** A table that gains one row, differing from every old row in id and in its
      pair, stays unique. */
  lemma AddedRowKeepsUnique(saves: seq<SavedPost>, t: seq<SavedPost>, x: SavedPost)
    requires UniqueSaves(saves) && multiset(t) == multiset(saves) + multiset{x}
    requires forall b :: b in saves ==> b.id != x.id && (b.user != x.user || b.post != x.post)
    ensures UniqueSaves(t)
  {
    assert x !in saves;
    assert forall y :: y in t <==> y in saves || y == x by {
      forall y ensures y in t <==> y in saves || y == x {
        assert y in t <==> y in multiset(t);
        assert y in saves <==> y in multiset(saves);
      }
    }
    assert forall y :: multiset(t)[y] <= 1 by {
      forall y ensures multiset(t)[y] <= 1 {
        if y == x { assert multiset(saves)[x] == 0; }
        else { assert y in saves <==> y in multiset(saves); }
      }
    }
  }
}

=== FILE: outcomes.dfy ===
/** Optional values and the settled outcomes of awaited promises. */
module Outcomes {

  /** JavaScript `null`/`undefined` versus a present value. */
  datatype Option<+T> = None | Some(value: T) {

    /** The present value, or a default when absent. */
    function GetOr(default: T): T {
      match this
      case Some(v) => v
      case None => default
    }
  }

  /** The HTTP response an axios error carries, as far as the client reads it. */
  datatype ErrorResponse = ErrorResponse(status: int, error: Option<string>, detail: Option<string>)

  /** A thrown value: an `Error` object (with its message and optional HTTP response)
      or anything else that was thrown. */
  datatype Thrown =
    | ErrorObject(message: string, response: Option<ErrorResponse>)
    | OtherValue

  /** How an awaited promise settled. */
  datatype Reply<+T> = Resolved(value: T) | Rejected(thrown: Thrown)

  /** `err instanceof Error ? err : new Error('An error occurred')`. */
  function AsError(t: Thrown): (e: Thrown)
    ensures e.ErrorObject?
    ensures t.ErrorObject? ==> e == t
    ensures t.OtherValue? ==> e.message == "An error occurred" && e.response.None?
  {
    match t
    case ErrorObject(_, _) => t
    case OtherValue => ErrorObject("An error occurred", None)
  }

  /** JavaScript truthiness of an optional string: present and non-empty. */
  predicate TruthyStr(s: Option<string>) {
    s.Some? && s.value != ""
  }
}

/** Reading a JavaScript object used as a map from field name to value. */
module Maps {
  import opened Outcomes

  /** `obj[key]`, with `undefined` as `None`. */
  function Get<K, V>(m: map<K, V>, k: K): Option<V> {
    if k in m then Some(m[k]) else None
  }

  /** `if (msg) errors[key] = msg`: adds the entry only when there is a message. */
  function PutIf<K>(m: map<K, string>, k: K, msg: Option<string>): (r: map<K, string>)
    ensures msg.Some? ==> r == m[k := msg.value]
    ensures msg.None? ==> r == m
  {
    match msg
    case Some(v) => m[k := v]
    case None => m
  }
}

=== FILE: post_delete.dfy ===
/** Deleting a post from its card or from its details page, and the details
    page's list of the author's other posts. */
module PostDelete {
  import opened Outcomes
  import opened Js
  import opened Ui
  import Seqs

  const NotYours := "You can only delete your own posts."
  const DeleteFailed := "Failed to delete post. Please try again."

  /** A card renders only for a post with an author. */
  predicate CardRenders(postUser: Option<JsVal>) {
    postUser.Some?
  }

  datatype Card = Card(showDeleteModal: bool)

  /** The card's delete button: a non-owner gets an alert and nothing else; the
      owner only gets the confirmation modal. */
  function CardDelete(c: Card, userId: string, postUser: Option<JsVal>): (r: (Card, seq<Effect>))
    ensures !Owns(userId, postUser) ==> r == (c, [Alert(NotYours)])
    ensures Owns(userId, postUser) ==> r == (Card(true), [])
    ensures NoRequests(r.1)
  {
    if !Owns(userId, postUser) then (c, [Alert(NotYours)]) else (Card(true), [])
  }

  /** The modal's confirm: delete, then tell the parent if it asked to be told,
      else reload the page; a failure alerts. */
  function CardConfirm(postId: JsVal, imageId: Option<string>, hasCallback: bool, reply: Reply<()>): (r: seq<Effect>)
    ensures |r| == 2 && r[0] == Request(DeletePost(postId, imageId))
    ensures reply.Resolved? ==> r[1] == (if hasCallback then NotifyParent else Reload)
    ensures reply.Rejected? ==> r[1] == Alert(DeleteFailed)
  {
    var req := Request(DeletePost(postId, imageId));
    match reply
    case Resolved(_) => [req, if hasCallback then NotifyParent else Reload]
    case Rejected(_) => [req, Alert(DeleteFailed)]
  }

  /** The details page's delete: the ownership check, then `window.confirm`
      (`confirmed`), then the request with the route's id; going back happens only
      after a successful delete. */
  function DetailsDelete(userId: string, postUser: Option<JsVal>, routeId: string, imageId: Option<string>,
                         confirmed: bool, reply: Reply<()>): (r: seq<Effect>)
    ensures !Owns(userId, postUser) ==> r == [Alert(NotYours)]
    ensures Owns(userId, postUser) && !confirmed ==> r == []
    ensures Owns(userId, postUser) && confirmed ==>
              |r| == 2 && r[0] == Request(DeletePost(Str(routeId), imageId))
    ensures NavigateBack in r <==> Owns(userId, postUser) && confirmed && reply.Resolved?
  {
    if !Owns(userId, postUser) then [Alert(NotYours)]
    else if !confirmed then []
    else
      var req := Request(DeletePost(Str(routeId), imageId));
      match reply
      case Resolved(_) => [req, NavigateBack]
      case Rejected(_) => [req, Alert(DeleteFailed)]
  }

  /** One of the author's posts, by id. */
  datatype Summary = Summary(id: JsVal)

  /** `relatedPosts` as written: `userPost.id !== id` compares the server's numeric
      id with the route's string, which is never strictly equal. */
  function RelatedPostsAsWritten(posts: seq<Summary>, routeId: string): (r: seq<Summary>)
    ensures forall p :: p in r <==> p in posts && !StrictEq(p.id, Str(routeId))
  {
    Seqs.Filter(posts, (p: Summary) => !StrictEq(p.id, Str(routeId)))
  }

  /** With numeric ids from the server, the filter removes nothing: the post being
      viewed is listed among its own related posts. */
  lemma {:induction false} AsWrittenKeepsEveryNumericPost(posts: seq<Summary>, routeId: string)
    requires forall i :: 0 <= i < |posts| ==> posts[i].id.Num?
    ensures RelatedPostsAsWritten(posts, routeId) == posts
  {
    Seqs.FilterKeepsAll(posts, (p: Summary) => !StrictEq(p.id, Str(routeId)));
  }

  lemma AsWrittenListsCurrentPost()
    ensures Summary(Num(7)) in RelatedPostsAsWritten([Summary(Num(7))], "7")
  {
    AsWrittenKeepsEveryNumericPost([Summary(Num(7))], "7");
  }

  /** `relatedPosts` comparing ids as strings, as the page's ownership checks do. */
  function RelatedPosts(posts: seq<Summary>, routeId: string): (r: seq<Summary>)
    ensures forall p :: p in r <==> p in posts && ToStr(p.id) != routeId
    ensures forall i :: 0 <= i < |r| ==> ToStr(r[i].id) != routeId
    ensures |r| <= |posts|
  {
    Seqs.Filter(posts, (p: Summary) => ToStr(p.id) != routeId)
  }

  /** The current post is left out whichever form its id arrives in. */
  lemma RelatedPostsExcludeCurrent(posts: seq<Summary>, n: nat)
    ensures Summary(Num(n)) !in RelatedPosts(posts, Digits(n))
    ensures Summary(Str(Digits(n))) !in RelatedPosts(posts, Digits(n))
  {
  }
}

=== FILE: post_form.dfy ===
/** The create/edit post form: fields seeded from the post being edited, a
    caption check, and a submit that either updates that post or creates one. */
module PostForm {
  import opened Outcomes
  import opened Js
  import opened Text
  import opened Ui
  import FormFields

  /** `post.tags` as the server may send it. */
  datatype Tags = TagList(items: seq<string>) | TagText(text: string) | NoTags

  /** The post being edited, as far as the form reads it. */
  datatype Post = Post(id: JsVal, caption: Option<string>, location: Option<string>, tags: Tags,
                       isPrivate: Option<bool>, imageId: Option<string>, imageUrl: Option<string>)

  /** Tags as the form's text field holds them: a list joined with ",", a string
      kept, nothing as "". */
  function TagsText(t: Tags): (r: string)
    ensures t.TagList? ==> r == Join(t.items, ',')
    ensures t.TagText? ==> r == t.text
    ensures t.NoTags? ==> r == ""
  {
    match t
    case TagList(items) => Join(items, ',')
    case TagText(s) => s
    case NoTags => ""
  }

  /** A non-empty tag list without commas is recovered by splitting the field on
      ",", so an edit that leaves the field alone sends the same tags. */
  lemma TagsRoundTrip(items: seq<string>)
    requires |items| >= 1
    requires forall i :: 0 <= i < |items| ==> ',' !in items[i]
    ensures Split(TagsText(TagList(items)), ',') == items
  {
    SplitJoin(items, ',');
  }

  /** The fields of a post for the form: missing values become "" and `false`. */
  function FieldsOf(post: Post): (r: PostFields)
    ensures r.caption == post.caption.GetOr("") && r.location == post.location.GetOr("")
    ensures r.tags == TagsText(post.tags) && r.isPrivate == post.isPrivate.GetOr(false)
  {
    PostFields(post.caption.GetOr(""), post.location.GetOr(""), TagsText(post.tags), post.isPrivate.GetOr(false))
  }

  /** The branch `handleSubmit` takes, and the condition of the update-mode effect. */
  predicate IsUpdate(post: Option<Post>, action: string) {
    post.Some? && action == "Update"
  }

  datatype State = State(fields: PostFields, errors: FormFields.Errors, isSubmitting: bool, files: seq<string>)

  /** The form on mount: the post's fields when one is given, else blank. */
  function Init(post: Option<Post>): (r: State)
    ensures post.None? ==> r.fields == PostFields("", "", "", false)
    ensures post.Some? ==> r.fields == FieldsOf(post.value)
    ensures r.errors == map[] && !r.isSubmitting && r.files == []
  {
    State(if post.Some? then FieldsOf(post.value) else PostFields("", "", "", false), map[], false, [])
  }

  /** The update-mode effect: in update mode the fields are re-read from the post;
      otherwise nothing changes. */
  function Resync(st: State, post: Option<Post>, action: string): (r: State)
    ensures IsUpdate(post, action) ==> r == st.(fields := FieldsOf(post.value))
    ensures !IsUpdate(post, action) ==> r == st
  {
    if IsUpdate(post, action) then st.(fields := FieldsOf(post.value)) else st
  }

  /** Writing one text field by its input name; an unknown name leaves the post's
      fields alone. */
  function SetField(f: PostFields, name: string, value: string): (r: PostFields)
    ensures name == "caption" ==> r == f.(caption := value)
    ensures name == "location" ==> r == f.(location := value)
    ensures name == "tags" ==> r == f.(tags := value)
    ensures name !in {"caption", "location", "tags"} ==> r == f
    ensures r.isPrivate == f.isPrivate
  {
    if name == "caption" then f.(caption := value)
    else if name == "location" then f.(location := value)
    else if name == "tags" then f.(tags := value)
    else f
  }

  /** `handleChange`: the named field takes the value and its shown error is
      blanked, as in every hand-written form. */
  function HandleChange(st: State, name: string, value: string): (r: State)
    ensures r.fields == SetField(st.fields, name, value)
    ensures r.errors == FormFields.Change(map[], st.errors, name, value).1
    ensures !FormFields.Shown(r.errors, name)
    ensures r.isSubmitting == st.isSubmitting && r.files == st.files
  {
    st.(fields := SetField(st.fields, name, value), errors := FormFields.Change(map[], st.errors, name, value).1)
  }

  /** `handlePrivacyToggle`: only `is_private` changes. */
  function TogglePrivacy(st: State, isPrivate: bool): (r: State)
    ensures r.fields.isPrivate == isPrivate
    ensures r.fields.caption == st.fields.caption && r.fields.location == st.fields.location
    ensures r.fields.tags == st.fields.tags
    ensures r.errors == st.errors && r.isSubmitting == st.isSubmitting && r.files == st.files
  {
    st.(fields := st.fields.(isPrivate := isPrivate))
  }

  /** `validateForm`: a caption error iff the trimmed caption is empty. */
  function Validate(f: PostFields): (e: FormFields.Errors)
    ensures ("caption" in e) <==> AllWs(f.caption)
    ensures "caption" in e ==> e["caption"] == "Caption is required"
    ensures e.Keys <= {"caption"}
  {
    TrimEmptyIffAllWs(f.caption);
    if Trim(f.caption) == "" then map["caption" := "Caption is required"] else map[]
  }

  /** `handleSubmit`. `reply` is how the update or create call settled (its value's
      truthiness). */
  function Submit(st: State, post: Option<Post>, action: string, userId: JsVal, reply: Reply<bool>)
    : (r: (State, seq<Effect>))
    ensures r.0.errors == Validate(st.fields) && r.0.fields == st.fields
    ensures Validate(st.fields) != map[] ==> r.1 == [] && r.0.isSubmitting == st.isSubmitting
    ensures Validate(st.fields) == map[] ==> !r.0.isSubmitting && |r.1| == 2
    ensures Validate(st.fields) == map[] && IsUpdate(post, action) ==>
              r.1[0] == Request(UpdatePost(st.fields, post.value.id, post.value.imageId, post.value.imageUrl, st.files))
    ensures Validate(st.fields) == map[] && !IsUpdate(post, action) ==>
              r.1[0] == Request(CreatePost(st.fields, userId, st.files))
    ensures Validate(st.fields) == map[] && reply == Resolved(true) ==>
              r.1[1] == Navigate(if IsUpdate(post, action) then "/posts/" + ToStr(post.value.id) else "/home")
    ensures Validate(st.fields) == map[] && reply == Resolved(false) ==>
              r.1[1] == Alert(action + " post failed. Please try again.")
    ensures Validate(st.fields) == map[] && reply.Rejected? ==>
              r.1[1] == Alert("An error occurred. Please try again.")
  {
    var errors := Validate(st.fields);
    if errors != map[] then (st.(errors := errors), [])
    else
      var call := if IsUpdate(post, action)
        then UpdatePost(st.fields, post.value.id, post.value.imageId, post.value.imageUrl, st.files)
        else CreatePost(st.fields, userId, st.files);
      var target := if IsUpdate(post, action) then "/posts/" + ToStr(post.value.id) else "/home";
      var outcome := match reply
        case Resolved(true) => Navigate(target)
        case Resolved(false) => Alert(action + " post failed. Please try again.")
        case Rejected(_) => Alert("An error occurred. Please try again.");
      (st.(errors := errors, isSubmitting := false), [Request(call), outcome])
  }
}

=== FILE: post_stats.dfy ===
/** The like and save buttons under a post: local likes, a like counter that
    follows the server's reply, and a save toggle backed by the saved-posts
    context. */
module PostStats {
  import opened Outcomes
  import opened Js
  import opened Ui
  import Seqs

  /** The reply of the like endpoint. The component accepts several field names
      for each value; absent fields are `None`. */
  datatype LikeReply = LikeReply(liked: Option<bool>, isLiked: Option<bool>, likeStatus: Option<bool>,
                                 likesCount: Option<int>, likeCount: Option<int>, count: Option<int>)

  /** `result.liked || result.is_liked || result.like_status`, as a truth value. */
  predicate ReplyLiked(r: LikeReply) {
    r.liked == Some(true) || r.isLiked == Some(true) || r.likeStatus == Some(true)
  }

  /** `a || b || c` over optional counts: the first present non-zero count, or
      `None` when all three are falsy. */
  function FirstTruthyCount(r: LikeReply): (c: Option<int>)
    ensures c.Some? ==> c.value != 0
    ensures c.None? <==> r.likesCount.GetOr(0) == 0 && r.likeCount.GetOr(0) == 0 && r.count.GetOr(0) == 0
    ensures r.likesCount.Some? && r.likesCount.value != 0 ==> c == r.likesCount
  {
    if r.likesCount.Some? && r.likesCount.value != 0 then r.likesCount
    else if r.likeCount.Some? && r.likeCount.value != 0 then r.likeCount
    else if r.count.Some? && r.count.value != 0 then r.count
    else None
  }

  /** `a ?? b ?? c` over optional counts: the first count the reply carries. */
  function FirstPresentCount(r: LikeReply): (c: Option<int>)
    ensures c.None? <==> r.likesCount.None? && r.likeCount.None? && r.count.None?
    ensures r.likesCount.Some? ==> c == r.likesCount
  {
    if r.likesCount.Some? then r.likesCount
    else if r.likeCount.Some? then r.likeCount
    else r.count
  }

  /** The count when the reply carries none: one more after a like, one fewer
      (but not below zero) after an unlike. */
  function LocalCount(prev: int, liked: bool): (c: int)
    ensures liked ==> c == prev + 1
    ensures !liked ==> c == if prev > 0 then prev - 1 else 0
    ensures prev >= 0 ==> c >= 0
  {
    if liked then prev + 1 else if prev - 1 > 0 then prev - 1 else 0
  }

  /** The counter update as written: `newLikeCount || local`, so a server count of
      0 is discarded in favour of the local guess. */
  function NextCountAsWritten(prev: int, reply: LikeReply): (c: int)
    ensures FirstTruthyCount(reply).Some? ==> c == FirstTruthyCount(reply).value
    ensures FirstTruthyCount(reply).None? ==> c == LocalCount(prev, ReplyLiked(reply))
    ensures prev >= 0 && FirstTruthyCount(reply).GetOr(0) >= 0 ==> c >= 0
  {
    match FirstTruthyCount(reply)
    case Some(n) => n
    case None => LocalCount(prev, ReplyLiked(reply))
  }

  /** With a stale local count of 2 (another user unliked meanwhile), an unlike the
      server answers with `likes_count: 0` shows 1. */
  lemma AsWrittenIgnoresZeroCount()
    ensures
      var reply := LikeReply(Some(false), None, None, Some(0), None, None);
      NextCountAsWritten(2, reply) == 1 && reply.likesCount == Some(0)
  {
  }

  /** The counter update with the server's count taken whenever the reply carries
      one. */
  function NextCount(prev: int, reply: LikeReply): (c: int)
    ensures reply.likesCount.Some? ==> c == reply.likesCount.value
    ensures FirstPresentCount(reply).Some? ==> c == FirstPresentCount(reply).value
    ensures FirstPresentCount(reply).None? ==> c == LocalCount(prev, ReplyLiked(reply))
    ensures prev >= 0 && FirstPresentCount(reply).GetOr(0) >= 0 ==> c >= 0
  {
    match FirstPresentCount(reply)
    case Some(n) => n
    case None => LocalCount(prev, ReplyLiked(reply))
  }

  /** The two rules agree except when the server's count is zero: a truthy count
      is used by both. */
  lemma CountRulesAgreeOnTruthy(prev: int, reply: LikeReply)
    requires FirstTruthyCount(reply).Some? && FirstPresentCount(reply) == FirstTruthyCount(reply)
    ensures NextCount(prev, reply) == NextCountAsWritten(prev, reply)
  {
  }

  datatype Stats = Stats(likes: seq<JsVal>, likeCount: int, isSaved: bool)

  /** `likes.filter(id => id !== userId)`. */
  function WithoutUser(likes: seq<JsVal>, userId: JsVal): (r: seq<JsVal>)
    ensures userId !in r
    ensures forall x :: x != userId ==> (x in r <==> x in likes)
    ensures |r| <= |likes|
  {
    StrictEqIsEquality(userId);
    Seqs.Filter(likes, id => !StrictEq(id, userId))
  }

  /** On ids, `===` coincides with structural equality. */
  lemma StrictEqIsEquality(a: JsVal)
    ensures forall b :: StrictEq(b, a) <==> b == a
  {
  }

  /** The likes after a successful like call: the liked flag decides whether the
      user is appended or every copy of them removed. */
  function LikesAfter(likes: seq<JsVal>, userId: JsVal, res: LikeReply): (r: seq<JsVal>)
    ensures ReplyLiked(res) ==> r == likes + [userId]
    ensures !ReplyLiked(res) ==> userId !in r
    ensures forall x :: x != userId ==> (x in r <==> x in likes)
  {
    if ReplyLiked(res) then likes + [userId] else WithoutUser(likes, userId)
  }

  /** `handleLikePost` as written: one like request; on success the likes follow
      the liked flag and the counter follows `NextCountAsWritten`, so a truthy
      server count wins and a zero or missing one falls back to the local guess;
      a failure changes nothing. */
  function HandleLike(st: Stats, userId: JsVal, postId: JsVal, reply: Reply<LikeReply>): (r: (Stats, seq<Effect>))
    ensures r.1 == [Request(LikePost(postId))]
    ensures reply.Rejected? ==> r.0 == st
    ensures reply.Resolved? && ReplyLiked(reply.value) ==> r.0.likes == st.likes + [userId]
    ensures reply.Resolved? && !ReplyLiked(reply.value) ==> userId !in r.0.likes
    ensures forall x :: x != userId ==> (x in r.0.likes <==> x in st.likes)
    ensures reply.Resolved? && FirstTruthyCount(reply.value).Some? ==>
              r.0.likeCount == FirstTruthyCount(reply.value).value
    ensures reply.Resolved? && FirstTruthyCount(reply.value).None? ==>
              r.0.likeCount == LocalCount(st.likeCount, ReplyLiked(reply.value))
    ensures reply.Resolved? && st.likeCount >= 0 && FirstTruthyCount(reply.value).GetOr(0) >= 0 ==>
              r.0.likeCount >= 0
    ensures r.0.isSaved == st.isSaved
  {
    var effects := [Request(LikePost(postId))];
    match reply
    case Rejected(_) => (st, effects)
    case Resolved(res) =>
      (st.(likes := LikesAfter(st.likes, userId, res), likeCount := NextCountAsWritten(st.likeCount, res)), effects)
  }

  /** `handleLikePost` with the counter taken from the server whenever the reply
      carries a count, zero included. */
  function HandleLikeCorrected(st: Stats, userId: JsVal, postId: JsVal, reply: Reply<LikeReply>)
    : (r: (Stats, seq<Effect>))
    ensures r.1 == [Request(LikePost(postId))]
    ensures reply.Rejected? ==> r.0 == st
    ensures reply.Resolved? && ReplyLiked(reply.value) ==> r.0.likes == st.likes + [userId]
    ensures reply.Resolved? && !ReplyLiked(reply.value) ==> userId !in r.0.likes
    ensures forall x :: x != userId ==> (x in r.0.likes <==> x in st.likes)
    ensures reply.Resolved? && FirstPresentCount(reply.value).Some? ==>
              r.0.likeCount == FirstPresentCount(reply.value).value
    ensures reply.Resolved? && FirstPresentCount(reply.value).None? ==>
              r.0.likeCount == LocalCount(st.likeCount, ReplyLiked(reply.value))
    ensures reply.Resolved? && st.likeCount >= 0 && FirstPresentCount(reply.value).GetOr(0) >= 0 ==>
              r.0.likeCount >= 0
    ensures r.0.isSaved == st.isSaved
  {
    var effects := [Request(LikePost(postId))];
    match reply
    case Rejected(_) => (st, effects)
    case Resolved(res) =>
      (st.(likes := LikesAfter(st.likes, userId, res), likeCount := NextCount(st.likeCount, res)), effects)
  }

  /** The as-written handler shows 1 where the server reported 0 likes; the
      corrected one shows the server's 0. Both make the same likes change. */
  lemma HandleLikeShowsStaleCount(userId: JsVal, postId: JsVal)
    ensures
      var st := Stats([], 2, false);
      var reply := Resolved(LikeReply(Some(false), None, None, Some(0), None, None));
      HandleLike(st, userId, postId, reply).0.likeCount == 1 &&
      HandleLikeCorrected(st, userId, postId, reply).0.likeCount == 0 &&
      HandleLike(st, userId, postId, reply).0.likes == HandleLikeCorrected(st, userId, postId, reply).0.likes
  {
  }

  /** The two handlers differ only in the counter, and only when the reply carries
      a zero count that a later non-zero one would not have hidden. */
  lemma HandlersAgreeOnTruthyOrMissingCount(st: Stats, userId: JsVal, postId: JsVal, reply: Reply<LikeReply>)
    requires reply.Resolved? ==> FirstPresentCount(reply.value) == FirstTruthyCount(reply.value)
    ensures HandleLike(st, userId, postId, reply) == HandleLikeCorrected(st, userId, postId, reply)
  {
  }

  /** A like followed by an unlike, with replies that carry no count, restores
      both the likes and a non-negative counter of a user who had not liked; the
      two handlers behave the same on such replies. */
  lemma {:induction false} LikeThenUnlikeRestores(st: Stats, userId: JsVal, postId: JsVal)
    requires userId !in st.likes && st.likeCount >= 0
    ensures
      var liked := LikeReply(Some(true), None, None, None, None, None);
      var unliked := LikeReply(Some(false), None, None, None, None, None);
      var once := HandleLike(st, userId, postId, Resolved(liked)).0;
      HandleLike(once, userId, postId, Resolved(unliked)).0 == st
    ensures
      var liked := LikeReply(Some(true), None, None, None, None, None);
      var unliked := LikeReply(Some(false), None, None, None, None, None);
      var once := HandleLikeCorrected(st, userId, postId, Resolved(liked)).0;
      HandleLikeCorrected(once, userId, postId, Resolved(unliked)).0 == st
  {
    var p := (id: JsVal) => !StrictEq(id, userId);
    StrictEqIsEquality(userId);
    Seqs.FilterAppend(st.likes, [userId], p);
    assert Seqs.Filter([userId], p) == [];
    Seqs.FilterKeepsAll(st.likes, p);
    assert st.likes + [] == st.likes;
  }

  /** The frontend component's re-sync of `likes` when `post.is_liked` changes:
      `true` and `false` decide, anything else keeps the current likes. */
  function SyncLikes(likes: seq<JsVal>, isLiked: Option<bool>, userId: JsVal): (r: seq<JsVal>)
    ensures isLiked == Some(true) ==> r == [userId]
    ensures isLiked == Some(false) ==> r == []
    ensures isLiked.None? ==> r == likes
  {
    match isLiked
    case Some(true) => [userId]
    case Some(false) => []
    case None => likes
  }

  /** The re-sync of the counter when `post.likes_count` changes: a defined count
      replaces the local one, even 0. */
  function SyncCount(count: int, likesCount: Option<int>): (r: int)
    ensures likesCount.Some? ==> r == likesCount.value
    ensures likesCount.None? ==> r == count
  {
    likesCount.GetOr(count)
  }

  /** The state both components mount with: `likes_count || 0`, not saved, and (in
      the shared component) the user alone in the likes iff the post is liked. */
  function Mount(isLiked: Option<bool>, likesCount: Option<int>, userId: JsVal): (r: Stats)
    ensures r.likeCount == likesCount.GetOr(0) && !r.isSaved
    ensures (userId in r.likes) <==> isLiked == Some(true)
    ensures |r.likes| <= 1
  {
    Stats(if isLiked == Some(true) then [userId] else [], likesCount.GetOr(0), false)
  }

  /** The saved-posts entry `{id, post: {id}}`; `post` may be missing. */
  datatype SavedRecord = SavedRecord(id: JsVal, post: Option<JsVal>)

  /** `record.post?.id === post.id`. */
  predicate RecordFor(rec: SavedRecord, postId: JsVal) {
    rec.post.Some? && StrictEq(rec.post.value, postId)
  }

  /** `savedPosts?.documents?.find(...)`: the first record for this post. */
  function SavedRecordFor(saved: Option<seq<SavedRecord>>, postId: JsVal): (r: Option<SavedRecord>)
    ensures r.None? <==> saved.None? || forall i :: 0 <= i < |saved.value| ==> !RecordFor(saved.value[i], postId)
    ensures r.Some? ==> saved.Some? && r.value in saved.value && RecordFor(r.value, postId)
  {
    match saved
    case None => None
    case Some(records) => Seqs.Find(records, rec => RecordFor(rec, postId))
  }

  /** `handleSavePost`: an existing record is deleted by its own id, otherwise the
      post is saved; on success the flag flips and the saved list is refreshed, on
      failure nothing changes. */
  function HandleSave(st: Stats, saved: Option<seq<SavedRecord>>, userId: JsVal, postId: JsVal, reply: Reply<()>)
    : (r: (Stats, seq<Effect>))
    ensures 1 <= |r.1| <= 2
    ensures SavedRecordFor(saved, postId).Some? ==>
              r.1[0] == Request(DeleteSavedPost(SavedRecordFor(saved, postId).value.id))
    ensures SavedRecordFor(saved, postId).None? ==> r.1[0] == Request(SavePost(userId, postId))
    ensures reply.Rejected? ==> r.0 == st && |r.1| == 1
    ensures reply.Resolved? ==>
              r.0 == st.(isSaved := SavedRecordFor(saved, postId).None?) && r.1[1..] == [Request(RefreshSavedPosts)]
  {
    var rec := SavedRecordFor(saved, postId);
    var call := if rec.Some? then DeleteSavedPost(rec.value.id) else SavePost(userId, postId);
    match reply
    case Rejected(_) => (st, [Request(call)])
    case Resolved(_) => (st.(isSaved := rec.None?), [Request(call), Request(RefreshSavedPosts)])
  }

  /** The effect that re-derives the saved flag whenever the record found in the
      saved list changes: saved exactly when a record for this post is present;
      likes and counter untouched. */
  function SyncSaved(st: Stats, saved: Option<seq<SavedRecord>>, postId: JsVal): (r: Stats)
    ensures r.isSaved <==> SavedRecordFor(saved, postId).Some?
    ensures r.likes == st.likes && r.likeCount == st.likeCount
  {
    st.(isSaved := SavedRecordFor(saved, postId).Some?)
  }

  /** After a successful save or unsave, a refreshed list that reflects the change
      (a record for the post now present iff there was none before) re-derives the
      same flag the handler set, so the effect leaves the state as it is. */
  lemma SaveThenRefreshAgrees(st: Stats, saved: Option<seq<SavedRecord>>, refreshed: Option<seq<SavedRecord>>,
                              userId: JsVal, postId: JsVal)
    requires SavedRecordFor(refreshed, postId).Some? <==> SavedRecordFor(saved, postId).None?
    ensures
      var after := HandleSave(st, saved, userId, postId, Resolved(())).0;
      SyncSaved(after, refreshed, postId) == after
  {
  }

  /** A failed save leaves the flag the effect derived from the unchanged list. */
  lemma FailedSaveKeepsSyncedFlag(st: Stats, saved: Option<seq<SavedRecord>>, userId: JsVal, postId: JsVal, e: Thrown)
    requires st == SyncSaved(st, saved, postId)
    ensures
      var after := HandleSave(st, saved, userId, postId, Rejected(e)).0;
      SyncSaved(after, saved, postId) == after
  {
  }
}

=== FILE: python.dfy ===
/** Python's `str.strip()` and `int(str)`, as the serializers and views apply
    them to request data. */
module Python {
  import opened Outcomes
  import Js

  /** `str.isspace()` on ASCII characters: tab through carriage return, the four
      information separators and the space. */
  predicate IsSpace(c: char) {
    c == ' ' || ('\t' <= c <= '\r') || ('\U{001C}' <= c <= '\U{001F}')
  }

  function LStrip(s: string): (r: string)
    ensures |r| <= |s| && r == s[|s| - |r|..]
    ensures r == [] || !IsSpace(r[0])
    decreases |s|
  {
    if |s| > 0 && IsSpace(s[0]) then LStrip(s[1..]) else s
  }

  function RStrip(s: string): (r: string)
    ensures |r| <= |s| && r == s[..|r|]
    ensures r == [] || !IsSpace(r[|r| - 1])
    decreases |s|
  {
    if |s| > 0 && IsSpace(s[|s| - 1]) then RStrip(s[..|s| - 1]) else s
  }

  /** `s.strip()`. */
  function Strip(s: string): string {
    RStrip(LStrip(s))
  }

  predicate IsDigit(c: char) { '0' <= c <= '9' }

  predicate AllDigits(s: string) {
    forall i :: 0 <= i < |s| ==> IsDigit(s[i])
  }

  /** The number a run of decimal digits denotes, most significant first. */
  function ValueOf(ds: string): nat
    requires AllDigits(ds)
    decreases |ds|
  {
    if |ds| == 0 then 0 else ValueOf(ds[..|ds| - 1]) * 10 + (ds[|ds| - 1] as int - '0' as int)
  }

  /** An optional sign followed by at least one digit. */
  predicate IsIntLiteral(t: string) {
    if |t| > 0 && (t[0] == '+' || t[0] == '-') then |t| > 1 && AllDigits(t[1..])
    else |t| > 0 && AllDigits(t)
  }

  /** `int(s)`: `None` where Python raises `ValueError`. */
  function ParseInt(s: string): (r: Option<int>)
    ensures r.Some? <==> IsIntLiteral(Strip(s))
    ensures r.Some? && Strip(s)[0] == '-' ==> r.value <= 0
    ensures r.Some? && Strip(s)[0] != '-' ==> r.value >= 0
  {
    var t := Strip(s);
    if !IsIntLiteral(t) then None
    else if t[0] == '-' then Some(0 - ValueOf(t[1..]) as int)
    else if t[0] == '+' then Some(ValueOf(t[1..]))
    else Some(ValueOf(t))
  }

  /** Reading back the digits of a number gives the number. */
  lemma {:induction false} ValueOfDigits(n: nat)
    ensures AllDigits(Js.Digits(n)) && ValueOf(Js.Digits(n)) == n
    decreases n
  {
    var ds := Js.Digits(n);
    if n >= 10 {
      ValueOfDigits(n / 10);
      assert ds[..|ds| - 1] == Js.Digits(n / 10);
    }
  }

  /** A string with no surrounding spaces is its own strip. */
  lemma StripUnpadded(t: string)
    requires |t| > 0 && !IsSpace(t[0]) && !IsSpace(t[|t| - 1])
    ensures Strip(t) == t
  {
  }

  lemma ParseUnsigned(t: string)
    requires |t| > 0 && AllDigits(t)
    ensures ParseInt(t) == Some(ValueOf(t) as int)
  {
    assert IsDigit(t[0]) && IsDigit(t[|t| - 1]);
    StripUnpadded(t);
  }

  lemma ParseDigits(m: nat)
    ensures ParseInt(Js.Digits(m)) == Some(m)
  {
    var ds := Js.Digits(m);
    ValueOfDigits(m);
    ParseUnsigned(ds);
  }

  lemma ParseNegatedDigits(m: nat)
    ensures ParseInt("-" + Js.Digits(m)) == Some(0 - m)
  {
    ValueOfDigits(m);
    var t := "-" + Js.Digits(m);
    assert t[1..] == Js.Digits(m);
    StripUnpadded(t);
  }

  /** The server reads back the decimal string the client writes for an integer:
      `int(str(n)) == n`, with `String(n)` as JavaScript spells it. */
  lemma ParseIntRoundTrip(n: int)
    ensures ParseInt(Js.ToStr(Js.Num(n))) == Some(n)
  {
    if n < 0 {
      ParseNegative(n);
    } else {
      ParseDigits(n);
    }
  }

  lemma ParseNegative(n: int)
    requires n < 0
    ensures ParseInt(Js.ToStr(Js.Num(n))) == Some(n)
  {
    var m: nat := -n;
    assert Js.ToStr(Js.Num(n)) == "-" + Js.Digits(m);
    ParseNegatedDigits(m);
  }
}

=== FILE: request_state.dfy ===
/** The request-state protocol shared by `useApiCall`, `useApi.execute`,
    `useMutation.mutate` and `useMutation.callApi`: a `{data, isLoading, error}`
    record around one awaited service call. */
module RequestState {
  import opened Outcomes
  import opened Js
  import Maps

  datatype CallState<T> = CallState(data: Option<T>, isLoading: bool, error: Option<Thrown>)

  /** The state before any call: no data, not loading, no error. */
  function Initial<T>(): (s: CallState<T>)
    ensures s.data.None? && !s.isLoading && s.error.None?
  {
    CallState(None, false, None)
  }

  /** What is set before the service function is invoked. */
  function Begin<T>(s: CallState<T>): (r: CallState<T>)
    ensures r.isLoading && r.error.None? && r.data == s.data
  {
    s.(isLoading := true, error := None)
  }

  /** `callApi(...)` once the service call has settled with `reply`: the new state
      and how the returned promise settles. */
  function CallApi<T>(s: CallState<T>, reply: Reply<T>): (r: (CallState<T>, Reply<T>))
    ensures !r.0.isLoading
    ensures reply.Resolved? ==> r.0.data == Some(reply.value) && r.0.error.None? && r.1 == reply
    ensures reply.Rejected? ==>
              r.0.data == s.data
              && r.0.error == Some(AsError(reply.thrown))
              && r.1 == Rejected(AsError(reply.thrown))
    ensures r.1.Rejected? ==> r.1.thrown.ErrorObject? && r.0.error == Some(r.1.thrown)
  {
    var b := Begin(s);
    match reply
    case Resolved(v) => (b.(data := Some(v), isLoading := false), reply)
    case Rejected(t) =>
      var e := AsError(t);
      (b.(error := Some(e), isLoading := false), Rejected(e))
  }

  /** A caller that awaits `callApi` inside its own request hook sees the same
      error: the rethrown value is already an `Error`, so wrapping it again changes
      nothing. */
  lemma RethrowIsStable<T>(inner: CallState<T>, outer: CallState<T>, reply: Reply<T>)
    ensures CallApi(outer, CallApi(inner, reply).1).1 == CallApi(inner, reply).1
    ensures CallApi(outer, CallApi(inner, reply).1).0.error == CallApi(inner, reply).0.error
  {
  }

  /** `useMutation.callApi(...args)` hands only its first argument to the mutation
      function; with no arguments it passes `undefined`. */
  function FirstArg<A>(args: seq<A>): (r: Option<A>)
    ensures r.Some? <==> |args| > 0
    ensures r.Some? ==> r.value == args[0]
  {
    if |args| > 0 then Some(args[0]) else None
  }

  /** The query hooks of `useQueries`, by how they decide to fetch on mount. */
  datatype Hook =
    | OnDemand(name: string)                 // every hook created with the default `autoFetch = false`
    | RecentPosts                            // `useGetRecentPosts`
    | Users(limit: Option<JsVal>)            // `useGetUsers(limit)`
    | Keyed(name: string, id: Option<JsVal>) // `useGetPostById`, `useGetUserPosts`, `useGetComments`, ...

  /** `!!id` for a value that may be `undefined`. */
  predicate TruthyId(id: Option<JsVal>) {
    id.Some? && Truthy(id.value)
  }

  /** The mount effect of `useApiCall`: the call starts (and the state begins
      loading) exactly for the always-fetching hooks and for an id-keyed hook whose
      id is truthy; any other hook stays idle until called. */
  function Mount<T>(h: Hook, s: CallState<T>): (r: (CallState<T>, bool))
    ensures r.1 <==> h.RecentPosts? || h.Users? || (h.Keyed? && TruthyId(h.id))
    ensures r.1 ==> r.0 == Begin(s)
    ensures !r.1 ==> r.0 == s
    ensures h.OnDemand? ==> !r.1
  {
    var autoFetch := match h
      case OnDemand(_) => false
      case RecentPosts => true
      case Users(_) => true
      case Keyed(_, id) => TruthyId(id);
    if autoFetch then (Begin(s), true) else (s, false)
  }

  /** The object-argument hooks spread their one argument into positional
      arguments: `{postId, imageId}`, `{postId, likesArray}`, `{userId, postId}`,
      `{postId, content}` and `{commentId, content}`. A missing property is passed
      as `undefined`. */
  function Positional<V>(vars: map<string, V>, names: seq<string>): (r: seq<Option<V>>)
    ensures |r| == |names|
    ensures forall i :: 0 <= i < |names| ==> r[i] == Maps.Get(vars, names[i])
  {
    seq(|names|, i requires 0 <= i < |names| => Maps.Get(vars, names[i]))
  }

  const DeletePostArgs: seq<string> := ["postId", "imageId"]
  const LikePostArgs: seq<string> := ["postId", "likesArray"]
  const SavePostArgs: seq<string> := ["userId", "postId"]
  const CreateCommentArgs: seq<string> := ["postId", "content"]
  const UpdateCommentArgs: seq<string> := ["commentId", "content"]

  /** Extra properties of the argument object never reach the service function. */
  lemma PositionalIgnoresOtherKeys<V>(vars: map<string, V>, names: seq<string>, k: string, v: V)
    requires k !in names
    ensures Positional(vars[k := v], names) == Positional(vars, names)
  {
    var a := Positional(vars[k := v], names);
    var b := Positional(vars, names);
    assert forall i :: 0 <= i < |names| ==> a[i] == b[i] by {
      forall i | 0 <= i < |names|
        ensures a[i] == b[i]
      {
        assert names[i] != k;
      }
    }
  }
}

=== FILE: reset_password_form.dfy ===
/** The reset-password form: two password fields, the route's token, and an API
    error picked by priority when the reset request is rejected. */
module ResetPasswordForm {
  import opened Outcomes
  import opened Ui
  import opened FormFields

  predicate WellFormed(v: map<string, string>) {
    "password" in v && "confirmPassword" in v
  }

  /** The mount effect: a missing token sends the user to request a new link. */
  function MountRedirect(token: Option<string>): (r: Option<string>)
    ensures r.Some? <==> !TruthyStr(token)
    ensures r.Some? ==> r.value == "/forgot-password"
  {
    if !TruthyStr(token) then Some("/forgot-password") else None
  }

  const Keys: set<string> := {"password", "confirmPassword"}

  function FieldError(v: map<string, string>, key: string): Option<string>
    requires WellFormed(v)
  {
    if key == "password" then
      (if v["password"] == "" then Some("Password is required")
       else if |v["password"]| < 6 then Some("Password must be at least 6 characters")
       else None)
    else if key == "confirmPassword" then
      (if v["confirmPassword"] == "" then Some("Please confirm your password")
       else if v["password"] != v["confirmPassword"] then Some("Passwords do not match")
       else None)
    else None
  }

  /** `validateForm`'s error map. */
  function ValidateForm(v: map<string, string>): (e: Errors)
    requires WellFormed(v)
    ensures e.Keys <= Keys
    ensures ("password" in e) <==> |v["password"]| < 6
    ensures v["password"] == "" ==> e["password"] == "Password is required"
    ensures 0 < |v["password"]| < 6 ==> e["password"] == "Password must be at least 6 characters"
    ensures ("confirmPassword" in e) <==> v["confirmPassword"] == "" || v["confirmPassword"] != v["password"]
    ensures v["confirmPassword"] == "" ==> e["confirmPassword"] == "Please confirm your password"
    ensures v["confirmPassword"] != "" && v["confirmPassword"] != v["password"] ==>
              e["confirmPassword"] == "Passwords do not match"
  {
    map k | k in Keys && FieldError(v, k).Some? :: FieldError(v, k).value
  }

  const InvalidToken := "Invalid or expired reset token."

  /** `handleSubmit`. `reply` is how `resetPassword(token, password)` settled; the
      request hook has already turned a non-`Error` rejection into an `Error`. */
  function Submit(f: ApiForm, token: Option<string>, reply: Reply<()>): (r: (ApiForm, seq<Effect>))
    requires WellFormed(f.values)
    ensures r.0.errors == ValidateForm(f.values) && r.0.values == f.values
    ensures ValidateForm(f.values) != map[] ==>
              r.1 == [] && r.0.isSuccess == f.isSuccess && r.0.apiError == f.apiError
    ensures ValidateForm(f.values) == map[] ==>
              r.1 == [Request(ResetPassword(token, f.values["password"]))] && !r.0.isSubmitting
    ensures ValidateForm(f.values) == map[] && reply.Resolved? ==> r.0.isSuccess && r.0.apiError == ""
    ensures ValidateForm(f.values) == map[] && reply.Rejected? ==>
              r.0.isSuccess == f.isSuccess && r.0.apiError != ""
              && r.0.apiError == ApiErrorMessage(AsError(reply.thrown), 400, InvalidToken)
  {
    var errors := ValidateForm(f.values);
    if errors != map[] then (f.(errors := errors), [])
    else
      var sent := [Request(ResetPassword(token, f.values["password"]))];
      match reply
      case Resolved(_) => (f.(errors := errors, isSubmitting := false, apiError := "", isSuccess := true), sent)
      case Rejected(t) =>
        (f.(errors := errors, isSubmitting := false, apiError := ApiErrorMessage(AsError(t), 400, InvalidToken)), sent)
  }
}

=== FILE: saved_posts.dfy ===
/** The saved-posts context: one load when the provider mounts, a refresh that
    swallows errors, and a hook that insists on the provider. */
module SavedPosts {
  import opened Outcomes
  import RequestState

  datatype Provider<T> = Provider(fetch: RequestState.CallState<T>, isLoading: bool, mounted: bool, loads: nat)

  function Initial<T>(): (p: Provider<T>)
    ensures !p.mounted && p.loads == 0 && !p.isLoading
  {
    Provider(RequestState.Initial(), false, false, 0)
  }

  /** A commit of the provider: the `[]`-dependency effect starts a load only on
      the first one. */
  function Commit<T>(p: Provider<T>): (r: Provider<T>)
    ensures r.mounted
    ensures !p.mounted ==> r.loads == p.loads + 1 && r.isLoading && r.fetch == RequestState.Begin(p.fetch)
    ensures p.mounted ==> r == p
  {
    if p.mounted then p
    else Provider(RequestState.Begin(p.fetch), true, true, p.loads + 1)
  }

  function Commits<T>(p: Provider<T>, n: nat): Provider<T>
    decreases n
  {
    if n == 0 then p else Commits(Commit(p), n - 1)
  }

  /** However often the provider re-renders, the saved list is loaded exactly once. */
  lemma {:induction false} LoadsOnce<T>(n: nat)
    requires n >= 1
    ensures Commits(Initial<T>(), n).loads == 1
  {
    StaysLoadedOnce(Commit(Initial<T>()), n - 1);
  }

  lemma {:induction false} StaysLoadedOnce<T>(p: Provider<T>, n: nat)
    requires p.mounted
    ensures Commits(p, n) == p
    decreases n
  {
    if n > 0 {
      StaysLoadedOnce(Commit(p), n - 1);
    }
  }

  /** The initial load settling: the request hook records the outcome, the
      failure is swallowed, and the provider stops loading either way. */
  function FinishLoad<T>(p: Provider<T>, reply: Reply<T>): (r: Provider<T>)
    ensures !r.isLoading
    ensures r.fetch == RequestState.CallApi(p.fetch, reply).0
    ensures reply.Resolved? ==> r.fetch.data == Some(reply.value)
    ensures reply.Rejected? ==> r.fetch.data == p.fetch.data
    ensures r.loads == p.loads && r.mounted == p.mounted
  {
    p.(fetch := RequestState.CallApi(p.fetch, reply).0, isLoading := false)
  }

  /** `refreshSavedPosts()`: refetches, never rejects, and leaves the provider's
      own loading flag alone. */
  function Refresh<T>(p: Provider<T>, reply: Reply<T>): (r: (Provider<T>, Reply<()>))
    ensures r.1 == Resolved(())
    ensures r.0.fetch == RequestState.CallApi(p.fetch, reply).0
    ensures r.0.isLoading == p.isLoading
    ensures reply.Rejected? ==> r.0.fetch.data == p.fetch.data
  {
    (p.(fetch := RequestState.CallApi(p.fetch, reply).0), Resolved(()))
  }

  const OutsideProvider := ErrorObject("useSavedPosts must be used within a SavedPostsProvider", None)

  /** `useSavedPosts()`: the nearest provider, or a thrown error when there is none. */
  function UseSavedPosts<T>(context: Option<Provider<T>>): (r: Reply<Provider<T>>)
    ensures r.Rejected? <==> context.None?
    ensures r.Rejected? ==> r.thrown == OutsideProvider
    ensures r.Resolved? ==> r.value == context.value
  {
    match context
    case Some(p) => Resolved(p)
    case None => Rejected(OutsideProvider)
  }
}

=== FILE: seqs.dfy ===
/** Generic sequence helpers: filtering (a Django `filter`, a JavaScript `filter`)
    and first-match search (`Array.prototype.find`, Python's `list.index`). */
module Seqs {
  import opened Outcomes

  /** The elements of `s` satisfying `p`, in their original order. */
  function Filter<T(!new)>(s: seq<T>, p: T -> bool): (r: seq<T>)
    ensures |r| <= |s|
    ensures forall x :: x in r <==> x in s && p(x)
    ensures forall i :: 0 <= i < |r| ==> p(r[i])
    decreases |s|
  {
    if |s| == 0 then []
    else if p(s[0]) then [s[0]] + Filter(s[1..], p)
    else Filter(s[1..], p)
  }

  /** Filtering keeps each element at most as often as the input holds it. */
  lemma {:induction false} FilterSubMultiset<T(!new)>(s: seq<T>, p: T -> bool)
    ensures multiset(Filter(s, p)) <= multiset(s)
    decreases |s|
  {
    if |s| > 0 {
      FilterSubMultiset(s[1..], p);
      assert s == [s[0]] + s[1..];
    }
  }

  /** Filtering by a predicate every element already satisfies changes nothing. */
  lemma {:induction false} FilterKeepsAll<T(!new)>(s: seq<T>, p: T -> bool)
    requires forall i :: 0 <= i < |s| ==> p(s[i])
    ensures Filter(s, p) == s
    decreases |s|
  {
    if |s| > 0 {
      FilterKeepsAll(s[1..], p);
      assert [s[0]] + s[1..] == s;
    }
  }

  /** Filtering by a predicate no element satisfies leaves nothing. */
  lemma {:induction false} FilterDropsAll<T(!new)>(s: seq<T>, p: T -> bool)
    requires forall i :: 0 <= i < |s| ==> !p(s[i])
    ensures Filter(s, p) == []
    decreases |s|
  {
    if |s| > 0 {
      FilterDropsAll(s[1..], p);
    }
  }

  /** Filtering distributes over concatenation. */
  lemma {:induction false} FilterAppend<T(!new)>(a: seq<T>, b: seq<T>, p: T -> bool)
    ensures Filter(a + b, p) == Filter(a, p) + Filter(b, p)
    decreases |a|
  {
    if |a| > 0 {
      assert (a + b)[1..] == a[1..] + b;
      FilterAppend(a[1..], b, p);
    } else {
      assert a + b == b;
    }
  }

  /** Two predicates that agree on every element filter alike. */
  lemma {:induction false} FilterAgree<T(!new)>(s: seq<T>, p: T -> bool, q: T -> bool)
    requires forall i :: 0 <= i < |s| ==> p(s[i]) == q(s[i])
    ensures Filter(s, p) == Filter(s, q)
    decreases |s|
  {
    if |s| > 0 {
      FilterAgree(s[1..], p, q);
    }
  }

  /** Position of the first occurrence of `x`; `None` where Python raises `ValueError`. */
  function IndexOf<T(==)>(s: seq<T>, x: T): (r: Option<nat>)
    ensures r.Some? ==> r.value < |s| && s[r.value] == x && x !in s[..r.value]
    ensures r.None? <==> x !in s
    decreases |s|
  {
    if |s| == 0 then None
    else if s[0] == x then Some(0)
    else match IndexOf(s[1..], x)
      case None => None
      case Some(k) => assert s[1..][..k] == s[1..k + 1]; Some(k + 1)
  }

  /** Position of the first element satisfying `p`. */
  function FindIndex<T>(s: seq<T>, p: T -> bool): (r: Option<nat>)
    ensures r.Some? ==> r.value < |s| && p(s[r.value])
    ensures r.Some? ==> forall j :: 0 <= j < r.value ==> !p(s[j])
    ensures r.None? <==> forall i :: 0 <= i < |s| ==> !p(s[i])
    decreases |s|
  {
    if |s| == 0 then None
    else if p(s[0]) then Some(0)
    else match FindIndex(s[1..], p)
      case None => None
      case Some(k) => Some(k + 1)
  }

  /** Sequences whose elements agree on `p` position by position have their first
      match at the same place. */
  lemma {:induction false} FindIndexAgree<T>(s: seq<T>, t: seq<T>, p: T -> bool)
    requires |s| == |t| && forall i :: 0 <= i < |s| ==> p(s[i]) == p(t[i])
    ensures FindIndex(s, p) == FindIndex(t, p)
    decreases |s|
  {
    if |s| > 0 {
      FindIndexAgree(s[1..], t[1..], p);
    }
  }

  /** The first element satisfying `p`, as `Array.prototype.find` returns it. */
  function Find<T>(s: seq<T>, p: T -> bool): (r: Option<T>)
    ensures r.None? <==> forall i :: 0 <= i < |s| ==> !p(s[i])
    ensures r.Some? ==> exists k :: 0 <= k < |s| && s[k] == r.value && p(s[k]) && forall j :: 0 <= j < k ==> !p(s[j])
  {
    match FindIndex(s, p)
    case None => None
    case Some(k) => Some(s[k])
  }
}

=== FILE: serializers.dfy ===
/** The REST serializers: registration, the partial profile update, and the
    computed fields of a serialized post. Character fields are stripped of
    surrounding whitespace before they are checked or stored. */
module Serializers {
  import opened Outcomes
  import opened Models
  import Python
  import Seqs
  import Text

  /** What a request body carries for a registration; `None` for a missing key. */
  datatype Registration = Registration(username: Option<string>, email: Option<string>,
                                       name: Option<string>, password: Option<string>,
                                       passwordConfirm: Option<string>)

  /** A reason a serializer refuses its input. */
  datatype Problem =
    | Required(field: string)
    | TooLong(field: string, max: nat)
    | AlreadyExists(field: string)
    | BadEmail
    | PasswordRejected
    | Mismatch(message: string)
    /** A primary-key field naming a row that does not exist. */
    | DoesNotExist(field: string)

  const MismatchMessage := "Passwords don't match"

  /** The value a character field validates and stores: stripped, or `None` when
      the key is missing. */
  function Clean(v: Option<string>): (r: Option<string>)
    ensures r.Some? <==> v.Some?
    ensures r.Some? ==> r.value == Python.Strip(v.value)
  {
    if v.Some? then Some(Python.Strip(v.value)) else None
  }

  /** Missing, or blank once stripped: what a non-blank field refuses. */
  predicate Blank(v: Option<string>) {
    v.None? || Python.Strip(v.value) == ""
  }

  /** The problems of one required, non-blank, bounded, unique field. */
  function UniqueFieldProblems(field: string, v: Option<string>, max: nat, taken: string -> bool)
    : (r: set<Problem>)
    ensures r == {} <==> !Blank(v) && |Python.Strip(v.value)| <= max && !taken(Python.Strip(v.value))
    ensures |r| <= 1
  {
    if Blank(v) then {Required(field)}
    else if |Python.Strip(v.value)| > max then {TooLong(field, max)}
    else if taken(Python.Strip(v.value)) then {AlreadyExists(field)}
    else {}
  }

  /** The field-level problems of a registration. `emailOk` and `passwordOk` are
      the verdicts of Django's email validator and `validate_password`. */
  function FieldProblems(users: seq<User>, d: Registration, emailOk: bool, passwordOk: bool)
    : (r: set<Problem>)
    ensures r == {} <==>
              && !Blank(d.username) && !Blank(d.email) && !Blank(d.password) && !Blank(d.passwordConfirm)
              && |Python.Strip(d.username.value)| <= UsernameMax
              && |Python.Strip(d.email.value)| <= EmailMax
              && (forall k :: 0 <= k < |users| ==> users[k].username != Python.Strip(d.username.value))
              && (forall k :: 0 <= k < |users| ==> users[k].email != Python.Strip(d.email.value))
              && emailOk && passwordOk
              && (d.name.None? || |Python.Strip(d.name.value)| <= NameMax)
  {
    var usernameTaken := (s: string) => exists k :: 0 <= k < |users| && users[k].username == s;
    var emailTaken := (s: string) => exists k :: 0 <= k < |users| && users[k].email == s;
    UniqueFieldProblems("username", d.username, UsernameMax, usernameTaken)
    + UniqueFieldProblems("email", d.email, EmailMax, emailTaken)
    + (if !Blank(d.email) && !emailOk then {BadEmail} else {})
    + (if Blank(d.password) then {Required("password")} else if !passwordOk then {PasswordRejected} else {})
    + (if Blank(d.passwordConfirm) then {Required("password_confirm")} else {})
    + (if d.name.Some? && |Python.Strip(d.name.value)| > NameMax then {TooLong("name", NameMax)} else {})
  }

  /** `BaseUserManager.normalize_email`: an address with an `@` is stripped and
      split at its last `@`, and the domain after it is lower-cased; an address
      without one is returned as given. */
  function NormalizeEmail(email: string): (r: string)
    ensures '@' !in email ==> r == email
    ensures '@' in Python.Strip(email) ==>
              exists k :: 0 <= k < |Python.Strip(email)| && Python.Strip(email)[k] == '@'
                          && '@' !in Python.Strip(email)[k + 1..]
                          && r == Python.Strip(email)[..k] + "@" + Text.Lower(Python.Strip(email)[k + 1..])
    ensures email != "" ==> r != ""
    ensures |r| == |email| || '@' in email
  {
    match Text.LastIndexOf(Python.Strip(email), '@')
    case None => email
    case Some(k) =>
      var t := Python.Strip(email);
      t[..k] + "@" + Text.Lower(t[k + 1..])
  }

  /** The outcome of `POST /auth/register/`. `DatabaseError` is the unique
      constraint firing after validation passed. */
  datatype Registered =
    | Invalid(problems: set<Problem>)
    | Registered(users: seq<User>, user: User)
    | DatabaseError

  /** Validation, then `validate` (only once every field is valid), then `create`,
      which drops `password_confirm` and hands the rest to `create_user`.
      `create_user` passes the username through `normalize_username`, Unicode
      NFKC normalisation, given here as `nfkc`. */
  function Register(users: seq<User>, d: Registration, emailOk: bool, passwordOk: bool,
                    nfkc: string -> string, now: int)
    : (r: Registered)
    ensures r.Invalid? <==>
              FieldProblems(users, d, emailOk, passwordOk) != {}
              || Python.Strip(d.password.value) != Python.Strip(d.passwordConfirm.value)
    ensures r.Invalid? && FieldProblems(users, d, emailOk, passwordOk) == {} ==>
              r.problems == {Mismatch(MismatchMessage)}
    ensures r.Registered? ==>
              && r.user.username == nfkc(Python.Strip(d.username.value))
              && r.user.email == NormalizeEmail(Python.Strip(d.email.value))
              && r.user.password == Python.Strip(d.password.value)
              && r.user.name == (if d.name.Some? then Python.Strip(d.name.value) else "")
              && r.users == users + [r.user]
  {
    var problems := FieldProblems(users, d, emailOk, passwordOk);
    if problems != {} then Invalid(problems)
    else
      var password := Python.Strip(d.password.value);
      if password != Python.Strip(d.passwordConfirm.value) then Invalid({Mismatch(MismatchMessage)})
      else
        var name := if d.name.Some? then Python.Strip(d.name.value) else "";
        match CreateUser(users, nfkc(Python.Strip(d.username.value)), NormalizeEmail(Python.Strip(d.email.value)),
                         name, password, now)
        case IntegrityError => DatabaseError
        case Written(table, u) => Registered(table, u)
  }

  /** The unique checks see the username and email as typed while the row
      stores them normalised: the database refuses only a username whose NFKC
      form is taken though it differs from it, or an address that differs from
      its normalised form only in the case of its domain. */
  lemma DatabaseErrorOnlyFromNormalising(users: seq<User>, d: Registration, emailOk: bool,
                                         passwordOk: bool, nfkc: string -> string, now: int)
    requires Register(users, d, emailOk, passwordOk, nfkc, now).DatabaseError?
    ensures var u, e := Python.Strip(d.username.value), Python.Strip(d.email.value);
            || (u != nfkc(u) && exists k :: 0 <= k < |users| && users[k].username == nfkc(u))
            || (e != NormalizeEmail(e) && exists k :: 0 <= k < |users| && users[k].email == NormalizeEmail(e))
  {
    assert FieldProblems(users, d, emailOk, passwordOk) == {};
    assert Taken(users, nfkc(Python.Strip(d.username.value)), NormalizeEmail(Python.Strip(d.email.value)));
  }

  /** Conversely, a username that passes every check but whose NFKC form
      (full-width "ｆｏｏ" for a stored "foo") is already stored makes the insert
      fail: a 500 instead of a validation error. */
  lemma NormalisedUsernameCollides(users: seq<User>, d: Registration, emailOk: bool,
                                   passwordOk: bool, nfkc: string -> string, now: int, k: nat)
    requires FieldProblems(users, d, emailOk, passwordOk) == {}
    requires Python.Strip(d.password.value) == Python.Strip(d.passwordConfirm.value)
    requires k < |users| && users[k].username == nfkc(Python.Strip(d.username.value))
    ensures Register(users, d, emailOk, passwordOk, nfkc, now).DatabaseError?
  {
    assert Taken(users, nfkc(Python.Strip(d.username.value)), NormalizeEmail(Python.Strip(d.email.value)));
  }

  /** The fields a profile update carries: `image` is present with `None` when the
      request clears it. */
  datatype ProfileUpdate = ProfileUpdate(name: Option<string>, bio: Option<string>,
                                         image: Option<Option<string>>)

  function ProfileProblems(d: ProfileUpdate): (r: set<Problem>)
    ensures r == {} <==>
              (d.name.None? || |Python.Strip(d.name.value)| <= NameMax)
              && (d.bio.None? || |Python.Strip(d.bio.value)| <= BioMax)
  {
    (if d.name.Some? && |Python.Strip(d.name.value)| > NameMax then {TooLong("name", NameMax)} else {})
    + (if d.bio.Some? && |Python.Strip(d.bio.value)| > BioMax then {TooLong("bio", BioMax)} else {})
  }

  /** `UserUpdateSerializer.update`: name and bio keep their old values when absent,
      the image changes only when sent, and nothing else changes. */
  function UpdateProfile(u: User, d: ProfileUpdate): (r: User)
    ensures d.name.Some? ==> r.name == Python.Strip(d.name.value)
    ensures d.name.None? ==> r.name == u.name
    ensures d.bio.Some? ==> r.bio == Python.Strip(d.bio.value)
    ensures d.bio.None? ==> r.bio == u.bio
    ensures r.image == (if d.image.Some? then d.image.value else u.image)
    ensures r.id == u.id && r.username == u.username && r.email == u.email
    ensures r.password == u.password && r.createdAt == u.createdAt
  {
    var name := Clean(d.name).GetOr(u.name);
    var bio := Clean(d.bio).GetOr(u.bio);
    var image := if d.image.Some? then d.image.value else u.image;
    u.(name := name, bio := bio, image := image)
  }

  /** An empty update leaves the user as it was, and applying one twice is the
      same as applying it once. */
  lemma UpdateProfileIdempotent(u: User, d: ProfileUpdate)
    ensures UpdateProfile(u, ProfileUpdate(None, None, None)) == u
    ensures UpdateProfile(UpdateProfile(u, d), d) == UpdateProfile(u, d)
  {
  }

  /** `get_is_liked`: `false` without an authenticated requester, otherwise
      whether they are among the likers. */
  function IsLiked(p: Post, requester: Option<nat>): (r: bool)
    ensures r <==> requester.Some? && requester.value in p.likes
  {
    match requester
    case None => false
    case Some(id) => id in p.likes
  }

  /** The comments of one post. */
  function CommentsOf(comments: seq<Comment>, postId: nat): (r: seq<Comment>)
    ensures forall c :: c in r <==> c in comments && c.post == postId
  {
    Seqs.Filter(comments, (c: Comment) => c.post == postId)
  }

  /** `get_comments_count`: the number of the post's comments. */
  function CommentsCount(comments: seq<Comment>, postId: nat): (r: nat)
    ensures r <= |comments|
  {
    |CommentsOf(comments, postId)|
  }

  /** One more comment on a post counts once more there and nowhere else. */
  lemma CommentsCountPrepend(c: Comment, comments: seq<Comment>, postId: nat)
    ensures CommentsCount([c] + comments, postId)
            == CommentsCount(comments, postId) + (if c.post == postId then 1 else 0)
  {
    Seqs.FilterAppend([c], comments, (c: Comment) => c.post == postId);
  }

  /** A post as `PostSerializer` renders it. */
  datatype PostData = PostData(id: nat, user: nat, caption: string, imageUrl: Option<string>,
                               location: string, tags: string, likesCount: nat, isLiked: bool,
                               commentsCount: nat)

  function Serialize(p: Post, comments: seq<Comment>, requester: Option<nat>,
                     urlOf: string -> string): (r: PostData)
    ensures r.id == p.id && r.user == p.user && r.caption == p.caption
    ensures r.likesCount == |p.likes|
    ensures r.isLiked <==> requester.Some? && requester.value in p.likes
    ensures r.imageUrl.None? <==> !TruthyStr(p.image)
    ensures r.commentsCount == |CommentsOf(comments, p.id)|
  {
    PostData(p.id, p.user, p.caption, ImageUrl(p.image, urlOf), p.location, p.tags,
             LikesCount(p), IsLiked(p, requester), CommentsCount(comments, p.id))
  }
}

=== FILE: services.dfy ===
/** The service layer: how each call is shaped into an HTTP request, and what
    the sign-in and sign-out calls do to the stored token. */
module Services {
  import opened Outcomes
  import opened Js
  import HttpClient

  datatype Verb = Get | Post | Patch | Delete

  /** One `FormData.append(name, value)`; files are represented by their names. */
  datatype Entry = Entry(name: string, value: string)

  datatype Body = NoBody | Json(fields: map<string, JsVal>) | Form(entries: seq<Entry>)

  datatype Request = Request(verb: Verb, path: string, params: map<string, JsVal>, body: Body)

  /** A service call either throws before any request is made, or sends one. */
  datatype Outcome = ThrowsEarly(error: Thrown) | Sends(request: Request)

  /** The entries of a `FormData` with the given field names, in order. */
  function Names(entries: seq<Entry>): (r: seq<string>)
    ensures |r| == |entries|
    ensures forall i :: 0 <= i < |entries| ==> r[i] == entries[i].name
  {
    seq(|entries|, i requires 0 <= i < |entries| => entries[i].name)
  }

  /** The field names of a form's entries distribute over concatenation. */
  lemma NamesAppend(a: seq<Entry>, b: seq<Entry>)
    ensures Names(a + b) == Names(a) + Names(b)
  {
  }

  /** `if (present) formData.append(name, value)`. */
  function AppendIf(present: bool, name: string, value: string): (r: seq<Entry>)
    ensures Names(r) == if present then [name] else []
    ensures present ==> r == [Entry(name, value)]
    ensures !present ==> r == []
  {
    if present then [Entry(name, value)] else []
  }

  /** The form `createPost` and `updatePost` build: the caption always, the first
      file as `image` only when there is one, location and tags only when truthy. */
  function PostForm(caption: string, files: seq<string>, location: Option<string>, tags: Option<string>)
    : (r: seq<Entry>)
    ensures |r| >= 1 && r[0] == Entry("caption", caption)
    ensures ("image" in Names(r)) <==> |files| > 0
    ensures |files| > 0 ==> Entry("image", files[0]) in r
    ensures ("location" in Names(r)) <==> TruthyStr(location)
    ensures ("tags" in Names(r)) <==> TruthyStr(tags)
    ensures TruthyStr(location) ==> Entry("location", location.value) in r
    ensures TruthyStr(tags) ==> Entry("tags", tags.value) in r
    ensures forall n :: n in Names(r) ==> n in {"caption", "image", "location", "tags"}
    ensures |r| <= 4
  {
    var image := AppendIf(|files| > 0, "image", if |files| > 0 then files[0] else "");
    var loc := AppendIf(TruthyStr(location), "location", location.GetOr(""));
    var tg := AppendIf(TruthyStr(tags), "tags", tags.GetOr(""));
    NamesAppend([Entry("caption", caption)], image);
    NamesAppend([Entry("caption", caption)] + image, loc);
    NamesAppend([Entry("caption", caption)] + image + loc, tg);
    [Entry("caption", caption)] + image + loc + tg
  }

  function CreatePost(caption: string, files: seq<string>, location: Option<string>, tags: Option<string>)
    : (r: Request)
    ensures r.verb == Post && r.path == "/api/posts/" && r.body == Form(PostForm(caption, files, location, tags))
  {
    Request(Post, "/api/posts/", map[], Form(PostForm(caption, files, location, tags)))
  }

  /** `updatePost` sends the same form as `createPost`, as a PATCH of the post. */
  function UpdatePost(postId: JsVal, caption: string, files: seq<string>, location: Option<string>, tags: Option<string>)
    : (r: Request)
    ensures r.verb == Patch && r.path == "/api/posts/" + ToStr(postId) + "/"
    ensures r.body == CreatePost(caption, files, location, tags).body
  {
    Request(Patch, "/api/posts/" + ToStr(postId) + "/", map[], Form(PostForm(caption, files, location, tags)))
  }

  /** `updateUser` sends name and bio and, optionally, the first file as `image`;
      no other field of the user reaches the server. */
  function UpdateUser(name: string, bio: string, files: seq<string>): (r: Request)
    ensures r.verb == Patch && r.path == "/api/auth/me/"
    ensures r.body.Form? && |r.body.entries| >= 2 && r.body.entries[..2] == [Entry("name", name), Entry("bio", bio)]
    ensures |files| > 0 ==> r.body.entries == [Entry("name", name), Entry("bio", bio), Entry("image", files[0])]
    ensures |files| == 0 ==> |r.body.entries| == 2
  {
    var image := if |files| > 0 then [Entry("image", files[0])] else [];
    Request(Patch, "/api/auth/me/", map[], Form([Entry("name", name), Entry("bio", bio)] + image))
  }

  /** `savePost(userId, postId)` posts only `{post}`: the user comes from the
      token on the server side. */
  function SavePost(userId: JsVal, postId: JsVal): (r: Request)
    ensures r.verb == Post && r.path == "/api/saves/" && r.body == Json(map["post" := postId])
  {
    Request(Post, "/api/saves/", map[], Json(map["post" := postId]))
  }

  lemma SavePostIgnoresUser(a: JsVal, b: JsVal, postId: JsVal)
    ensures SavePost(a, postId) == SavePost(b, postId)
  {
  }

  /** `getUsers(limit)`: the `limit` parameter is sent only when truthy. */
  function GetUsers(limit: Option<JsVal>): (r: Request)
    ensures r.verb == Get && r.path == "/api/auth/users/"
    ensures ("limit" in r.params) <==> limit.Some? && Truthy(limit.value)
    ensures "limit" in r.params ==> r.params["limit"] == limit.value
    ensures r.params.Keys <= {"limit"}
  {
    var params := if limit.Some? && Truthy(limit.value) then map["limit" := limit.value] else map[];
    Request(Get, "/api/auth/users/", params, NoBody)
  }

  /** `getInfinitePosts({pageParam = 0})`: the cursor is the `offset` parameter. */
  function GetInfinitePosts(pageParam: Option<JsVal>): (r: Request)
    ensures r.verb == Get && r.path == "/api/posts/"
    ensures r.params == map["offset" := pageParam.GetOr(Num(0))]
  {
    Request(Get, "/api/posts/", map["offset" := pageParam.GetOr(Num(0))], NoBody)
  }

  /** `searchPosts(term)`: the term is sent as `q`. */
  function SearchPosts(term: string): (r: Request)
    ensures r.verb == Get && r.path == "/api/posts/search/" && r.params == map["q" := Str(term)]
  {
    Request(Get, "/api/posts/search/", map["q" := Str(term)], NoBody)
  }

  /** `!!id` for a value that may be `undefined`. */
  predicate TruthyId(id: Option<JsVal>) {
    id.Some? && Truthy(id.value)
  }

  /** The id guard of `getPostById`, `deletePost` and `getUserPosts`: a falsy id
      throws `Error(message)` before any request is made. */
  function Guarded(id: Option<JsVal>, message: string, verb: Verb, prefix: string, suffix: string): (r: Outcome)
    ensures r.Sends? <==> TruthyId(id)
    ensures r.ThrowsEarly? ==> r.error == ErrorObject(message, None)
    ensures r.Sends? ==> r.request.verb == verb && r.request.path == prefix + ToStr(id.value) + suffix
  {
    if TruthyId(id) then Sends(Request(verb, prefix + ToStr(id.value) + suffix, map[], NoBody))
    else ThrowsEarly(ErrorObject(message, None))
  }

  function GetPostById(postId: Option<JsVal>): (r: Outcome)
    ensures r.Sends? <==> TruthyId(postId)
    ensures r.ThrowsEarly? ==> r.error == ErrorObject("Post ID is required", None)
  {
    Guarded(postId, "Post ID is required", Get, "/api/posts/", "/")
  }

  function DeletePost(postId: Option<JsVal>, imageId: Option<string>): (r: Outcome)
    ensures r.Sends? <==> TruthyId(postId)
    ensures r.Sends? ==> r.request.verb == Delete && r.request.body.NoBody?
    ensures r.ThrowsEarly? ==> r.error == ErrorObject("Post ID is required", None)
  {
    Guarded(postId, "Post ID is required", Delete, "/api/posts/", "/")
  }

  function GetUserPosts(userId: Option<JsVal>): (r: Outcome)
    ensures r.Sends? <==> TruthyId(userId)
    ensures r.ThrowsEarly? ==> r.error == ErrorObject("User ID is required", None)
  {
    Guarded(userId, "User ID is required", Get, "/api/users/", "/posts/")
  }

  /** A list endpoint's resolved value, wrapped as `{documents}`. */
  datatype Documents<T> = Documents(documents: seq<T>)

  /** The list services wrap the response array and pass a rejection through. */
  function WrapDocuments<T>(reply: Reply<seq<T>>): (r: Reply<Documents<T>>)
    ensures r.Resolved? <==> reply.Resolved?
    ensures r.Resolved? ==> r.value.documents == reply.value
    ensures r.Rejected? ==> r.thrown == reply.thrown
  {
    match reply
    case Resolved(xs) => Resolved(Documents(xs))
    case Rejected(t) => Rejected(t)
  }

  /** The login request `signInAccount` sends: the email under `username`. */
  function SignInRequest(email: string, password: string): (r: Request)
    ensures r.verb == Post && r.path == "/api/auth/login/"
    ensures r.body == Json(map["username" := Str(email), "password" := Str(password)])
  {
    Request(Post, "/api/auth/login/", map[], Json(map["username" := Str(email), "password" := Str(password)]))
  }

  /** `signInAccount` once the login request settled: on success the returned
      `access` token is installed; on failure the session is untouched and the
      error is rethrown as it was. */
  function SignInAccount(s: HttpClient.Session, reply: Reply<Option<string>>): (r: (HttpClient.Session, Reply<Option<string>>))
    ensures r.1 == reply
    ensures reply.Resolved? ==> r.0 == HttpClient.SetAuthToken(s, reply.value)
    ensures reply.Resolved? && TruthyStr(reply.value) ==> r.0.stored == reply.value
    ensures reply.Rejected? ==> r.0 == s
  {
    match reply
    case Resolved(access) => (HttpClient.SetAuthToken(s, access), reply)
    case Rejected(_) => (s, reply)
  }

  /** `signOutAccount`: no request; the token is removed from both places and
      `{status: 'success'}` is returned. */
  function SignOutAccount(s: HttpClient.Session): (r: (HttpClient.Session, string))
    ensures r.0.header.None? && r.0.stored.None?
    ensures HttpClient.Consistent(r.0)
    ensures r.1 == "success"
  {
    (HttpClient.SetAuthToken(s, None), "success")
  }
}

=== FILE: signin_form.dfy ===
/** The sign-in form: inline validation, then `signInAccount` and the auth check. */
module SigninForm {
  import opened Outcomes
  import opened Ui
  import Validation
  import FormFields

  type Values = map<string, string>

  predicate WellFormed(v: Values) {
    "email" in v && "password" in v
  }

  const Keys: set<string> := {"email", "password"}

  /** The message `validateForm` records for field `key`, if any. */
  function FieldError(v: Values, key: string): Option<string>
    requires WellFormed(v)
  {
    if key == "email" then
      (if v["email"] == "" then Some("Email is required")
       else if !Validation.LooseEmailTest(v["email"]) then Some("Email is invalid")
       else None)
    else if key == "password" then
      (if v["password"] == "" then Some("Password is required")
       else if |v["password"]| < 6 then Some("Password must be at least 6 characters")
       else None)
    else None
  }

  /** `validateForm`'s error map. */
  function ValidateForm(v: Values): (e: FormFields.Errors)
    requires WellFormed(v)
    ensures e.Keys <= Keys
    ensures ("email" in e) <==> v["email"] == "" || !Validation.LooseEmail(v["email"])
    ensures v["email"] == "" ==> e["email"] == "Email is required"
    ensures v["email"] != "" && !Validation.LooseEmail(v["email"]) ==> e["email"] == "Email is invalid"
    ensures ("password" in e) <==> |v["password"]| < 6
    ensures v["password"] == "" ==> e["password"] == "Password is required"
    ensures 0 < |v["password"]| < 6 ==> e["password"] == "Password must be at least 6 characters"
  {
    Validation.LooseEmailTestMeaning(v["email"]);
    map k | k in Keys && FieldError(v, k).Some? :: FieldError(v, k).value
  }

  const LoginFailed := Toast("Login Failed", "Please check your credentials and try again.")

  /** The awaited part of `handleSubmit` once validation has passed. `session` is
      the settled result of `signInAccount` (its truthiness), `loggedIn` what
      `checkAuthUser` returned. */
  function Flow(v: Values, session: Reply<bool>, loggedIn: bool): (r: (Values, seq<Effect>))
    requires WellFormed(v)
    ensures r.1 != [] && r.1[0] == Request(SignInAccount(v["email"], v["password"]))
    ensures session != Resolved(true) ==>
              Request(CheckAuthUser) !in r.1 && NoNavigation(r.1) && r.0 == v && r.1[|r.1| - 1].Toast?
    ensures session == Resolved(true) ==> Request(CheckAuthUser) in r.1
    ensures session == Resolved(true) && loggedIn ==>
              r.0 == map["email" := "", "password" := ""] && r.1[|r.1| - 1] == Navigate("/home")
    ensures session == Resolved(true) && !loggedIn ==>
              r.0 == v && NoNavigation(r.1) && r.1[|r.1| - 1] == LoginFailed
  {
    var signIn := Request(SignInAccount(v["email"], v["password"]));
    match session
    case Rejected(_) => (v, [signIn, Toast("Error", "An error occurred. Please try again.")])
    case Resolved(false) => (v, [signIn, LoginFailed])
    case Resolved(true) =>
      if loggedIn then (map["email" := "", "password" := ""], [signIn, Request(CheckAuthUser), Navigate("/home")])
      else (v, [signIn, Request(CheckAuthUser), LoginFailed])
  }

  predicate NoNavigation(effects: seq<Effect>) {
    forall i :: 0 <= i < |effects| ==> !effects[i].Navigate?
  }

  datatype State = State(values: Values, errors: FormFields.Errors, isSubmitting: bool)

  /** `handleSubmit`: an invalid form never calls `signInAccount`. */
  function Submit(st: State, session: Reply<bool>, loggedIn: bool): (r: (State, seq<Effect>))
    requires WellFormed(st.values)
    ensures r.0.errors == ValidateForm(st.values)
    ensures ValidateForm(st.values) != map[] ==> r.1 == [] && r.0.values == st.values
    ensures ValidateForm(st.values) == map[] ==>
              !r.0.isSubmitting && r.0.values == Flow(st.values, session, loggedIn).0
    ensures Request(SignInAccount(st.values["email"], st.values["password"])) in r.1 <==>
              ValidateForm(st.values) == map[]
  {
    var errors := ValidateForm(st.values);
    if errors != map[] then (st.(errors := errors), [])
    else
      var f := Flow(st.values, session, loggedIn);
      (State(f.0, errors, false), f.1)
  }
}

=== FILE: signup_form.dfy ===
/** The sign-up form: inline validation of five fields, then account creation,
    sign-in and the auth check, each awaited in turn. */
module SignupForm {
  import opened Outcomes
  import opened Maps
  import opened Text
  import opened Ui
  import Validation
  import FormFields

  type Values = map<string, string>

  /** The form object always carries its five fields (they start as ""). */
  predicate WellFormed(v: Values) {
    "name" in v && "username" in v && "email" in v && "password" in v && "password_confirm" in v
  }

  const Blank: Values := map["name" := "", "username" := "", "email" := "", "password" := "", "password_confirm" := ""]

  /** `validateForm`'s error map: each field's message, for the fields that have one. */
  function ValidateForm(v: Values): (e: FormFields.Errors)
    requires WellFormed(v)
    ensures e.Keys <= {"name", "username", "email", "password", "password_confirm"}
    ensures ("name" in e) <==> AllWs(v["name"])
    ensures AllWs(v["name"]) ==> e["name"] == "Name is required"
    ensures ("username" in e) <==> AllWs(v["username"]) || |v["username"]| < 3
    ensures AllWs(v["username"]) ==> e["username"] == "Username is required"
    ensures !AllWs(v["username"]) && |v["username"]| < 3 ==> e["username"] == "Username must be at least 3 characters"
    ensures ("email" in e) <==> v["email"] == "" || !Validation.LooseEmail(v["email"])
    ensures "email" in e ==> e["email"] == if v["email"] == "" then "Email is required" else "Email is invalid"
    ensures ("password" in e) <==> |v["password"]| < 6
    ensures v["password"] == "" ==> e["password"] == "Password is required"
    ensures 0 < |v["password"]| < 6 ==> e["password"] == "Password must be at least 6 characters"
    ensures ("password_confirm" in e) <==> v["password_confirm"] == "" || v["password_confirm"] != v["password"]
    ensures v["password_confirm"] == "" ==> e["password_confirm"] == "Please confirm your password"
    ensures v["password_confirm"] != "" && v["password_confirm"] != v["password"] ==>
              e["password_confirm"] == "Passwords do not match"
  {
    Collect(NameError(v["name"]), UsernameError(v["username"]), EmailError(v["email"]),
            PasswordError(v["password"]), ConfirmError(v["password"], v["password_confirm"]))
  }

  /** The error map holding each field's message, for the fields that have one. */
  function Collect(name: Option<string>, username: Option<string>, email: Option<string>,
                   password: Option<string>, confirm: Option<string>): (e: FormFields.Errors)
    ensures e.Keys <= {"name", "username", "email", "password", "password_confirm"}
    ensures ("name" in e) <==> name.Some?
    ensures ("username" in e) <==> username.Some?
    ensures ("email" in e) <==> email.Some?
    ensures ("password" in e) <==> password.Some?
    ensures ("password_confirm" in e) <==> confirm.Some?
    ensures name.Some? ==> e["name"] == name.value
    ensures username.Some? ==> e["username"] == username.value
    ensures email.Some? ==> e["email"] == email.value
    ensures password.Some? ==> e["password"] == password.value
    ensures confirm.Some? ==> e["password_confirm"] == confirm.value
  {
    With(With(With(With(With(map[], "name", name), "username", username), "email", email),
              "password", password), "password_confirm", confirm)
  }

  /** Records `message` under `key` when there is one. */
  function With(e: FormFields.Errors, key: string, message: Option<string>): (r: FormFields.Errors)
    ensures key in r <==> message.Some? || key in e
    ensures message.Some? ==> r[key] == message.value
    ensures forall k :: k != key ==> (k in r <==> k in e)
    ensures forall k :: k in e && k != key ==> r[k] == e[k]
  {
    if message.Some? then e[key := message.value] else e
  }

  function NameError(name: string): (r: Option<string>)
    ensures r.Some? <==> AllWs(name)
    ensures r.Some? ==> r.value == "Name is required"
  {
    TrimEmptyIffAllWs(name);
    if Trim(name) == "" then Some("Name is required") else None
  }

  function UsernameError(username: string): (r: Option<string>)
    ensures r.Some? <==> AllWs(username) || |username| < 3
    ensures AllWs(username) ==> r == Some("Username is required")
    ensures !AllWs(username) && |username| < 3 ==> r == Some("Username must be at least 3 characters")
  {
    TrimEmptyIffAllWs(username);
    if Trim(username) == "" then Some("Username is required")
    else if |username| < 3 then Some("Username must be at least 3 characters")
    else None
  }

  function EmailError(email: string): (r: Option<string>)
    ensures r.Some? <==> email == "" || !Validation.LooseEmail(email)
    ensures r.Some? ==> r.value == if email == "" then "Email is required" else "Email is invalid"
  {
    Validation.LooseEmailTestMeaning(email);
    if email == "" then Some("Email is required")
    else if !Validation.LooseEmailTest(email) then Some("Email is invalid")
    else None
  }

  function PasswordError(password: string): (r: Option<string>)
    ensures r.Some? <==> |password| < 6
    ensures password == "" ==> r == Some("Password is required")
    ensures 0 < |password| < 6 ==> r == Some("Password must be at least 6 characters")
  {
    if password == "" then Some("Password is required")
    else if |password| < 6 then Some("Password must be at least 6 characters")
    else None
  }

  function ConfirmError(password: string, confirm: string): (r: Option<string>)
    ensures r.Some? <==> confirm == "" || confirm != password
    ensures confirm == "" ==> r == Some("Please confirm your password")
    ensures confirm != "" && confirm != password ==> r == Some("Passwords do not match")
  {
    if confirm == "" then Some("Please confirm your password")
    else if password != confirm then Some("Passwords do not match")
    else None
  }

  datatype State = State(values: Values, errors: FormFields.Errors, isSubmitting: bool)

  /** The success condition of `handleSubmit`: account created, session returned,
      auth check confirmed. */
  predicate AllConfirmed(created: Reply<bool>, session: Reply<bool>, loggedIn: bool) {
    created == Resolved(true) && session == Resolved(true) && loggedIn
  }

  /** The awaited part of `handleSubmit`, once validation has passed: the values
      the form ends with and the effects, in order. */
  function Flow(v: Values, created: Reply<bool>, session: Reply<bool>, loggedIn: bool): (r: (Values, seq<Effect>))
    requires WellFormed(v)
    ensures r.1 != [] && r.1[0] == Request(CreateUserAccount(v))
    ensures Request(SignInAccount(v["email"], v["password"])) in r.1 <==> created == Resolved(true)
    ensures Request(CheckAuthUser) in r.1 <==> created == Resolved(true) && session == Resolved(true)
    ensures Navigate("/sign-in") in r.1 <==> created == Resolved(true) && session == Resolved(false)
    ensures AllConfirmed(created, session, loggedIn) ==> r.0 == Blank && Navigate("/home") in r.1
    ensures !AllConfirmed(created, session, loggedIn) ==> r.0 == v && Navigate("/home") !in r.1
  {
    var create := Request(CreateUserAccount(v));
    var signIn := Request(SignInAccount(v["email"], v["password"]));
    match created
    case Rejected(_) => (v, [create, Alert("An error occurred. Please try again.")])
    case Resolved(false) => (v, [create, Alert("Sign up failed. Please try again.")])
    case Resolved(true) =>
      match session
      case Rejected(_) => (v, [create, signIn, Alert("An error occurred. Please try again.")])
      case Resolved(false) =>
        (v, [create, signIn, Alert("Something went wrong. Please login your new account"), Navigate("/sign-in")])
      case Resolved(true) =>
        if loggedIn then (Blank, [create, signIn, Request(CheckAuthUser), Navigate("/home")])
        else (v, [create, signIn, Request(CheckAuthUser), Alert("Login failed. Please try again.")])
  }

  /** `handleSubmit`: validation first; an invalid form sends nothing. `created` and
      `session` are the settled results of `createUserAccount` and `signInAccount`
      (their truthiness), `loggedIn` what `checkAuthUser` returned; each is
      consulted only if the flow reaches it. */
  function Submit(st: State, created: Reply<bool>, session: Reply<bool>, loggedIn: bool): (r: (State, seq<Effect>))
    requires WellFormed(st.values)
    ensures r.0.errors == ValidateForm(st.values)
    ensures r.0.isSubmitting == (st.isSubmitting && ValidateForm(st.values) != map[])
    ensures ValidateForm(st.values) != map[] ==> NoRequests(r.1) && r.0.values == st.values
    ensures Request(CreateUserAccount(st.values)) in r.1 <==> ValidateForm(st.values) == map[]
    ensures Request(SignInAccount(st.values["email"], st.values["password"])) in r.1 <==>
              ValidateForm(st.values) == map[] && created == Resolved(true)
    ensures Request(CheckAuthUser) in r.1 <==>
              ValidateForm(st.values) == map[] && created == Resolved(true) && session == Resolved(true)
    ensures ValidateForm(st.values) == map[] && AllConfirmed(created, session, loggedIn) ==>
              r.0.values == Blank && Navigate("/home") in r.1
    ensures !(ValidateForm(st.values) == map[] && AllConfirmed(created, session, loggedIn)) ==>
              r.0.values == st.values && Navigate("/home") !in r.1
  {
    var errors := ValidateForm(st.values);
    if errors != map[] then (st.(errors := errors), [])
    else
      var f := Flow(st.values, created, session, loggedIn);
      (State(f.0, errors, false), f.1)
  }
}

=== FILE: simple_form.dfy ===
/** `useSimpleForm`: a values/errors/isSubmitting record with setters, a
    validating submit and a reset. */
module SimpleForm {
  import opened Outcomes
  import FormFields

  type Values = map<string, string>

  datatype State = State(values: Values, errors: FormFields.Errors, isSubmitting: bool)

  /** The state a freshly mounted form starts in. */
  function Init(initialValues: Values): (r: State)
    ensures r.values == initialValues && r.errors == map[] && !r.isSubmitting
  {
    State(initialValues, map[], false)
  }

  /** `setValue(name, value)`. */
  function SetValue(st: State, name: string, value: string): (r: State)
    ensures r.values == FormFields.Change(st.values, st.errors, name, value).0
    ensures r.errors == FormFields.Change(st.values, st.errors, name, value).1
    ensures r.isSubmitting == st.isSubmitting
  {
    var c := FormFields.Change(st.values, st.errors, name, value);
    st.(values := c.0, errors := c.1)
  }

  /** `setError(name, error)`: one entry written, the rest kept. */
  function SetError(st: State, name: string, error: string): (r: State)
    ensures name in r.errors && r.errors[name] == error
    ensures r.errors.Keys == st.errors.Keys + {name}
    ensures forall k :: k in st.errors && k != name ==> r.errors[k] == st.errors[k]
    ensures r.values == st.values && r.isSubmitting == st.isSubmitting
  {
    st.(errors := st.errors[name := error])
  }

  /** `setErrors(newErrors)`: the whole error map replaced. */
  function SetFormErrors(st: State, newErrors: FormFields.Errors): (r: State)
    ensures r.errors == newErrors && r.values == st.values && r.isSubmitting == st.isSubmitting
  {
    st.(errors := newErrors)
  }

  /** `handleSubmit`. `validate` is the optional validator; the result lists the
      values `onSubmit` was called with. Whatever `onSubmit` does when awaited,
      its rejection is swallowed and `isSubmitting` ends false. A validation
      result with any key blocks the submit, even one whose message is "". */
  function HandleSubmit(st: State, validate: Option<Values -> FormFields.Errors>): (r: (State, seq<Values>))
    ensures validate.Some? && validate.value(st.values) != map[] ==>
              r.1 == [] && r.0 == st.(errors := validate.value(st.values))
    ensures validate.None? || validate.value(st.values) == map[] ==>
              r.1 == [st.values] && r.0 == st.(isSubmitting := false)
    ensures r.0.values == st.values
    ensures |r.1| <= 1
  {
    if validate.Some? && validate.value(st.values) != map[] then
      (SetFormErrors(st, validate.value(st.values)), [])
    else
      (st.(isSubmitting := false), [st.values])
  }

  /** `reset()`. */
  function Reset(st: State, initialValues: Values): (r: State)
    ensures r == Init(initialValues)
  {
    State(initialValues, map[], false)
  }
}

=== FILE: text.dfy ===
/** Strings as `seq<char>`: JavaScript whitespace, `trim`, prefix and substring
    tests, and Python's `split`/`join` on a single-character separator. */
module Text {
  import opened Outcomes

  /** JavaScript's `\s` class, which is also the set `String.prototype.trim` removes. */
  predicate IsWs(c: char) {
    || c == ' ' || c == '\t' || c == '\n' || c == '\r' || c == '\U{000B}' || c == '\U{000C}'
    || c == '\U{00A0}' || c == '\U{1680}' || ('\U{2000}' <= c <= '\U{200A}')
    || c == '\U{2028}' || c == '\U{2029}' || c == '\U{202F}' || c == '\U{205F}'
    || c == '\U{3000}' || c == '\U{FEFF}'
  }

  predicate AllWs(s: string) {
    forall i :: 0 <= i < |s| ==> IsWs(s[i])
  }

  /** `s.trimStart()`: the suffix left after dropping leading whitespace. */
  function TrimStart(s: string): (r: string)
    ensures |r| <= |s| && r == s[|s| - |r|..]
    ensures r == [] || !IsWs(r[0])
    ensures forall i :: 0 <= i < |s| - |r| ==> IsWs(s[i])
    decreases |s|
  {
    if |s| > 0 && IsWs(s[0]) then TrimStart(s[1..]) else s
  }

  /** `s.trimEnd()`: the prefix left after dropping trailing whitespace. */
  function TrimEnd(s: string): (r: string)
    ensures |r| <= |s| && r == s[..|r|]
    ensures r == [] || !IsWs(r[|r| - 1])
    ensures forall i :: |r| <= i < |s| ==> IsWs(s[i])
    decreases |s|
  {
    if |s| > 0 && IsWs(s[|s| - 1]) then TrimEnd(s[..|s| - 1]) else s
  }

  /** `s.trim()`. */
  function Trim(s: string): string {
    TrimEnd(TrimStart(s))
  }

  /** `!s.trim()` holds exactly for whitespace-only strings (the empty string included). */
  lemma TrimEmptyIffAllWs(s: string)
    ensures Trim(s) == [] <==> AllWs(s)
  {
  }

  /** `s.startsWith(p)`. */
  predicate StartsWith(s: string, p: string) {
    |p| <= |s| && s[..|p|] == p
  }

  /** `s.includes(sub)` / Python's `sub in s`. */
  predicate Contains(s: string, sub: string)
    decreases |s|
  {
    StartsWith(s, sub) || (|s| > 0 && Contains(s[1..], sub))
  }

  /** An occurrence at any position is found by `Contains`. */
  lemma {:induction false} ContainsAt(s: string, sub: string, i: nat)
    requires i + |sub| <= |s| && s[i..i + |sub|] == sub
    ensures Contains(s, sub)
    decreases i
  {
    if i == 0 {
      assert s[..|sub|] == sub;
    } else {
      assert s[1..][i - 1..i - 1 + |sub|] == s[i..i + |sub|];
      ContainsAt(s[1..], sub, i - 1);
    }
  }

  /** An occurrence in a prefix is an occurrence in the whole. */
  lemma {:induction false} ContainsPrefix(x: string, y: string, sub: string)
    requires Contains(x, sub)
    ensures Contains(x + y, sub)
    decreases |x|
  {
    if StartsWith(x, sub) {
      assert (x + y)[..|sub|] == x[..|sub|];
    } else {
      assert (x + y)[1..] == x[1..] + y;
      ContainsPrefix(x[1..], y, sub);
    }
  }

  /** An occurrence in a suffix is an occurrence in the whole. */
  lemma {:induction false} ContainsSuffix(x: string, y: string, sub: string)
    requires Contains(y, sub)
    ensures Contains(x + y, sub)
    decreases |x|
  {
    if |x| > 0 {
      assert (x + y)[1..] == x[1..] + y;
      ContainsSuffix(x[1..], y, sub);
    } else {
      assert x + y == y;
    }
  }

  /** ASCII lower-casing of one character. */
  function LowerChar(c: char): char {
    if 'A' <= c <= 'Z' then (c as int + 32) as char else c
  }

  function Lower(s: string): (r: string)
    ensures |r| == |s|
    ensures forall i :: 0 <= i < |s| ==> r[i] == LowerChar(s[i])
  {
    seq(|s|, i requires 0 <= i < |s| => LowerChar(s[i]))
  }

  lemma LowerIdempotent(s: string)
    ensures Lower(Lower(s)) == Lower(s)
  {
  }

  /** Position of the last occurrence of `c`. */
  function LastIndexOf(s: string, c: char): (r: Option<nat>)
    ensures r.None? <==> c !in s
    ensures r.Some? ==> r.value < |s| && s[r.value] == c && c !in s[r.value + 1..]
    decreases |s|
  {
    if |s| == 0 then None
    else if s[|s| - 1] == c then Some(|s| - 1)
    else
      var init := s[..|s| - 1];
      var r := LastIndexOf(init, c);
      assert s == init + [s[|s| - 1]];
      if r.Some? then
        assert s[r.value + 1..] == init[r.value + 1..] + [s[|s| - 1]];
        r
      else
        None
  }

  /** Python's `s.split(d)`: the pieces between the occurrences of `d`. */
  function Split(s: string, d: char): (parts: seq<string>)
    ensures |parts| >= 1
    ensures forall i :: 0 <= i < |parts| ==> d !in parts[i]
    decreases |s|
  {
    if |s| == 0 then [""]
    else
      var rest := Split(s[1..], d);
      if s[0] == d then [""] + rest
      else [[s[0]] + rest[0]] + rest[1..]
  }

  /** Python's `d.join(parts)`. */
  function Join(parts: seq<string>, d: char): string
    decreases |parts|
  {
    if |parts| == 0 then ""
    else if |parts| == 1 then parts[0]
    else parts[0] + [d] + Join(parts[1..], d)
  }

  /** An occurrence inside one piece is an occurrence in the joined string. */
  lemma {:induction false} JoinContains(parts: seq<string>, i: nat, d: char, sub: string)
    requires i < |parts| && Contains(parts[i], sub)
    ensures Contains(Join(parts, d), sub)
    decreases |parts|
  {
    if |parts| > 1 {
      var rest := Join(parts[1..], d);
      assert Join(parts, d) == parts[0] + ([d] + rest);
      if i == 0 {
        ContainsPrefix(parts[0], [d] + rest, sub);
      } else {
        assert parts[1..][i - 1] == parts[i];
        JoinContains(parts[1..], i - 1, d, sub);
        assert Join(parts, d) == (parts[0] + [d]) + rest;
        ContainsSuffix(parts[0] + [d], rest, sub);
      }
    }
  }

  /** Joining the pieces of a split gives back the string. */
  lemma {:induction false} JoinSplit(s: string, d: char)
    ensures Join(Split(s, d), d) == s
    decreases |s|
  {
    if |s| > 0 {
      var rest := Split(s[1..], d);
      JoinSplit(s[1..], d);
      if s[0] == d {
        assert Split(s, d) == [""] + rest;
        assert ([""] + rest)[1..] == rest;
      } else {
        var parts := [[s[0]] + rest[0]] + rest[1..];
        assert Split(s, d) == parts;
        if |rest| > 1 {
          assert parts[1..] == rest[1..];
          assert Join(rest, d) == rest[0] + [d] + Join(rest[1..], d);
        }
      }
    }
  }

  lemma {:induction false} SplitNoSeparator(p: string, d: char)
    requires d !in p
    ensures Split(p, d) == [p]
    decreases |p|
  {
    if |p| > 0 {
      SplitNoSeparator(p[1..], d);
      assert [p[0]] + p[1..] == p;
    }
  }

  lemma {:induction false} SplitAfterPiece(p: string, t: string, d: char)
    requires d !in p
    ensures Split(p + [d] + t, d) == [p] + Split(t, d)
    decreases |p|
  {
    var s := p + [d] + t;
    if |p| == 0 {
      assert s[1..] == t;
    } else {
      assert s[1..] == p[1..] + [d] + t;
      SplitAfterPiece(p[1..], t, d);
      assert [p[0]] + p[1..] == p;
    }
  }

  /** Splitting a join of separator-free pieces gives back the pieces. */
  lemma {:induction false} SplitJoin(parts: seq<string>, d: char)
    requires |parts| >= 1
    requires forall i :: 0 <= i < |parts| ==> d !in parts[i]
    ensures Split(Join(parts, d), d) == parts
    decreases |parts|
  {
    if |parts| == 1 {
      SplitNoSeparator(parts[0], d);
    } else {
      SplitJoin(parts[1..], d);
      SplitAfterPiece(parts[0], Join(parts[1..], d), d);
      assert [parts[0]] + parts[1..] == parts;
    }
  }
}

=== FILE: ui.dfy ===
/** What a component's event handler asks of the outside world: service calls,
    navigation, alerts, toasts and parent callbacks, listed in the order issued. */
module Ui {
  import opened Js
  import opened Outcomes

  /** The editable fields of a post, as the post form holds them. */
  datatype PostFields = PostFields(caption: string, location: string, tags: string, isPrivate: bool)

  /** One call of a service function (or of the auth context's `checkAuthUser`),
      with the arguments the component passes. */
  datatype Call =
    | CreateUserAccount(fields: map<string, string>)
    | SignInAccount(email: string, password: string)
    | CheckAuthUser
    | ResetPassword(token: Option<string>, password: string)
    | ForgotPassword(email: string)
    | LikePost(postId: JsVal)
    | SavePost(userId: JsVal, postId: JsVal)
    | DeleteSavedPost(recordId: JsVal)
    | RefreshSavedPosts
    | CreateComment(postId: JsVal, content: string)
    | UpdateComment(commentId: JsVal, content: string)
    | DeleteComment(commentId: JsVal)
    | PinComment(commentId: JsVal)
    | FetchComments
    | CreatePost(post: PostFields, userId: JsVal, files: seq<string>)
    | UpdatePost(post: PostFields, postId: JsVal, imageId: Option<string>, imageUrl: Option<string>, files: seq<string>)
    | UpdateUser(userId: JsVal, name: string, bio: string, location: string, isPrivate: bool,
                 files: seq<string>, avatarUrl: string, avatarId: string)
    | ToggleUserPrivacy(isPrivate: bool)
    | DeletePost(postId: JsVal, imageId: Option<string>)

  datatype Effect =
    | Request(call: Call)
    | Navigate(path: string)
    | NavigateBack
    | Alert(message: string)
    | Toast(title: string, description: string)
    | Reload
    | NotifyParent

  /** No service call at all among the effects. */
  predicate NoRequests(effects: seq<Effect>) {
    forall i :: 0 <= i < |effects| ==> !effects[i].Request?
  }

  /** The effects contain a call satisfying `p`. */
  predicate Sends(effects: seq<Effect>, p: Call -> bool) {
    exists i :: 0 <= i < |effects| && effects[i].Request? && p(effects[i].call)
  }
}

=== FILE: update_profile.dfy ===
/** The edit-profile page: whose profile it edits, the name check, the privacy
    toggle, and the merge of the saved profile into the auth context. */
module UpdateProfile {
  import opened Outcomes
  import opened Js
  import opened Text
  import opened Ui
  import FormFields
  import AuthContext

  /** `id || user.id`: the route's id when truthy, else the signed-in user's. */
  function TargetId(routeId: Option<string>, userId: string): (r: string)
    ensures TruthyStr(routeId) ==> r == routeId.value
    ensures !TruthyStr(routeId) ==> r == userId
  {
    if TruthyStr(routeId) then routeId.value else userId
  }

  datatype Form = Form(name: string, username: string, email: string, bio: string, location: string, isPrivate: bool)

  /** The form seeded from the context user, with "" and `false` for what it lacks. */
  function Init(user: AuthContext.AuthUser): (r: Form)
    ensures r.name == user.name && r.username == user.username && r.email == user.email && r.bio == user.bio
    ensures r.location == user.location.GetOr("") && r.isPrivate == user.isPrivate.GetOr(false)
  {
    Form(user.name, user.username, user.email, user.bio, user.location.GetOr(""), user.isPrivate.GetOr(false))
  }

  /** `validateForm`: a name error iff the trimmed name is empty. */
  function Validate(f: Form): (e: FormFields.Errors)
    ensures ("name" in e) <==> AllWs(f.name)
    ensures "name" in e ==> e["name"] == "Name is required"
    ensures e.Keys <= {"name"}
  {
    TrimEmptyIffAllWs(f.name);
    if Trim(f.name) == "" then map["name" := "Name is required"] else map[]
  }

  /** `handlePrivacyToggle`: after a successful toggle the form and the context
      user agree on the new setting; a failure touches neither. */
  function TogglePrivacy(f: Form, user: AuthContext.AuthUser, isPrivate: bool, reply: Reply<()>)
    : (r: (Form, AuthContext.AuthUser, seq<Effect>))
    ensures r.2 == [Request(ToggleUserPrivacy(isPrivate))]
    ensures reply.Resolved? ==> r.0 == f.(isPrivate := isPrivate) && r.1 == user.(isPrivate := Some(isPrivate))
    ensures reply.Resolved? ==> Some(r.0.isPrivate) == r.1.isPrivate
    ensures reply.Rejected? ==> r.0 == f && r.1 == user
  {
    match reply
    case Resolved(_) => (f.(isPrivate := isPrivate), user.(isPrivate := Some(isPrivate)), [Request(ToggleUserPrivacy(isPrivate))])
    case Rejected(_) => (f, user, [Request(ToggleUserPrivacy(isPrivate))])
  }

  /** The profile the server returns from the update. */
  datatype Updated = Updated(name: string, bio: string, location: Option<string>, isPrivate: Option<bool>,
                             imageUrl: Option<string>)

  /** The profile shown on the page (`useGetUserById`), if loaded. */
  datatype Shown = Shown(id: JsVal, imageUrl: Option<string>, imageId: Option<string>)

  /** `setUser({...user, name, bio, location, is_private, imageUrl})`: five fields
      replaced, the identity fields kept. */
  function Merge(user: AuthContext.AuthUser, u: Updated): (r: AuthContext.AuthUser)
    ensures r.name == u.name && r.bio == u.bio && r.location == u.location && r.isPrivate == u.isPrivate
    ensures r.imageUrl == u.imageUrl.GetOr("")
    ensures r.id == user.id && r.username == user.username && r.email == user.email
  {
    user.(name := u.name, bio := u.bio, location := u.location, isPrivate := u.isPrivate, imageUrl := u.imageUrl.GetOr(""))
  }

  /** The `updateUser` call the page makes: the shown profile's id, image URL and
      image id (or ""), and the form's fields. */
  function UpdateCall(f: Form, shown: Option<Shown>, files: seq<string>): (c: Call)
    ensures c.UpdateUser? && c.name == f.name && c.bio == f.bio && c.location == f.location && c.isPrivate == f.isPrivate
    ensures shown.Some? && Truthy(shown.value.id) ==> c.userId == shown.value.id
    ensures shown.None? || !Truthy(shown.value.id) ==> c.userId == Str("")
  {
    var id := if shown.Some? && Truthy(shown.value.id) then shown.value.id else Str("");
    var url := if shown.Some? then shown.value.imageUrl.GetOr("") else "";
    var imageId := if shown.Some? then shown.value.imageId.GetOr("") else "";
    UpdateUser(id, f.name, f.bio, f.location, f.isPrivate, files, url, imageId)
  }

  /** `handleSubmit`: a blank name sends nothing; a truthy result updates the
      context user and opens the profile; a falsy one alerts without navigating. */
  function Submit(f: Form, user: AuthContext.AuthUser, shown: Option<Shown>, files: seq<string>,
                  routeId: Option<string>, reply: Reply<Option<Updated>>)
    : (r: (FormFields.Errors, AuthContext.AuthUser, seq<Effect>))
    ensures r.0 == Validate(f)
    ensures Validate(f) != map[] ==> r.1 == user && r.2 == []
    ensures Validate(f) == map[] ==> |r.2| == 2 && r.2[0] == Request(UpdateCall(f, shown, files))
    ensures Validate(f) == map[] && reply.Resolved? && reply.value.Some? ==>
              r.1 == Merge(user, reply.value.value) && r.2[1] == Navigate("/profile/" + TargetId(routeId, user.id))
    ensures Validate(f) == map[] && reply == Resolved(None) ==>
              r.1 == user && r.2[1] == Alert("Update user failed. Please try again.")
    ensures Validate(f) == map[] && reply.Rejected? ==>
              r.1 == user && r.2[1] == Alert("An error occurred. Please try again.")
  {
    var errors := Validate(f);
    if errors != map[] then (errors, user, [])
    else
      var req := Request(UpdateCall(f, shown, files));
      match reply
      case Resolved(Some(u)) => (errors, Merge(user, u), [req, Navigate("/profile/" + TargetId(routeId, user.id))])
      case Resolved(None) => (errors, user, [req, Alert("Update user failed. Please try again.")])
      case Rejected(_) => (errors, user, [req, Alert("An error occurred. Please try again.")])
  }
}

=== FILE: validation.dfy ===
/** The stand-alone field validators and whole-form validators of the prototype
    client (`validateEmail` ... `validatePost`). A validator returns `None` for
    JavaScript `null` (valid) or `Some(message)`; a form validator returns the
    map from field name to message. An absent field is modelled as "": both are
    falsy and every validator treats them alike. */
module Validation {
  import opened Outcomes
  import opened Text
  import opened Maps
  import Seqs

  type Errors = map<string, string>

  /** `[^\s@]`: what each run of the anchored email pattern may contain. */
  predicate PlainChar(c: char) {
    !IsWs(c) && c != '@'
  }

  predicate AllPlain(s: string) {
    forall i :: 0 <= i < |s| ==> PlainChar(s[i])
  }

  /** A `.` with at least one character on each side. */
  predicate HasInnerDot(d: string) {
    exists i | 0 < i < |d| - 1 :: d[i] == '.'
  }

  /** `s` splits as run `s[..k]`, `@`, run `s[k+1..j]`, `.`, run `s[j+1..]`. */
  predicate StrictAt(s: string, k: int, j: int) {
    && 0 < k && k + 1 < j && j + 1 < |s|
    && s[k] == '@' && s[j] == '.'
    && AllPlain(s[..k]) && AllPlain(s[k + 1..j]) && AllPlain(s[j + 1..])
  }

  /** The regular expression `^[^\s@]+@[^\s@]+\.[^\s@]+$`, read literally. */
  ghost predicate StrictEmail(s: string) {
    exists k, j :: StrictAt(s, k, j)
  }

  /** The test the validator performs: locate the first `@`, then check the local
      part and the domain. */
  predicate StrictEmailTest(s: string) {
    match Seqs.IndexOf(s, '@')
    case None => false
    case Some(k) => 0 < k && AllPlain(s[..k]) && AllPlain(s[k + 1..]) && HasInnerDot(s[k + 1..])
  }

  lemma StrictEmailTestMeaning(s: string)
    ensures StrictEmailTest(s) <==> StrictEmail(s)
  {
    if StrictEmailTest(s) {
      var k := Seqs.IndexOf(s, '@').value;
      var d := s[k + 1..];
      var i :| 0 < i < |d| - 1 && d[i] == '.';
      var j := k + 1 + i;
      assert s[k + 1..j] == d[..i];
      assert s[j + 1..] == d[i + 1..];
      assert StrictAt(s, k, j);
    }
    if StrictEmail(s) {
      var k, j :| StrictAt(s, k, j);
      assert '@' !in s[..k] by {
        forall m | 0 <= m < k ensures s[..k][m] != '@' {
          assert PlainChar(s[..k][m]);
        }
      }
      assert Seqs.IndexOf(s, '@') == Some(k) by {
        assert s[k] == '@';
      }
      var d := s[k + 1..];
      assert d[j - k - 1] == '.';
      assert AllPlain(d) by {
        forall m | 0 <= m < |d| ensures PlainChar(d[m]) {
          if m < j - k - 1 {
            assert d[m] == s[k + 1..j][m];
          } else if m > j - k - 1 {
            assert d[m] == s[j + 1..][m - (j - k)];
          }
        }
      }
    }
  }

  /** Every address the anchored pattern accepts contains exactly one `@`. */
  lemma StrictEmailHasOneAt(s: string)
    requires StrictEmail(s)
    ensures multiset(s)['@'] == 1
  {
    var k, j :| StrictAt(s, k, j);
    assert s == s[..k] + [s[k]] + s[k + 1..];
    assert '@' !in s[..k] by {
      forall m | 0 <= m < k ensures s[..k][m] != '@' { assert PlainChar(s[..k][m]); }
    }
    assert '@' !in s[k + 1..] by {
      var d := s[k + 1..];
      forall m | 0 <= m < |d| ensures d[m] != '@' {
        if m < j - k - 1 {
          assert d[m] == s[k + 1..j][m];
          assert PlainChar(s[k + 1..j][m]);
        } else if m > j - k - 1 {
          assert d[m] == s[j + 1..][m - (j - k)];
          assert PlainChar(s[j + 1..][m - (j - k)]);
        }
      }
    }
    assert multiset(s) == multiset(s[..k]) + multiset{'@'} + multiset(s[k + 1..]);
  }

  /** `^\S+@\S+\.\S+$` with the `@` at `k` and the `.` at `j`. */
  predicate LooseFullAt(t: string, k: int, j: int) {
    && 0 < k && k + 1 < j && j + 1 < |t|
    && t[k] == '@' && t[j] == '.'
    && forall m :: 0 <= m < |t| ==> !IsWs(t[m])
  }

  /** `/\S+@\S+\.\S+/.test(s)`: some substring matches the pattern (the pattern has
      no anchors). */
  ghost predicate LooseEmail(s: string) {
    exists a, b, k, j :: 0 <= a <= b <= |s| && LooseFullAt(s[a..b], k, j)
  }

  /** The shortest witness of a loose match: one non-space character before the
      `@`, a non-space run up to the `.`, and one non-space character after it. */
  predicate LooseAt(s: string, k: int, j: int) {
    && 0 < k && k + 1 < j && j + 1 < |s|
    && s[k] == '@' && s[j] == '.'
    && !IsWs(s[k - 1]) && !IsWs(s[j + 1])
    && forall m :: k < m < j ==> !IsWs(s[m])
  }

  /** The executable form of the unanchored test used by the auth forms. */
  predicate LooseEmailTest(s: string) {
    exists k, j | 0 <= k < |s| && 0 <= j < |s| :: LooseAt(s, k, j)
  }

  lemma LooseEmailTestMeaning(s: string)
    ensures LooseEmailTest(s) <==> LooseEmail(s)
  {
    if LooseEmailTest(s) {
      var k, j :| 0 <= k < |s| && 0 <= j < |s| && LooseAt(s, k, j);
      assert 0 < k < j < |s| - 1;
      var t := s[k - 1..j + 2];
      forall m | 0 <= m < |t| ensures !IsWs(t[m]) {
        assert t[m] == s[k - 1 + m];
      }
      assert LooseFullAt(t, 1, j - k + 1);
    }
    if LooseEmail(s) {
      var a, b, k, j :| 0 <= a <= b <= |s| && LooseFullAt(s[a..b], k, j);
      var t := s[a..b];
      assert t[k - 1] == s[a + k - 1] && t[j + 1] == s[a + j + 1];
      forall m | a + k < m < a + j ensures !IsWs(s[m]) {
        assert s[m] == t[m - a];
      }
      assert LooseAt(s, a + k, a + j);
    }
  }

  /** The anchored pattern is strictly stronger than the unanchored one. */
  lemma {:induction false} StrictImpliesLoose(s: string)
    ensures StrictEmail(s) ==> LooseEmail(s)
  {
    if StrictEmail(s) {
      var k, j :| StrictAt(s, k, j);
      assert s[0..|s|] == s;
      forall m | 0 <= m < |s| ensures !IsWs(s[m]) {
        if m < k {
          assert PlainChar(s[..k][m]);
        } else if k < m < j {
          assert PlainChar(s[k + 1..j][m - k - 1]);
        } else if m > j {
          assert PlainChar(s[j + 1..][m - j - 1]);
        }
      }
      assert LooseFullAt(s[0..|s|], k, j);
    }
  }

  /** `validateEmail`. */
  function ValidateEmail(email: string): (r: Option<string>)
    ensures email == "" ==> r == Some("Email is required")
    ensures email != "" ==> (r.None? <==> StrictEmail(email))
    ensures email != "" && r.Some? ==> r.value == "Invalid email format"
  {
    StrictEmailTestMeaning(email);
    if email == "" then Some("Email is required")
    else if !StrictEmailTest(email) then Some("Invalid email format")
    else None
  }

  /** `validatePassword`. */
  function ValidatePassword(password: string): (r: Option<string>)
    ensures r.None? <==> |password| >= 6
    ensures password == "" ==> r == Some("Password is required")
    ensures 0 < |password| < 6 ==> r == Some("Password must be at least 6 characters")
  {
    if password == "" then Some("Password is required")
    else if |password| < 6 then Some("Password must be at least 6 characters")
    else None
  }

  /** `validateName`. */
  function ValidateName(name: string): (r: Option<string>)
    ensures r.None? <==> |name| >= 2
    ensures name == "" ==> r == Some("Name is required")
    ensures |name| == 1 ==> r == Some("Name must be at least 2 characters")
  {
    if name == "" then Some("Name is required")
    else if |name| < 2 then Some("Name must be at least 2 characters")
    else None
  }

  /** `[a-zA-Z0-9_]` */
  predicate WordChar(c: char) {
    ('a' <= c <= 'z') || ('A' <= c <= 'Z') || ('0' <= c <= '9') || c == '_'
  }

  predicate AllWord(s: string) {
    forall i :: 0 <= i < |s| ==> WordChar(s[i])
  }

  /** `validateUsername`: required, then length, then character set. */
  function ValidateUsername(username: string): (r: Option<string>)
    ensures r.None? <==> |username| >= 3 && AllWord(username)
    ensures username == "" ==> r == Some("Username is required")
    ensures 0 < |username| < 3 ==> r == Some("Username must be at least 3 characters")
    ensures |username| >= 3 && !AllWord(username) ==>
              r == Some("Username can only contain letters, numbers, and underscores")
  {
    if username == "" then Some("Username is required")
    else if |username| < 3 then Some("Username must be at least 3 characters")
    else if !AllWord(username) then Some("Username can only contain letters, numbers, and underscores")
    else None
  }

  datatype SignupData = SignupData(name: string, username: string, email: string,
                                   password: string, passwordConfirm: string)

  /** The `password_confirm` rule of `validateSignup`. */
  function ConfirmError(password: string, confirm: string): (r: Option<string>)
    ensures r.None? <==> confirm != "" && confirm == password
    ensures confirm == "" ==> r == Some("Password confirmation is required")
    ensures confirm != "" && confirm != password ==> r == Some("Passwords do not match")
  {
    if confirm == "" then Some("Password confirmation is required")
    else if password != confirm then Some("Passwords do not match")
    else None
  }

  const SignupKeys: set<string> := {"name", "username", "email", "password", "password_confirm"}

  /** The message `validateSignup` stores under `key`, if any. */
  function SignupMessage(d: SignupData, key: string): Option<string> {
    if key == "name" then ValidateName(d.name)
    else if key == "username" then ValidateUsername(d.username)
    else if key == "email" then ValidateEmail(d.email)
    else if key == "password" then ValidatePassword(d.password)
    else if key == "password_confirm" then ConfirmError(d.password, d.passwordConfirm)
    else None
  }

  /** `validateSignup`: one key per failing field, carrying that field's message. */
  function ValidateSignup(d: SignupData): (r: Errors)
    ensures r.Keys <= SignupKeys
    ensures Get(r, "name") == ValidateName(d.name)
    ensures Get(r, "username") == ValidateUsername(d.username)
    ensures Get(r, "email") == ValidateEmail(d.email)
    ensures Get(r, "password") == ValidatePassword(d.password)
    ensures Get(r, "password_confirm") == ConfirmError(d.password, d.passwordConfirm)
  {
    map k | k in SignupKeys && SignupMessage(d, k).Some? :: SignupMessage(d, k).value
  }

  /** A sign-up passes validation exactly when every field meets its rule. */
  lemma SignupAcceptsExactly(d: SignupData)
    ensures ValidateSignup(d) == map[] <==>
      && |d.name| >= 2
      && |d.username| >= 3 && AllWord(d.username)
      && StrictEmail(d.email)
      && |d.password| >= 6
      && d.passwordConfirm == d.password
  {
    var r := ValidateSignup(d);
    if r == map[] {
      assert Get(r, "email").None?;
    } else {
      var k :| k in r;
      assert Get(r, k).Some?;
    }
  }

  /** `validateSignin`. */
  function ValidateSignin(email: string, password: string): (r: Errors)
    ensures r.Keys <= {"email", "password"}
    ensures Get(r, "email") == ValidateEmail(email)
    ensures Get(r, "password") == ValidatePassword(password)
  {
    var e0: Errors := map[];
    PutIf(PutIf(e0, "email", ValidateEmail(email)), "password", ValidatePassword(password))
  }

  datatype ProfileData = ProfileData(name: string, username: string, email: string, bio: string)

  const ProfileKeys: set<string> := {"name", "username", "email", "bio"}

  /** The message `validateProfile` stores under `key`, if any. */
  function ProfileMessage(d: ProfileData, key: string): Option<string> {
    if key == "name" then ValidateName(d.name)
    else if key == "username" then ValidateUsername(d.username)
    else if key == "email" then ValidateEmail(d.email)
    else if key == "bio" then (if d.bio == "" then Some("Bio is required") else None)
    else None
  }

  /** `validateProfile`: the sign-up field rules plus a required bio. */
  function ValidateProfile(d: ProfileData): (r: Errors)
    ensures r.Keys <= ProfileKeys
    ensures Get(r, "name") == ValidateName(d.name)
    ensures Get(r, "username") == ValidateUsername(d.username)
    ensures Get(r, "email") == ValidateEmail(d.email)
    ensures ("bio" in r) <==> d.bio == ""
    ensures "bio" in r ==> r["bio"] == "Bio is required"
  {
    map k | k in ProfileKeys && ProfileMessage(d, k).Some? :: ProfileMessage(d, k).value
  }

  /** `validatePost`: the long-caption message overrides the short-caption one. */
  function ValidatePost(caption: string, location: string): (r: Errors)
    ensures r.Keys <= {"caption", "location"}
    ensures ("caption" in r) <==> |caption| < 5 || |caption| > 2200
    ensures |caption| < 5 ==> Get(r, "caption") == Some("Caption must be at least 5 characters")
    ensures |caption| > 2200 ==> Get(r, "caption") == Some("Caption must be less than 2200 characters")
    ensures ("location" in r) <==> |location| > 1000
    ensures "location" in r ==> r["location"] == "Location must be less than 1000 characters"
  {
    var e0: Errors := map[];
    var e1 := if caption == "" || |caption| < 5
              then e0["caption" := "Caption must be at least 5 characters"] else e0;
    var e2 := if caption != "" && |caption| > 2200
              then e1["caption" := "Caption must be less than 2200 characters"] else e1;
    if location != "" && |location| > 1000
    then e2["location" := "Location must be less than 1000 characters"] else e2
  }
}

=== FILE: views.dfy ===
/** The Django views: what each endpoint reads from the tables and the request,
    and what it answers. `requester` is the authenticated user's id; the
    authentication classes themselves are not modelled. */
module Views {
  import opened Outcomes
  import opened Models
  import Serializers
  import Python
  import Seqs
  import Text
  import Js

  /** An HTTP answer: the body of a 200 or 201, an empty 204, a refusal with a
      status and an `error` message, a 400 listing serializer problems, a 404,
      or a 500 from an uncaught exception. */
  datatype Response<T> =
    | Ok(body: T)
    | Created(body: T)
    | NoContent
    | Refused(status: nat, error: string)
    | Invalid(problems: set<Serializers.Problem>)
    | NotFound
    | ServerError

  function Min(a: int, b: int): int { if a <= b then a else b }

  // ---------------------------------------------------------------- likes

  /** Adds the user to the likers when absent, removes them when present; the
      flag says whether they like the post afterwards. */
  function Toggle(likes: set<nat>, user: nat): (r: (set<nat>, bool))
    ensures r.1 <==> user !in likes
    ensures user in r.0 <==> r.1
    ensures forall other :: other != user ==> (other in r.0 <==> other in likes)
    ensures |r.0| == if r.1 then |likes| + 1 else |likes| - 1
  {
    if user in likes then (likes - {user}, false) else (likes + {user}, true)
  }

  lemma ToggleTwiceRestores(likes: set<nat>, user: nat)
    ensures Toggle(Toggle(likes, user).0, user).0 == likes
  {
  }

  datatype LikeReply = LikeReply(liked: bool, likesCount: nat)

  /** The position of the post `get_object_or_404(Post, id=...)` finds. */
  function PostIndex(posts: seq<Post>, id: nat): (r: Option<nat>)
    ensures r.None? <==> forall k :: 0 <= k < |posts| ==> posts[k].id != id
    ensures r.Some? ==> r.value < |posts| && posts[r.value].id == id
  {
    Seqs.FindIndex(posts, (p: Post) => p.id == id)
  }

  /** `like_post`: toggles the requester's like and answers the new state and the
      size of the likers set. No other post and no other liker changes. */
  function LikePost(posts: seq<Post>, postId: nat, requester: nat): (r: (seq<Post>, Response<LikeReply>))
    ensures r.1.NotFound? <==> PostIndex(posts, postId).None?
    ensures r.1.NotFound? || r.1.Ok?
    ensures r.1.NotFound? ==> r.0 == posts
    ensures r.1.Ok? ==>
              var k := PostIndex(posts, postId).value;
              && |r.0| == |posts|
              && (forall j :: 0 <= j < |posts| && j != k ==> r.0[j] == posts[j])
              && r.0[k] == posts[k].(likes := r.0[k].likes)
              && (r.1.body.liked <==> requester !in posts[k].likes)
              && (requester in r.0[k].likes <==> r.1.body.liked)
              && (forall other :: other != requester ==> (other in r.0[k].likes <==> other in posts[k].likes))
              && r.1.body.likesCount == |r.0[k].likes|
  {
    match PostIndex(posts, postId)
    case None => (posts, NotFound)
    case Some(k) =>
      var (likes, liked) := Toggle(posts[k].likes, requester);
      (posts[k := posts[k].(likes := likes)], Ok(LikeReply(liked, |likes|)))
  }

  /** Liking twice leaves the posts as they were. */
  lemma LikeTwiceRestores(posts: seq<Post>, postId: nat, requester: nat)
    ensures LikePost(LikePost(posts, postId, requester).0, postId, requester).0 == posts
  {
    var once := LikePost(posts, postId, requester).0;
    if PostIndex(posts, postId).Some? {
      var k := PostIndex(posts, postId).value;
      assert PostIndex(once, postId) == PostIndex(posts, postId) by {
        assert forall j :: 0 <= j < |posts| ==> once[j].id == posts[j].id;
        Seqs.FindIndexAgree(posts, once, (p: Post) => p.id == postId);
      }
      ToggleTwiceRestores(posts[k].likes, requester);
    }
  }

  /** The reply to a like agrees with the post as the serializer then renders it
      for the same user: `liked` is `is_liked` and the counts match. */
  lemma LikeReplyMatchesSerializer(posts: seq<Post>, postId: nat, requester: nat,
                                   comments: seq<Comment>, urlOf: string -> string)
    requires LikePost(posts, postId, requester).1.Ok?
    ensures var (after, reply) := LikePost(posts, postId, requester);
            var shown := Serializers.Serialize(after[PostIndex(posts, postId).value], comments,
                                               Some(requester), urlOf);
            shown.isLiked == reply.body.liked && shown.likesCount == reply.body.likesCount
  {
  }

  // ---------------------------------------------------------------- listings

  const PageSize := 20
  const RecentCount := 10

  /** `rows[offset:offset + size]` with Python's clamping at the end. */
  function Window<T>(rows: seq<T>, offset: nat, size: nat): (r: seq<T>)
    ensures |r| == if offset >= |rows| then 0 else Min(size, |rows| - offset)
    ensures forall i :: 0 <= i < |r| ==> r[i] == rows[offset + i]
  {
    if offset >= |rows| then [] else rows[offset..Min(offset + size, |rows|)]
  }

  /** `PostListView.get_queryset`: `int()` of the `offset` parameter (0 when
      absent), then twenty posts from there. A malformed offset raises
      `ValueError` and a negative one is refused by the queryset; neither is
      caught. */
  function ListPosts(posts: seq<Post>, offset: Option<string>): (r: Response<seq<Post>>)
    ensures r.Ok? || r.ServerError?
    ensures r.ServerError? <==>
              offset.Some? && (Python.ParseInt(offset.value).None? || Python.ParseInt(offset.value).value < 0)
    ensures offset.None? ==> r == Ok(Window(posts, 0, PageSize))
    ensures r.Ok? ==> r.body == Window(posts, if offset.None? then 0 else Python.ParseInt(offset.value).value, PageSize)
    ensures r.Ok? ==> |r.body| <= PageSize
  {
    var n := if offset.None? then Some(0) else Python.ParseInt(offset.value);
    if n.None? || n.value < 0 then ServerError else Ok(Window(posts, n.value, PageSize))
  }

  /** The offset the client sends, written as JavaScript writes a number, reads
      back as that offset. */
  lemma ClientOffsetServed(posts: seq<Post>, n: nat)
    ensures ListPosts(posts, Some(Js.ToStr(Js.Num(n)))) == Ok(Window(posts, n, PageSize))
  {
    Python.ParseIntRoundTrip(n);
  }

  /** The first `n` pages, one after another. */
  function Pages<T>(rows: seq<T>, n: nat): seq<T>
    decreases n
  {
    if n == 0 then [] else Pages(rows, n - 1) + Window(rows, (n - 1) * PageSize, PageSize)
  }

  /** Consecutive pages neither skip nor repeat a post: `n` pages are the first
      `20 n` posts. */
  lemma {:induction false} PagesCoverPrefix<T>(rows: seq<T>, n: nat)
    ensures Pages(rows, n) == rows[..Min(n * PageSize, |rows|)]
    decreases n
  {
    if n > 0 {
      PagesCoverPrefix(rows, n - 1);
      var a := Min((n - 1) * PageSize, |rows|);
      var b := Min(n * PageSize, |rows|);
      assert Window(rows, (n - 1) * PageSize, PageSize) == rows[a..b];
      assert rows[..a] + rows[a..b] == rows[..b];
    }
  }

  /** `RecentPostsView`: the first ten posts. */
  function RecentPosts(posts: seq<Post>): (r: seq<Post>)
    ensures |r| == Min(RecentCount, |posts|)
    ensures r == posts[..|r|]
  {
    posts[..Min(RecentCount, |posts|)]
  }

  /** `UserListView.get_queryset`: a truthy `limit` that parses as a
      non-negative integer cuts the list; any other value is ignored, the
      `ValueError` of a malformed or negative one being caught. */
  function ListUsers(users: seq<User>, limit: Option<string>): (r: seq<User>)
    ensures |r| <= |users| && r == users[..|r|]
    ensures |r| < |users| ==>
              TruthyStr(limit) && Python.ParseInt(limit.value).Some?
              && 0 <= Python.ParseInt(limit.value).value == |r|
    ensures TruthyStr(limit) && Python.ParseInt(limit.value).Some? && Python.ParseInt(limit.value).value >= 0 ==>
              |r| == Min(Python.ParseInt(limit.value).value, |users|)
  {
    if !TruthyStr(limit) then users
    else match Python.ParseInt(limit.value)
      case None => users
      case Some(n) => if n < 0 then users else users[..Min(n, |users|)]
  }

  /** A count the client sends comes back as at most that many users. */
  lemma ClientLimitServed(users: seq<User>, n: nat)
    ensures ListUsers(users, Some(Js.ToStr(Js.Num(n)))) == users[..Min(n, |users|)]
  {
    Python.ParseIntRoundTrip(n);
    assert Js.ToStr(Js.Num(n)) == Js.Digits(n);
  }

  /** `icontains` on ASCII letters. */
  predicate IContains(field: string, q: string) {
    Text.Contains(Text.Lower(field), Text.Lower(q))
  }

  predicate Matches(p: Post, q: string) {
    IContains(p.caption, q) || IContains(p.tags, q) || IContains(p.location, q)
  }

  /** `PostSearchView.get_queryset`: nothing for an empty or absent `q`,
      otherwise the posts whose caption, tags or location contain it. */
  function SearchPosts(posts: seq<Post>, q: Option<string>): (r: seq<Post>)
    ensures !TruthyStr(q) ==> r == []
    ensures TruthyStr(q) ==> forall p :: p in r <==> p in posts && Matches(p, q.value)
    ensures |r| <= |posts|
    ensures NewestFirst(posts, PostAt) ==> NewestFirst(r, PostAt)
    ensures multiset(r) <= multiset(posts)
  {
    if !TruthyStr(q) then []
    else
      var keep := (p: Post) => Matches(p, q.value);
      FilterKeepsNewestFirst(posts, keep, PostAt);
      Seqs.FilterSubMultiset(posts, keep);
      Seqs.Filter(posts, keep)
  }

  /** The search does not depend on the case of the term. */
  lemma SearchIgnoresCase(posts: seq<Post>, q: string)
    ensures SearchPosts(posts, Some(q)) == SearchPosts(posts, Some(Text.Lower(q)))
  {
    Text.LowerIdempotent(q);
    Seqs.FilterAgree(posts, (p: Post) => Matches(p, q), (p: Post) => Matches(p, Text.Lower(q)));
  }

  /** Searching for a post's whole caption finds it. */
  lemma SearchFindsCaption(posts: seq<Post>, k: nat)
    requires k < |posts| && posts[k].caption != ""
    ensures posts[k] in SearchPosts(posts, Some(posts[k].caption))
  {
    var low := Text.Lower(posts[k].caption);
    assert low[0..|low|] == low;
    Text.ContainsAt(low, low, 0);
  }

  // ---------------------------------------------------------------- login

  datatype LoginReply = LoggedIn(user: User) | LoginRefused(status: nat, error: string)

  const CredentialsRequired := "Username and password are required"
  const InvalidCredentials := "Invalid credentials"

  /** `LoginView.post`: 400 without both fields, 401 when no account has this
      email and password, otherwise the account (and its tokens). */
  function Login(users: seq<User>, username: Option<string>, password: Option<string>): (r: LoginReply)
    ensures r == LoginRefused(400, CredentialsRequired) <==> !TruthyStr(username) || !TruthyStr(password)
    ensures r == LoginRefused(401, InvalidCredentials) <==>
              TruthyStr(username) && TruthyStr(password) && Authenticate(users, username.value, password.value).None?
    ensures r.LoggedIn? <==>
              TruthyStr(username) && TruthyStr(password) && Authenticate(users, username.value, password.value).Some?
    ensures r.LoggedIn? ==>
              Some(r.user) == Authenticate(users, username.value, password.value)
              && r.user in users && r.user.email == username.value && r.user.password == password.value
  {
    if !TruthyStr(username) || !TruthyStr(password) then LoginRefused(400, CredentialsRequired)
    else match Authenticate(users, username.value, password.value)
      case None => LoginRefused(401, InvalidCredentials)
      case Some(u) => LoggedIn(u)
  }

  /** A registration keeps the accounts unique and appends a row with a
      non-empty email and password. */
  lemma RegisteredAccount(users: seq<User>, d: Serializers.Registration, emailOk: bool,
                          passwordOk: bool, nfkc: string -> string, now: int)
    requires UniqueAccounts(users)
    requires Serializers.Register(users, d, emailOk, passwordOk, nfkc, now).Registered?
    ensures var r := Serializers.Register(users, d, emailOk, passwordOk, nfkc, now);
            && UniqueAccounts(r.users) && |r.users| == |users| + 1 && r.users[|users|] == r.user
            && r.user.email != "" && r.user.password == Python.Strip(d.password.value) != ""
  {
    var e := Python.Strip(d.email.value);
    var password := Python.Strip(d.password.value);
    var name := if d.name.Some? then Python.Strip(d.name.value) else "";
    assert Serializers.FieldProblems(users, d, emailOk, passwordOk) == {};
    assert !Serializers.Blank(d.email) && !Serializers.Blank(d.password);
    CreateUserKeepsAccountsUnique(users, nfkc(Python.Strip(d.username.value)),
                                  Serializers.NormalizeEmail(e), name, password, now);
  }

  /** An account just registered logs in with its stored email and the password
      as the serializer stored it, stripped. */
  lemma RegisterThenLogin(users: seq<User>, d: Serializers.Registration, emailOk: bool,
                          passwordOk: bool, nfkc: string -> string, now: int)
    requires UniqueAccounts(users)
    requires Serializers.Register(users, d, emailOk, passwordOk, nfkc, now).Registered?
    ensures var r := Serializers.Register(users, d, emailOk, passwordOk, nfkc, now);
            Login(r.users, Some(r.user.email), Some(Python.Strip(d.password.value))) == LoggedIn(r.user)
  {
    var r := Serializers.Register(users, d, emailOk, passwordOk, nfkc, now);
    RegisteredAccount(users, d, emailOk, passwordOk, nfkc, now);
    var table, u := r.users, r.user;
    AuthenticateFindsAccount(table, |users|);
    assert Authenticate(table, u.email, u.password) == Some(u);
    assert TruthyStr(Some(u.email)) && TruthyStr(Some(u.password));
    assert Login(table, Some(u.email), Some(u.password)) == LoggedIn(u);
  }

  // ---------------------------------------------------------------- scoped querysets

  /** `UserPostsView`: the posts of the user named in the URL. */
  /** `UserPostsView.get_queryset`: the user's posts, in the table's newest-first
      order, each once. */
  function UserPosts(posts: seq<Post>, userId: nat): (r: seq<Post>)
    ensures forall p :: p in r <==> p in posts && p.user == userId
    ensures NewestFirst(posts, PostAt) ==> NewestFirst(r, PostAt)
    ensures multiset(r) <= multiset(posts)
  {
    var keep := (p: Post) => p.user == userId;
    FilterKeepsNewestFirst(posts, keep, PostAt);
    Seqs.FilterSubMultiset(posts, keep);
    Seqs.Filter(posts, keep)
  }

  /** `SavedPostListView.get_queryset`: the requester's saved posts only, in the
      table's newest-first order, each once. */
  function SavedList(saves: seq<SavedPost>, requester: nat): (r: seq<SavedPost>)
    ensures forall s :: s in r <==> s in saves && s.user == requester
    ensures NewestFirst(saves, SaveAt) ==> NewestFirst(r, SaveAt)
    ensures multiset(r) <= multiset(saves)
  {
    var keep := (s: SavedPost) => s.user == requester;
    FilterKeepsNewestFirst(saves, keep, SaveAt);
    Seqs.FilterSubMultiset(saves, keep);
    Seqs.Filter(saves, keep)
  }

  /** `CommentListView.create`: the serializer is validated first, so blank
      content is a 400 whether or not the post exists; then `perform_create`
      answers 404 for a missing post, and otherwise stores a new comment by the
      requester on that post. The clock stamps it no earlier than any stored
      comment. */
  function CreateComment(posts: seq<Post>, comments: seq<Comment>, postId: nat, requester: nat,
                         content: Option<string>, now: int): (r: (seq<Comment>, Response<Comment>))
    requires NewestFirst(comments, (c: Comment) => c.createdAt)
    requires forall k :: 0 <= k < |comments| ==> comments[k].createdAt <= now
    ensures r.1.Invalid? <==> Serializers.Blank(content)
    ensures r.1.NotFound? <==> !Serializers.Blank(content) && PostIndex(posts, postId).None?
    ensures r.1.Invalid? || r.1.NotFound? || r.1.Created?
    ensures !r.1.Created? ==> r.0 == comments
    ensures r.1.Created? ==>
              && r.1.body.user == requester && r.1.body.post == postId
              && r.1.body.content == Python.Strip(content.value)
              && r.0 == [r.1.body] + comments
              && NewestFirst(r.0, (c: Comment) => c.createdAt)
  {
    if Serializers.Blank(content) then (comments, Invalid({Serializers.Required("content")}))
    else if PostIndex(posts, postId).None? then (comments, NotFound)
    else
      var c := Comment(NextId(comments, (c: Comment) => c.id), postId, requester,
                       Python.Strip(content.value), now);
      (InsertNewest(comments, c, (c: Comment) => c.createdAt), Created(c))
  }

  /** A new comment adds one to its post's `comments_count`. */
  lemma CreateCommentCounts(posts: seq<Post>, comments: seq<Comment>, postId: nat, requester: nat,
                            content: Option<string>, now: int)
    requires NewestFirst(comments, (c: Comment) => c.createdAt)
    requires forall k :: 0 <= k < |comments| ==> comments[k].createdAt <= now
    requires CreateComment(posts, comments, postId, requester, content, now).1.Created?
    ensures Serializers.CommentsCount(CreateComment(posts, comments, postId, requester, content, now).0, postId)
            == Serializers.CommentsCount(comments, postId) + 1
  {
    var r := CreateComment(posts, comments, postId, requester, content, now);
    Serializers.CommentsCountPrepend(r.1.body, comments, postId);
  }

  /** The position of the requester's own comment with this id: `CommentDetailView`
      looks only among the requester's comments. */
  function OwnComment(comments: seq<Comment>, requester: nat, id: nat): (r: Option<nat>)
    ensures r.None? <==> forall k :: 0 <= k < |comments| ==> !(comments[k].id == id && comments[k].user == requester)
    ensures r.Some? ==> r.value < |comments| && comments[r.value].id == id && comments[r.value].user == requester
  {
    Seqs.FindIndex(comments, (c: Comment) => c.id == id && c.user == requester)
  }

  /** `PATCH /comments/<id>/`: the content changes when sent, nothing else does. */
  function UpdateComment(comments: seq<Comment>, requester: nat, id: nat, content: Option<string>)
    : (r: (seq<Comment>, Response<Comment>))
    ensures r.1.NotFound? <==> OwnComment(comments, requester, id).None?
    ensures r.1.Invalid? <==> OwnComment(comments, requester, id).Some? && content.Some? && Serializers.Blank(content)
    ensures r.1.NotFound? || r.1.Invalid? || r.1.Ok?
    ensures !r.1.Ok? ==> r.0 == comments
    ensures r.1.Ok? ==>
              var k := OwnComment(comments, requester, id).value;
              && r.0 == comments[k := r.1.body]
              && r.1.body == comments[k].(content := if content.Some? then Python.Strip(content.value) else comments[k].content)
  {
    match OwnComment(comments, requester, id)
    case None => (comments, NotFound)
    case Some(k) =>
      if content.Some? && Serializers.Blank(content) then (comments, Invalid({Serializers.Required("content")}))
      else
        var c := comments[k].(content := if content.Some? then Python.Strip(content.value) else comments[k].content);
        (comments[k := c], Ok(c))
  }

  /** `DELETE /comments/<id>/`: removes the requester's own comment. */
  function DeleteComment(comments: seq<Comment>, requester: nat, id: nat): (r: (seq<Comment>, Response<()>))
    ensures r.1.NotFound? <==> OwnComment(comments, requester, id).None?
    ensures r.1.NotFound? || r.1.NoContent?
    ensures r.1.NotFound? ==> r.0 == comments
    ensures r.1.NoContent? ==>
              var k := OwnComment(comments, requester, id).value;
              r.0 == comments[..k] + comments[k + 1..]
  {
    match OwnComment(comments, requester, id)
    case None => (comments, NotFound)
    case Some(k) => (comments[..k] + comments[k + 1..], NoContent)
  }

  /** Nobody edits or deletes another user's comment: every comment by someone
      else survives both operations unchanged. */
  lemma OthersCommentsUntouched(comments: seq<Comment>, requester: nat, id: nat,
                                content: Option<string>, c: Comment)
    requires c in comments && c.user != requester
    ensures c in UpdateComment(comments, requester, id, content).0
    ensures c in DeleteComment(comments, requester, id).0
  {
    var j :| 0 <= j < |comments| && comments[j] == c;
    var own := OwnComment(comments, requester, id);
    if own.Some? {
      var k := own.value;
      assert j != k;
      assert UpdateComment(comments, requester, id, content).0[j] == c;
      if j < k {
        assert DeleteComment(comments, requester, id).0[j] == c;
      } else {
        assert DeleteComment(comments, requester, id).0[j - 1] == c;
      }
    }
  }

  /** The position of the requester's own saved post with this id:
      `SavedPostDetailView` looks only among the requester's saves. */
  function OwnSave(saves: seq<SavedPost>, requester: nat, id: nat): (r: Option<nat>)
    ensures r.None? <==> forall k :: 0 <= k < |saves| ==> !(saves[k].id == id && saves[k].user == requester)
    ensures r.Some? ==> r.value < |saves| && saves[r.value].id == id && saves[r.value].user == requester
  {
    Seqs.FindIndex(saves, (s: SavedPost) => s.id == id && s.user == requester)
  }

  /** `SavedPostDetailView`: deletes one of the requester's own saved posts. */
  function DeleteSaved(saves: seq<SavedPost>, requester: nat, id: nat): (r: (seq<SavedPost>, Response<()>))
    ensures r.1.NotFound? <==> forall k :: 0 <= k < |saves| ==> !(saves[k].id == id && saves[k].user == requester)
    ensures r.1.NotFound? || r.1.NoContent?
    ensures r.1.NotFound? ==> r.0 == saves
    ensures r.1.NoContent? ==>
              exists k :: 0 <= k < |saves| && saves[k].id == id && saves[k].user == requester
                          && r.0 == saves[..k] + saves[k + 1..]
    ensures forall s :: s in saves && s.user != requester ==> s in r.0
    ensures forall s :: s in r.0 ==> s in saves
  {
    match OwnSave(saves, requester, id)
    case None => (saves, NotFound)
    case Some(k) =>
      var rest := saves[..k] + saves[k + 1..];
      assert forall s :: s in saves && s != saves[k] ==> s in rest by {
        forall s | s in saves && s != saves[k] ensures s in rest {
          var j :| 0 <= j < |saves| && saves[j] == s;
          if j < k { assert rest[j] == s; } else { assert rest[j - 1] == s; }
        }
      }
      (rest, NoContent)
  }

  /** `SavedPostListView.create` as written: its serializer declares `post`
      read-only, so the `post` the client sends never reaches the validated data
      and the row is inserted without one; the NOT NULL column makes the
      database refuse it, and the uncaught error is a 500. */
  function CreateSaveAsWritten(saves: seq<SavedPost>, requester: nat, post: Option<nat>, now: int)
    : (r: (seq<SavedPost>, Response<SavedPost>))
    requires NewestFirst(saves, SaveAt)
    ensures r.1.ServerError? && r.0 == saves
  {
    var validated: Option<nat> := None;
    match InsertSave(saves, requester, validated, now)
    case IntegrityError => (saves, ServerError)
    case Written(table, row) => (table, Created(row))
  }

  /** `SavedPostListView.create` with the create serializer that accepts `post`
      (`SavedPostCreateSerializer`): a missing or unknown post is a 400; a pair the
      requester already saved reaches the database's `unique_together` and is a
      500, since that serializer does not carry `user` and so adds no uniqueness
      validator; otherwise the save is stored newest first. */
  function CreateSave(posts: seq<Post>, saves: seq<SavedPost>, requester: nat, post: Option<nat>, now: int)
    : (r: (seq<SavedPost>, Response<SavedPost>))
    requires NewestFirst(saves, SaveAt)
    ensures r.1.Invalid? <==> post.None? || PostIndex(posts, post.value).None?
    ensures r.1.ServerError? <==> post.Some? && PostIndex(posts, post.value).Some? && Saved(saves, requester, post.value)
    ensures r.1.Invalid? || r.1.ServerError? || r.1.Created?
    ensures !r.1.Created? ==> r.0 == saves
    ensures r.1.Created? ==>
              && r.1.body.user == requester && post == Some(r.1.body.post)
              && (forall k :: 0 <= k < |saves| ==> saves[k].id != r.1.body.id)
              && NewestFirst(r.0, SaveAt)
              && multiset(r.0) == multiset(saves) + multiset{r.1.body}
  {
    if post.None? then (saves, Invalid({Serializers.Required("post")}))
    else if PostIndex(posts, post.value).None? then (saves, Invalid({Serializers.DoesNotExist("post")}))
    else
      match InsertSave(saves, requester, post, now)
      case IntegrityError => (saves, ServerError)
      case Written(table, row) => (table, Created(row))
  }

  /** Saving post 7, which exists and nobody has saved, fails as written and
      succeeds with the create serializer. */
  lemma AsWrittenCannotSave(now: int)
    ensures
      var posts := [Post(7, 1, "caption", None, "", "", {}, 0)];
      && CreateSaveAsWritten([], 2, Some(7), now).1.ServerError?
      && CreateSave(posts, [], 2, Some(7), now).1.Created?
  {
    var posts := [Post(7, 1, "caption", None, "", "", {}, 0)];
    assert PostIndex(posts, 7) == Some(0);
    assert !Saved([], 2, 7);
  }

  /** Removing, from a table that gained one row with a fresh id, a row carrying
      that id gives back the rows of the old table. */
  lemma RemoveFreshRow(saves: seq<SavedPost>, t: seq<SavedPost>, x: SavedPost, k: nat)
    requires multiset(t) == multiset(saves) + multiset{x}
    requires forall j :: 0 <= j < |saves| ==> saves[j].id != x.id
    requires k < |t| && t[k].id == x.id
    ensures multiset(t[..k] + t[k + 1..]) == multiset(saves)
  {
    assert t[k] == x by {
      assert t[k] in multiset(t);
      assert forall y :: y in multiset(saves) ==> y.id != x.id;
    }
    assert t == t[..k] + [t[k]] + t[k + 1..];
    assert multiset(t) == multiset(t[..k]) + multiset{x} + multiset(t[k + 1..]);
    var rest := multiset(t[..k] + t[k + 1..]);
    assert rest == multiset(t[..k]) + multiset(t[k + 1..]);
    assert forall y :: rest[y] == multiset(saves)[y] by {
      forall y ensures rest[y] == multiset(saves)[y] {
        assert multiset(t)[y] == rest[y] + multiset{x}[y];
      }
    }
  }

  /** A save followed by deleting it by its new id restores the table's rows. */
  lemma {:induction false} SaveThenDeleteRestores(posts: seq<Post>, saves: seq<SavedPost>, requester: nat,
                                                  post: nat, now: int)
    requires NewestFirst(saves, SaveAt)
    requires CreateSave(posts, saves, requester, Some(post), now).1.Created?
    ensures
      var created := CreateSave(posts, saves, requester, Some(post), now);
      var deleted := DeleteSaved(created.0, requester, created.1.body.id);
      deleted.1.NoContent? && multiset(deleted.0) == multiset(saves)
  {
    var created := CreateSave(posts, saves, requester, Some(post), now);
    var t, x := created.0, created.1.body;
    assert x in multiset(t);
    assert x in t;
    var deleted := DeleteSaved(t, requester, x.id);
    assert deleted.1.NoContent?;
    var k :| 0 <= k < |t| && t[k].id == x.id && t[k].user == requester && deleted.0 == t[..k] + t[k + 1..];
    RemoveFreshRow(saves, t, x, k);
  }

  // ---------------------------------------------------------------- posts

  /** The fields a post form carries; `image` is present with `None` when cleared. */
  datatype PostInput = PostInput(caption: Option<string>, image: Option<Option<string>>,
                                 location: Option<string>, tags: Option<string>)

  /** `PostCreateSerializer` validation: the caption is required on create and
      never blank; location and tags are bounded. A partial update skips missing
      fields. */
  function PostProblems(d: PostInput, partial: bool): (r: set<Serializers.Problem>)
    ensures r == {} <==>
              (if partial then d.caption.None? || !Serializers.Blank(d.caption) else !Serializers.Blank(d.caption))
              && (d.location.None? || |Python.Strip(d.location.value)| <= LocationMax)
              && (d.tags.None? || |Python.Strip(d.tags.value)| <= TagsMax)
  {
    (if (!partial || d.caption.Some?) && Serializers.Blank(d.caption) then {Serializers.Required("caption")} else {})
    + (if d.location.Some? && |Python.Strip(d.location.value)| > LocationMax
       then {Serializers.TooLong("location", LocationMax)} else {})
    + (if d.tags.Some? && |Python.Strip(d.tags.value)| > TagsMax
       then {Serializers.TooLong("tags", TagsMax)} else {})
  }

  function PostAt(p: Post): int { p.createdAt }

  /** `PostListView.perform_create`: the owner is the requester, whatever the body
      says; the post starts without likes and goes first. */
  function CreatePost(posts: seq<Post>, requester: nat, d: PostInput, now: int): (r: (seq<Post>, Response<Post>))
    requires NewestFirst(posts, PostAt)
    requires forall k :: 0 <= k < |posts| ==> posts[k].createdAt <= now
    ensures r.1.Invalid? <==> PostProblems(d, false) != {}
    ensures r.1.Invalid? || r.1.Created?
    ensures r.1.Invalid? ==> r.0 == posts
    ensures r.1.Created? ==>
              && r.1.body.user == requester && r.1.body.likes == {}
              && r.1.body.caption == Python.Strip(d.caption.value)
              && r.1.body.location == Serializers.Clean(d.location).GetOr("")
              && r.1.body.tags == Serializers.Clean(d.tags).GetOr("")
              && (forall k :: 0 <= k < |posts| ==> posts[k].id != r.1.body.id)
              && r.0 == [r.1.body] + posts && NewestFirst(r.0, PostAt)
  {
    if PostProblems(d, false) != {} then (posts, Invalid(PostProblems(d, false)))
    else
      var p := Post(NextId(posts, (p: Post) => p.id), requester, Python.Strip(d.caption.value),
                    if d.image.Some? then d.image.value else None,
                    Serializers.Clean(d.location).GetOr(""), Serializers.Clean(d.tags).GetOr(""), {}, now);
      (InsertNewest(posts, p, PostAt), Created(p))
  }

  /** `ModelSerializer.update` with the fields sent: each present field replaces
      the stored one. */
  function Patch(p: Post, d: PostInput): (r: Post)
    ensures r.caption == Serializers.Clean(d.caption).GetOr(p.caption)
    ensures r.location == Serializers.Clean(d.location).GetOr(p.location)
    ensures r.tags == Serializers.Clean(d.tags).GetOr(p.tags)
    ensures r.image == (if d.image.Some? then d.image.value else p.image)
    ensures r.id == p.id && r.user == p.user && r.likes == p.likes && r.createdAt == p.createdAt
  {
    p.(caption := Serializers.Clean(d.caption).GetOr(p.caption),
       image := if d.image.Some? then d.image.value else p.image,
       location := Serializers.Clean(d.location).GetOr(p.location),
       tags := Serializers.Clean(d.tags).GetOr(p.tags))
  }

  /** `PATCH /posts/<id>/` as written: the queryset holds every post and
      `perform_update` saves with `user=request.user`, so any authenticated user
      may edit any post and becomes its owner. */
  function UpdatePostAsWritten(posts: seq<Post>, requester: nat, id: nat, d: PostInput)
    : (r: (seq<Post>, Response<Post>))
    ensures r.1.NotFound? <==> PostIndex(posts, id).None?
    ensures r.1.NotFound? || r.1.Invalid? || r.1.Ok?
    ensures r.1.Invalid? <==> PostIndex(posts, id).Some? && PostProblems(d, true) != {}
    ensures !r.1.Ok? ==> r.0 == posts
    ensures r.1.Ok? ==>
              var k := PostIndex(posts, id).value;
              && r.1.body.user == requester
              && r.1.body == Patch(posts[k], d).(user := requester)
              && r.0 == posts[k := r.1.body]
  {
    match PostIndex(posts, id)
    case None => (posts, NotFound)
    case Some(k) =>
      if PostProblems(d, true) != {} then (posts, Invalid(PostProblems(d, true)))
      else
        var p := Patch(posts[k], d).(user := requester);
        (posts[k := p], Ok(p))
  }

  /** User 2 edits user 1's post 7 without changing a field, and the post is
      now theirs. */
  lemma AsWrittenTransfersOwnership()
    ensures var posts := [Post(7, 1, "hi", None, "", "", {}, 0)];
            var r := UpdatePostAsWritten(posts, 2, 7, PostInput(None, None, None, None));
            r.1.Ok? && r.0[0].user == 2 && posts[0].user == 1
  {
    var posts := [Post(7, 1, "hi", None, "", "", {}, 0)];
    assert PostIndex(posts, 7) == Some(0);
  }

  /** The position of the requester's own post with this id. */
  function OwnPost(posts: seq<Post>, requester: nat, id: nat): (r: Option<nat>)
    ensures r.None? <==> forall k :: 0 <= k < |posts| ==> !(posts[k].id == id && posts[k].user == requester)
    ensures r.Some? ==> r.value < |posts| && posts[r.value].id == id && posts[r.value].user == requester
  {
    Seqs.FindIndex(posts, (p: Post) => p.id == id && p.user == requester)
  }

  /** `PATCH /posts/<id>/` restricted as the comment endpoints are: only the
      owner's own post is found, and the owner never changes. */
  function UpdatePost(posts: seq<Post>, requester: nat, id: nat, d: PostInput)
    : (r: (seq<Post>, Response<Post>))
    ensures r.1.NotFound? <==> OwnPost(posts, requester, id).None?
    ensures r.1.NotFound? || r.1.Invalid? || r.1.Ok?
    ensures !r.1.Ok? ==> r.0 == posts
    ensures r.1.Invalid? <==> OwnPost(posts, requester, id).Some? && PostProblems(d, true) != {}
    ensures r.1.Ok? ==>
              var k := OwnPost(posts, requester, id).value;
              r.0 == posts[k := Patch(posts[k], d)] && r.1.body == Patch(posts[k], d)
  {
    match OwnPost(posts, requester, id)
    case None => (posts, NotFound)
    case Some(k) =>
      if PostProblems(d, true) != {} then (posts, Invalid(PostProblems(d, true)))
      else (posts[k := Patch(posts[k], d)], Ok(Patch(posts[k], d)))
  }

  /** Updates never move a post to another owner, and leave other users' posts
      exactly as they were. */
  lemma UpdatePostKeepsOwners(posts: seq<Post>, requester: nat, id: nat, d: PostInput)
    ensures var after := UpdatePost(posts, requester, id, d).0;
            && |after| == |posts|
            && (forall j :: 0 <= j < |posts| ==> after[j].user == posts[j].user && after[j].id == posts[j].id)
            && (forall j :: 0 <= j < |posts| && posts[j].user != requester ==> after[j] == posts[j])
  {
  }

  /** The rows a post delete reaches: `Comment.post` and `SavedPost.post` are
      foreign keys declared with `on_delete=CASCADE`. */
  datatype Tables = Tables(posts: seq<Post>, comments: seq<Comment>, saves: seq<SavedPost>)

  /** `after` is `before` without the post at position `k` and without every
      comment and save that pointed at that post. */
  ghost predicate CascadeDeleted(before: Tables, after: Tables, k: nat)
    requires k < |before.posts|
  {
    var id := before.posts[k].id;
    && after.posts == before.posts[..k] + before.posts[k + 1..]
    && (forall c :: c in after.comments <==> c in before.comments && c.post != id)
    && (forall s :: s in after.saves <==> s in before.saves && s.post != id)
  }

  /** Deleting the post at position `k` cascades to its comments and saves; the
      surviving rows keep their order and are never duplicated. */
  function Cascade(t: Tables, k: nat): (r: Tables)
    requires k < |t.posts|
    ensures CascadeDeleted(t, r, k)
    ensures multiset(r.comments) <= multiset(t.comments) && multiset(r.saves) <= multiset(t.saves)
    ensures NewestFirst(t.comments, CommentAt) ==> NewestFirst(r.comments, CommentAt)
    ensures NewestFirst(t.saves, SaveAt) ==> NewestFirst(r.saves, SaveAt)
  {
    var id := t.posts[k].id;
    var keepComment := (c: Comment) => c.post != id;
    var keepSave := (s: SavedPost) => s.post != id;
    FilterKeepsNewestFirst(t.comments, keepComment, CommentAt);
    FilterKeepsNewestFirst(t.saves, keepSave, SaveAt);
    Seqs.FilterSubMultiset(t.comments, keepComment);
    Seqs.FilterSubMultiset(t.saves, keepSave);
    Tables(t.posts[..k] + t.posts[k + 1..], Seqs.Filter(t.comments, keepComment), Seqs.Filter(t.saves, keepSave))
  }

  /** `DELETE /posts/<id>/` as written: any authenticated user deletes any post,
      and with it the post's comments and saves. */
  function DeletePostAsWritten(t: Tables, requester: nat, id: nat): (r: (Tables, Response<()>))
    ensures r.1.NotFound? <==> PostIndex(t.posts, id).None?
    ensures r.1.NotFound? || r.1.NoContent?
    ensures r.1.NotFound? ==> r.0 == t
    ensures r.1.NoContent? ==> CascadeDeleted(t, r.0, PostIndex(t.posts, id).value)
  {
    match PostIndex(t.posts, id)
    case None => (t, NotFound)
    case Some(k) => (Cascade(t, k), NoContent)
  }

  /** User 2 deletes user 1's post 7, and the comment on it goes too. */
  lemma AsWrittenDeletesOthersPost()
    ensures DeletePostAsWritten(Tables([Post(7, 1, "hi", None, "", "", {}, 0)], [Comment(3, 7, 1, "nice", 0)], []), 2, 7)
            == (Tables([], [], []), NoContent)
  {
    var t := Tables([Post(7, 1, "hi", None, "", "", {}, 0)], [Comment(3, 7, 1, "nice", 0)], []);
    assert PostIndex(t.posts, 7) == Some(0);
    var r := Cascade(t, 0);
    assert r.posts == [];
    assert Comment(3, 7, 1, "nice", 0) !in r.comments;
    assert multiset(r.comments) == multiset{};
    assert |r.comments| == |multiset(r.comments)| == 0;
    assert |r.saves| == |multiset(r.saves)| == 0;
  }

  /** `DELETE /posts/<id>/` restricted to the owner's own posts, with the same cascade. */
  function DeletePost(t: Tables, requester: nat, id: nat): (r: (Tables, Response<()>))
    ensures r.1.NotFound? <==> OwnPost(t.posts, requester, id).None?
    ensures r.1.NotFound? || r.1.NoContent?
    ensures r.1.NotFound? ==> r.0 == t
    ensures r.1.NoContent? ==> CascadeDeleted(t, r.0, OwnPost(t.posts, requester, id).value)
  {
    match OwnPost(t.posts, requester, id)
    case None => (t, NotFound)
    case Some(k) => (Cascade(t, k), NoContent)
  }

  /** After a delete, nothing the API serves still points at the deleted post:
      its comment count is zero and nobody's saved list holds it. */
  lemma DeleteLeavesNoDanglingRows(t: Tables, requester: nat, id: nat, user: nat)
    requires DeletePost(t, requester, id).1.NoContent?
    ensures var after := DeletePost(t, requester, id).0;
            && Serializers.CommentsCount(after.comments, id) == 0
            && forall s :: s in SavedList(after.saves, user) ==> s.post != id
  {
    var after := DeletePost(t, requester, id).0;
    Seqs.FilterDropsAll(after.comments, (c: Comment) => c.post == id);
  }

  /** Every post of another user survives a delete. */
  lemma OthersPostsSurviveDelete(t: Tables, requester: nat, id: nat, p: Post)
    requires p in t.posts && p.user != requester
    ensures p in DeletePost(t, requester, id).0.posts
  {
    var j :| 0 <= j < |t.posts| && t.posts[j] == p;
    var own := OwnPost(t.posts, requester, id);
    if own.Some? {
      var k := own.value;
      if j < k {
        assert DeletePost(t, requester, id).0.posts[j] == p;
      } else {
        assert DeletePost(t, requester, id).0.posts[j - 1] == p;
      }
    }
  }
}
